=== FILE: README.md ===
# skeleton core, modelled in Dafny

A model of the rule-bearing core of the `skeleton` Go service template, with
proofs about it. The model covers two dispatch mechanisms and the small
utilities around them.

- **Message dispatch.**
  - A `ProcessorRegistry` maps message types to processors.
  - An incoming body is decoded as a `MessageEnvelope` and routed by its `message_type`. An unknown type is silently accepted.
  - The `MessageConsumerService` wires the built-in `"hello"` processor into the registry.
  - `HelloProcessor` decodes the payload and pushes its content to an optional Redis store.
  - `helloService` builds the envelope this path consumes and publishes it.
  - The RabbitMQ layer acks or nacks each delivery, sets prefetch 1 and runs the declare/bind topology setup.
- **Job scheduling.**
  - `JobRegistry` keeps factories by name, with `hello_job` preregistered.
  - It turns job configurations into `duration`, `cron` or `daily` (HH:MM) job definitions.
  - It adds the enabled ones to the `SchedulerService`, failing fast but keeping the jobs added before the failure.
- **Supporting rules.**
  - `AppError` construction, status mapping and wrap-chain classification.
  - The fluent `ConfigValidation` accumulator and the `GetEnv*` helpers.
  - Database configuration validation and driver selection.
  - `BaseApp.ValidateConfig` and `Health`.
  - `ServiceManager` ordering.
  - The user service's business rules over a repository.
  - i18n default filling, the translation fallback chain and Accept-Language mapping.
  - The validator's key stripping and tag names.
  - Machine-ID derivation for the ID generator.

Each module follows one Go file:

| Dafny file | module | models |
|---|---|---|
| common.dfy | Common | `Option` |
| strings.dfy | Strings | `strings.Index` and prefix tests |
| decimal.dfy | Decimal | `%d` rendering, `strconv.Atoi`, `strconv.ParseBool` |
| values.dfy | Values | Go `interface{}` values and their `%v` rendering |
| errors.dfy | Errors | pkg/errors/errors.go, and the `Result` of a Go `(value, error)` pair |
| json.dfy | Json | JSON documents (syntax abstracted) |
| envelope.dfy | Envelope | `MessageEnvelope` decoding and encoding |
| message_processor.dfy | Messaging | internal/messaging/message_processor.go |
| hello_processor.dfy | HelloProcessor | internal/messaging/processors/hello_processor.go |
| message_consumer.dfy | MessageConsumer | internal/messaging/consumer/message_consumer.go |
| hello_service.dfy | HelloService | internal/service/hello_service.go |
| rabbitmq.dfy | RabbitMQ | pkg/mq/rabbitmq.go |
| scheduler.dfy | Scheduler | internal/scheduler/scheduler.go |
| job_registry.dfy | JobRegistry | internal/scheduler/job_registry.go |
| config_validator.dfy | ConfigValidator | pkg/config/validator.go |
| database.dfy | Database | pkg/database/database.go |
| app.dfy | App | pkg/app/app.go |
| service.dfy | Services | pkg/service/service.go |
| user_service.dfy | UserService | internal/service/user_service.go |
| i18n.dfy | I18n | pkg/i18n/i18n.go |
| validator.dfy | Validator | pkg/validator/validator.go |
| idgen.dfy | IdGen | pkg/idgen/sonyflake.go |

Modelling conventions:

- **Go `error` values.** A Go `error` is the datatype `Errors.Error`. It is either a plain error (`Simple`), an `fmt.Errorf("…: %w")` wrap (`Wrapped`) or an `*AppError` (`App`).
- **Objects with state.** Objects whose fields the Go code updates in place are classes:
  - `ProcessorRegistry`, `ConfigValidation`, `SchedulerService`, `JobRegistry`, `ServiceManager`, `UserService`;
  - the AMQP connection, which records every channel request in its `log`.
- **Loops.** Go loops become methods with loop invariants. Each is proved against a reference function: `Run` for the declare/bind sequence, `AddAll` for job initialisation, `LoadAll` for loading message files.
- **Foreign calls** are parameters of the model: the broker's answers, gocron's job creation, `time.ParseDuration`, bcrypt, go-i18n's localizer, `language.ParseAcceptLanguage`, `net.InterfaceAddrs` and the sonyflake library.

### Error classification: the first AppError decides

`IsXxxError(err)` uses `errors.As`, so only the first `*AppError` in the wrap chain decides the classification. An `AppError` of the asked-for type further down the chain is not seen.

- `Errors.IsOfTypeFirstInChain` proves that classification is decided by the first `AppError` in the chain.
- `Errors.InnerAppErrorIsHidden` exhibits a not-found error, wrapped in an internal one, that is not classified as not-found.

## Model

| member | source | states |
|---|---|---|
| Errors.StatusCodeByType | pkg/errors/errors.go:130-147 | validation 400, not_found 404, unauthorized 401, forbidden 403, conflict 409, and every other type 500, each as an if-and-only-if |
| Errors.New | pkg/errors/errors.go:62-69 | type and message are kept, the code is the type's status, and no cause, message ID, details or data are set |
| Errors.NewI18n | pkg/errors/errors.go:72-81 | the message ID doubles as the default message; the code is the type's status; the data is kept |
| Errors.Wrap | pkg/errors/errors.go:84-92 | the wrapped error becomes the cause; the code is the type's status |
| Errors.WrapI18n | pkg/errors/errors.go:95-105 | cause, message ID as default message, data and the type's status |
| Errors.ConstructorStatus | pkg/errors/errors.go:62-105 | all four constructors set the same code, the type's status, and it is below 500 exactly for the five client-error types |
| Errors.AppTextStartsWithMessage | pkg/errors/errors.go:36-41 | `Error()` starts with the message, and equals it exactly when there is no cause |
| Errors.Unwrap | pkg/errors/errors.go:44-46 | a `%w` wrap unwraps to its cause and an AppError to its `Err`; nothing exactly for a plain error or an AppError without a cause; the result is strictly smaller |
| Errors.AppIsIsEquivalence | pkg/errors/errors.go:49-54 | `Is` is reflexive, symmetric and transitive, ignores message and code, and never matches a non-AppError |
| Errors.WithDetails | pkg/errors/errors.go:108-111 | only the details field changes |
| Errors.WithData | pkg/errors/errors.go:124-127 | only the data field changes |
| Errors.LocalizedMessageFallback | pkg/errors/errors.go:114-121 | without a message ID or without a translator the message is returned; with both, the translator's result |
| Errors.Chain | pkg/errors/errors.go:189-227 | the wrap chain is non-empty and starts at the error itself |
| Errors.IsOfTypeFirstInChain | pkg/errors/errors.go:189-227 | `IsXxxError` holds iff the first AppError in the wrap chain has that type |
| Errors.ChainShift | pkg/errors/errors.go:189-227 | a `%w` wrap shifts the first AppError one place down the chain |
| Errors.InnerAppErrorIsHidden | pkg/errors/errors.go:189-192 | a not-found error wrapped by an internal AppError is in the chain but is not classified as not-found |
| Errors.WrappingKeepsType | pkg/errors/errors.go:189-227 | wrapping with `fmt.Errorf("%w")` does not change classification |
| Errors.ValidationError | pkg/errors/errors.go:164-166 | `New` with the validation type, status 400 |
| Errors.NotFoundError | pkg/errors/errors.go:168-170 | `New` with the not-found type, status 404 |
| Errors.UnauthorizedError | pkg/errors/errors.go:172-174 | `New` with the unauthorized type, status 401 |
| Errors.ForbiddenError | pkg/errors/errors.go:176-178 | `New` with the forbidden type, status 403 |
| Errors.ConflictError | pkg/errors/errors.go:180-182 | `New` with the conflict type, status 409 |
| Errors.InternalError | pkg/errors/errors.go:184-186 | `New` with the internal type, status 500 |
| Errors.GetHTTPStatus | pkg/errors/errors.go:230-232 | the type's status as `getStatusCodeByType` maps it, below 500 exactly for the five client-error types |
| Decimal.DigitChar | internal/service/hello_service.go:33 | a digit value renders as a decimal digit character |
| Decimal.DigitValue | pkg/config/validator.go:203-210 | a digit character has a value below 10 |
| Decimal.NatToString | pkg/idgen/sonyflake.go:101 | a rendering is all digits, non-empty and without a leading zero |
| Decimal.IntToString | pkg/idgen/sonyflake.go:101 | a rendering is non-empty |
| Decimal.NatToStringValue | pkg/idgen/sonyflake.go:101 | the digits of a rendering evaluate back to the number |
| Decimal.Atoi | pkg/config/validator.go:203-210 | a successful parse is a 64-bit value read from a non-empty string |
| Decimal.AtoiIntToString | pkg/idgen/sonyflake.go:101 | parsing the `%d` rendering of any 64-bit integer gives it back |
| Decimal.WrapInt64 | internal/service/user_service.go:163 | the result lies in the 64-bit range, equals its argument when that fits, and is congruent to it modulo 2^64 |
| Decimal.ParseBool | pkg/config/validator.go:213-220 | exactly `1 t T TRUE true True` give true and `0 f F FALSE false False` give false |
| Strings.IndexOf | pkg/validator/validator.go:85 | -1 iff the character is absent, otherwise the position of its first occurrence |
| Strings.Before | pkg/validator/validator.go:39 | the text before the first separator, all of it when there is none |
| Strings.After | pkg/validator/validator.go:85 | the text after the first separator, so that before + separator + after is the input |
| Envelope.Decode | internal/messaging/message_processor.go:49-55 | malformed bodies and non-objects fail; JSON `null` gives the zero envelope; an object decodes iff its fields are well-typed, and then the id, type, raw payload and timestamp are its members |
| Envelope.DecodeEncode | internal/messaging/message_processor.go:78-85 | encoding an envelope with a payload and decoding it gives it back |
| Envelope.UnmarshalPayload | internal/messaging/message_processor.go:98-100 | only the raw payload is decoded; a missing payload is an end-of-input error |
| Messaging.ProcessorRegistry.constructor | internal/messaging/message_processor.go:31-36 | the registry starts empty |
| Messaging.ProcessorRegistry.RegisterProcessor | internal/messaging/message_processor.go:39-46 | the processor is stored under its own type, replacing an earlier one; other types are unchanged |
| Messaging.ProcessorRegistry.ProcessIncomingMessage | internal/messaging/message_processor.go:49-75 | a decode failure is wrapped and no processor runs; an unknown type gives nil and no processor runs; otherwise the processor runs exactly once on the decoded envelope and its result is returned unchanged |
| Messaging.ProcessorRegistry.GetRegisteredTypes | internal/messaging/message_processor.go:103-112 | every registered type exactly once, as many as there are entries |
| HelloProcessor.SupportedMessageType | internal/messaging/processors/hello_processor.go:25-27 | always `"hello"` |
| HelloProcessor.DecodeEvent | internal/messaging/processors/hello_processor.go:84-88 | JSON `null` gives the zero event; an object decodes iff content and sender are strings and the timestamp an int64, and then these are its members; non-objects fail |
| HelloProcessor.HandleHelloMessage | internal/messaging/processors/hello_processor.go:59-81 | always nil; no store means no writes; otherwise the content is pushed under `hello:messages:` + date, and the 7-day expiry is set exactly when the push succeeded |
| HelloProcessor.ProcessMessage | internal/messaging/processors/hello_processor.go:30-56 | a payload decode error is returned with no store writes; otherwise the handler's outcome |
| HelloProcessor.ProcessMessageOutcome | internal/messaging/processors/hello_processor.go:35-52 | processing succeeds iff the payload decodes, and any store write is the push of its content |
| MessageConsumer.MessageConsumerService.constructor | internal/messaging/consumer/message_consumer.go:21-50 | the fresh registry holds exactly the hello processor |
| MessageConsumer.MessageConsumerService.ConsumeMessage | internal/messaging/consumer/message_consumer.go:53-66 | exactly the registry's dispatch outcome; success implies the body decoded |
| MessageConsumer.MessageConsumerService.GetRegisteredProcessorTypes | internal/messaging/consumer/message_consumer.go:69-71 | the registry's types, each once |
| MessageConsumer.MessageConsumerService.Shutdown | internal/messaging/consumer/message_consumer.go:74-78 | always nil, no state change |
| HelloService.MessageID | internal/service/hello_service.go:33 | the ID starts with `msg-` followed by at least one character |
| HelloService.MessageIDDigits | internal/service/hello_service.go:33 | after `msg-` come the decimal digits of the nanosecond clock, which parse back to it |
| HelloService.HelloEnvelope | internal/service/hello_service.go:36-58 | message type `"hello"` and the generated message ID |
| HelloService.HelloPublishing | internal/service/hello_service.go:67-73 | content type `application/json`, persistent delivery, a JSON body and the generated ID as `MessageId` |
| HelloService.PublishHelloMessage | internal/service/hello_service.go:32-81 | publishes to `hello.exchange` with key `hello` on a fresh channel; succeeds iff channel and publish succeed, returning the ID; otherwise `""` and a wrapped error |
| HelloService.HelloBodyRoundTrip | internal/service/hello_service.go:36-61 | the published body decodes to the built envelope with the same ID, and its payload to an event with the request's content and sender |
| HelloService.PublishedMessageReachesHello | internal/service/hello_service.go:36-47 | the consumer dispatches a published body to the hello processor exactly once, without error |
| RabbitMQ.Connection.Call | pkg/mq/rabbitmq.go:83-116 | one channel request is logged and answered by the broker |
| RabbitMQ.Producer.constructor | pkg/mq/rabbitmq.go:26-28 | the producer keeps the connection it is given |
| RabbitMQ.Producer.Publish | pkg/mq/rabbitmq.go:34-51 | opens a channel per call; on failure wraps `failed to open a channel`; otherwise publishes (not mandatory, not immediate) and closes the channel, returning the publish answer |
| RabbitMQ.Settle | pkg/mq/rabbitmq.go:141-147 | ack (single) iff the handler returned nil, otherwise nack with requeue; never both |
| RabbitMQ.SettlementsInOrder | pkg/mq/rabbitmq.go:137-148 | one settlement per delivery, in arrival order |
| RabbitMQ.ExchangeStepsAt | pkg/mq/rabbitmq.go:166-170 | one declare per configured exchange, in order |
| RabbitMQ.BindStepsAt | pkg/mq/rabbitmq.go:180-185 | one bind per routing key, in order |
| RabbitMQ.QueuesStepsDeclareNoExchange | pkg/mq/rabbitmq.go:173-186 | the queue phase declares no exchange |
| RabbitMQ.ExchangesFirst | pkg/mq/rabbitmq.go:166-173 | every exchange is declared, in config order, before any queue request |
| RabbitMQ.BindAfterDeclare | pkg/mq/rabbitmq.go:173-185 | every bind comes after its queue's declaration and binds it to the queue's exchange with one of its keys |
| RabbitMQ.RunExtends | pkg/mq/rabbitmq.go:164-189 | setup only appends a prefix of the plan to the log |
| RabbitMQ.RunAppend | pkg/mq/rabbitmq.go:164-189 | running two phases equals running the second after the first unless the first failed |
| RabbitMQ.RunEarlierSucceeded | pkg/mq/rabbitmq.go:164-189 | every request before the last one sent succeeded |
| RabbitMQ.RunFailure | pkg/mq/rabbitmq.go:167-169 | on failure the last request sent is the failing one, and its error is wrapped with that request's name |
| RabbitMQ.RunSuccess | pkg/mq/rabbitmq.go:164-189 | on success the whole plan was sent and every request succeeded |
| RabbitMQ.Consumer.Consume | pkg/mq/rabbitmq.go:119-153 | registers a manual-ack consumer (failure wrapped `failed to register a consumer`), then settles every delivery in order |
| RabbitMQ.Consumer.Close | pkg/mq/rabbitmq.go:156-161 | nil without a channel; otherwise closes it and returns the answer |
| RabbitMQ.Consumer.DeclareExchange | pkg/mq/rabbitmq.go:83-93 | one exchange declaration (not internal, wait), answer returned |
| RabbitMQ.Consumer.DeclareQueue | pkg/mq/rabbitmq.go:96-105 | one queue declaration, answer returned |
| RabbitMQ.Consumer.BindQueue | pkg/mq/rabbitmq.go:108-116 | one binding, answer returned |
| RabbitMQ.Consumer.SetupQueue | pkg/mq/rabbitmq.go:173-185 | declares one queue and binds its keys, following the reference run |
| RabbitMQ.Consumer.BindRoutingKeys | pkg/mq/rabbitmq.go:180-185 | binds the keys in order, stopping at the first failure |
| RabbitMQ.Consumer.SetupInfrastructureFromConfig | pkg/mq/rabbitmq.go:164-189 | the log and error are those of running the whole declare/bind plan, stopping at the first failure |
| RabbitMQ.NewConsumer | pkg/mq/rabbitmq.go:63-80 | opens a channel and sets QoS prefetch 1; a QoS failure closes the channel; each failure is wrapped and gives no consumer |
| Scheduler.CreatedJob | internal/scheduler/scheduler.go:35-56 | the stored job has gocron's ID and the given name, tags and definition |
| Scheduler.Info | internal/scheduler/scheduler.go:79-91 | ID, tags and next run are copied; last run is absent exactly when the job has none |
| Scheduler.SchedulerService.constructor | internal/scheduler/scheduler.go:19-32 | no jobs and not started |
| Scheduler.SchedulerService.AddJob | internal/scheduler/scheduler.go:35-56 | on creation failure the list is unchanged and the error is wrapped `failed to create job`; otherwise exactly one job is appended |
| Scheduler.SchedulerService.Start | internal/scheduler/scheduler.go:59-62 | started, jobs unchanged |
| Scheduler.SchedulerService.Stop | internal/scheduler/scheduler.go:65-72 | a shutdown error is wrapped `failed to shutdown scheduler`, otherwise nil and stopped |
| Scheduler.SchedulerService.GetJobs | internal/scheduler/scheduler.go:75-94 | one info per job, in insertion order |
| Scheduler.ZapFields | internal/scheduler/scheduler.go:135-145 | floor(n/2) fields pairing element 2i (rendered as key) with 2i+1; a trailing element is dropped |
| JobRegistry.ParseClock | internal/scheduler/job_registry.go:133-138 | an accepted time has hour below 24, minute below 60 and the form H:MM or HH:MM |
| JobRegistry.TwoDigits | internal/scheduler/job_registry.go:133-138 | two decimal digits whose value is the number |
| JobRegistry.ParseClockFormat | internal/scheduler/job_registry.go:133-138 | HH:MM round-trips, and a five-character time parses only from its own HH:MM form |
| JobRegistry.DigitsDetermined | internal/scheduler/job_registry.go:133-138 | two digit pairs with the same value are equal |
| JobRegistry.CreateJobDefinition | internal/scheduler/job_registry.go:119-144 | `duration` needs a parseable duration (error wrapped `invalid duration format`); `cron` passes through; `daily` succeeds iff the time parses, copying hour and minute with second 0; anything else is `unsupported job type` |
| JobRegistry.AddOne | internal/scheduler/job_registry.go:83-116 | a missing factory fails with `job factory not found for: <name>`; a failure adds nothing; a success appends one job named after the spec with tags [name, type] |
| JobRegistry.Enabled | internal/scheduler/job_registry.go:68-72 | exactly the enabled specs |
| JobRegistry.AddAllIgnoresDisabled | internal/scheduler/job_registry.go:68-72 | disabled specs have no effect |
| JobRegistry.AddAllKeepsEarlierJobs | internal/scheduler/job_registry.go:61-80 | the jobs present before initialisation are a prefix of the result, whatever the outcome |
| JobRegistry.AddAllSuccess | internal/scheduler/job_registry.go:61-80 | on success one job per enabled spec, in order, each with a factory, its name and tags [name, type] |
| JobRegistry.AddAllFailure | internal/scheduler/job_registry.go:61-80 | a failure happens at some enabled spec k: the enabled specs before k were all added and stay added (not all-or-nothing), spec k's own error is wrapped as `failed to add job <name>`, and no later spec is processed (fail-fast) |
| JobRegistry.JobRegistry.constructor | internal/scheduler/job_registry.go:33-52 | only `hello_job` is registered |
| JobRegistry.JobRegistry.RegisterJob | internal/scheduler/job_registry.go:55-58 | adds or replaces only the factory under that name |
| JobRegistry.JobRegistry.AddJob | internal/scheduler/job_registry.go:83-116 | the scheduler's jobs and the error are those of one job addition |
| JobRegistry.JobRegistry.InitializeJobs | internal/scheduler/job_registry.go:61-80 | disabled: nil and no jobs; enabled: jobs and error as adding every spec in order, stopping at the first failure |
| JobRegistry.JobRegistry.Start | internal/scheduler/job_registry.go:147-159 | disabled: nil, not started; an initialisation error is wrapped `failed to initialize jobs` and the scheduler is not started; otherwise started |
| JobRegistry.JobRegistry.Stop | internal/scheduler/job_registry.go:162-164 | delegates to the scheduler's stop |
| JobRegistry.JobRegistry.GetJobsStatus | internal/scheduler/job_registry.go:167-169 | one info per scheduled job, in order |
| ConfigValidator.ErrorText | pkg/config/validator.go:18-20 | the text is `config validation error: field '` + field + `' ` + message |
| ConfigValidator.ZeroOfKind | pkg/config/validator.go:169-192 | the zero value of each kind is zero |
| ConfigValidator.IsZeroIsZeroOfKind | pkg/config/validator.go:169-192 | a value is zero iff it equals the zero of its kind |
| ConfigValidator.Report | pkg/config/validator.go:45-156 | exactly one error when the check fails, none otherwise |
| ConfigValidator.ConfigValidation.constructor | pkg/config/validator.go:40-42 | no errors |
| ConfigValidator.ConfigValidation.Required | pkg/config/validator.go:45-53 | appends `is required` exactly when the value is zero; returns the same validator |
| ConfigValidator.ConfigValidation.MinLength | pkg/config/validator.go:56-64 | appends exactly when len < min |
| ConfigValidator.ConfigValidation.MaxLength | pkg/config/validator.go:67-75 | appends exactly when len > max |
| ConfigValidator.ConfigValidation.Min | pkg/config/validator.go:78-86 | appends exactly when value < min |
| ConfigValidator.ConfigValidation.Max | pkg/config/validator.go:89-97 | appends exactly when value > max |
| ConfigValidator.ConfigValidation.OneOf | pkg/config/validator.go:100-111 | appends exactly when the value equals none of the allowed values |
| ConfigValidator.ConfigValidation.URL | pkg/config/validator.go:114-122 | appends unless the value starts with `http://` or `https://` |
| ConfigValidator.ConfigValidation.Email | pkg/config/validator.go:125-133 | appends unless the value contains both `@` and `.` |
| ConfigValidator.ConfigValidation.Port | pkg/config/validator.go:136-144 | accepts exactly 1..65535 |
| ConfigValidator.ConfigValidation.Duration | pkg/config/validator.go:147-156 | appends exactly when the duration does not parse |
| ConfigValidator.ConfigValidation.Validate | pkg/config/validator.go:159-161 | the accumulated errors, in call order |
| ConfigValidator.ConfigValidation.AllErrors | pkg/config/validator.go:164-166 | the same list as Validate |
| ConfigValidator.GetEnv | pkg/config/validator.go:195-200 | the variable's value if non-empty; the default when it is unset or set to the empty string |
| ConfigValidator.GetEnvInt | pkg/config/validator.go:203-210 | the parsed integer, or the default when parsing fails |
| ConfigValidator.GetEnvBool | pkg/config/validator.go:213-220 | the parsed boolean, or the default when parsing fails |
| ConfigValidator.GetEnvDuration | pkg/config/validator.go:223-230 | the parsed duration, or the default when unset or unparseable |
| ConfigValidator.GetEnvIntRoundTrip | pkg/config/validator.go:203-210 | a variable holding the rendering of a 64-bit integer reads back as that integer |
| Database.ValidateMeaning | pkg/database/database.go:154-171 | valid iff driver and DSN are non-empty and 0 < idle <= open; every error is validation-typed with 400; the five checks run in order and each reports its own message when the earlier ones pass |
| Database.DialectOf | pkg/database/database.go:114-122 | only `mysql` and `postgres` are accepted |
| Database.NewDatabase | pkg/database/database.go:97-151 | validation runs first and touches nothing; an unknown driver is a validation error; success yields the chosen dialect, and it is the result whenever validation, open, pool and ping all succeed; pool limits come before the ping; `ConnMaxIdleTime` is applied iff it is > 0 |
| Database.PoolLimits | pkg/database/database.go:135-137 | three pool settings, none of them idle time or ping |
| Database.NewDatabaseErrors | pkg/database/database.go:97-151 | connection-phase failures are database-typed with 500; driver failures are validation-typed |
| Database.Connect | pkg/database/database.go:34-74 | an unknown type is a plain `unsupported database type` error; a known type whose open and pool succeed succeeds; success sets pool limits without a ping |
| App.ValidateConfig | pkg/app/app.go:118-128 | nil for no validator or no errors; otherwise a validation error (400) with `config validation failed: ` + the first error's text |
| App.ValidateConfigNamesFirstField | pkg/app/app.go:118-128 | the error is validation-typed and names the first failing field |
| App.Health | pkg/app/app.go:131-138 | exactly the keys name, version, status, uptime, with status `healthy` |
| Services.BaseService | pkg/service/service.go:26-54 | start, stop and health always succeed |
| Services.Starts | pkg/service/service.go:82-90 | start calls 0..n-1 in order |
| Services.Checks | pkg/service/service.go:108-117 | health calls 0..n-1 in order |
| Services.StopsDown | pkg/service/service.go:93-105 | stop calls n-1 down to 0 |
| Services.FirstStartFailure | pkg/service/service.go:82-90 | the first service whose start fails |
| Services.FirstHealthFailure | pkg/service/service.go:108-117 | the first service whose health check fails |
| Services.ServiceManager.constructor | pkg/service/service.go:68-73 | no services |
| Services.ServiceManager.AddService | pkg/service/service.go:76-79 | appends at the end |
| Services.ServiceManager.StartAll | pkg/service/service.go:82-90 | starts in insertion order up to the first failure, which is wrapped with the service's name |
| Services.ServiceManager.StopAll | pkg/service/service.go:93-105 | stops every service in reverse order, always nil |
| Services.ServiceManager.HealthAll | pkg/service/service.go:108-117 | checks in order up to the first failure, returned as an internal AppError wrapping it |
| Services.ServiceManager.GetServices | pkg/service/service.go:120-122 | all services in order |
| Services.ServiceManager.GetServiceByName | pkg/service/service.go:125-132 | the first service with that name, or none iff no service has it |
| Services.StopsDownExtend | pkg/service/service.go:93-105 | stopping from i is stopping from i+1 and then i |
| Services.StopAllReversesStartAll | pkg/service/service.go:82-105 | the stop order is the start order reversed |
| UserService.ToUserResponse | internal/service/user_service.go:201-210 | id, username, email, status and timestamps are copied |
| UserService.ResponseIgnoresPassword | internal/service/user_service.go:201-210 | the response does not depend on the password |
| UserService.Paging | internal/service/user_service.go:155-163 | page < 1 becomes 1, page size outside 1..100 becomes 10; the offset is (page-1)*size with 64-bit wrap-around, exact and non-negative while the product fits in 64 bits |
| UserService.PagingOffsetWraps | internal/service/user_service.go:163 | past the 64-bit maximum (and below 2^64) the offset is the product minus 2^64, so negative |
| UserService.PagingOverflowExample | internal/service/user_service.go:163 | page 2^57+1 with 100 per page gives a negative offset |
| UserService.Updated | internal/service/user_service.go:101-127 | empty username/email and absent status keep the old values; password, ID and creation time are kept |
| UserService.UserService.constructor | internal/service/user_service.go:30-34 | the store keeps usernames and emails unique |
| UserService.UserService.CreateUser | internal/service/user_service.go:37-75 | a taken username, then a taken email, then a hash failure reject it with nothing stored; otherwise a user with status 1 and the hashed password is stored under a new ID |
| UserService.UserService.GetUser | internal/service/user_service.go:78-88 | `user not found` iff the ID is unknown, otherwise the user's response |
| UserService.UserService.UpdateUser | internal/service/user_service.go:91-134 | unknown ID, or a username or email held by another user, rejects it without change; otherwise the user is updated field by field |
| UserService.UserService.DeleteUser | internal/service/user_service.go:137-152 | an unknown ID gives `user not found` and removes nothing; otherwise exactly that user is removed |
| UserService.UserService.ListUsers | internal/service/user_service.go:155-175 | one response per listed user, in order, with the total |
| UserService.UserService.Login | internal/service/user_service.go:178-198 | unknown user and wrong password give the same error; a disabled account is reported before the password is checked |
| I18n.WithDefaults | pkg/i18n/i18n.go:31-39 | `zh`, `./locales` and [zh, en] fill only empty fields |
| I18n.WithDefaultsIdempotent | pkg/i18n/i18n.go:31-39 | filling defaults twice changes nothing |
| I18n.LoadAllMeaning | pkg/i18n/i18n.go:47-53 | loading stops at the first failing file with its error wrapped; on success every language, and only those, has a localizer |
| I18n.FirstLoadFailure | pkg/i18n/i18n.go:47-53 | the first language whose message file fails to load |
| I18n.SetLanguageToContext | pkg/i18n/i18n.go:127-129 | other context values are kept |
| I18n.ContextLanguageRoundTrip | pkg/i18n/i18n.go:120-129 | set then get gives the language back; a context without it gives `""` |
| I18n.I18n.constructor | pkg/i18n/i18n.go:55-59 | the localizers, default language and localizer function are kept |
| I18n.I18n.GetLocalizer | pkg/i18n/i18n.go:62-67 | the requested language's localizer, else the default's, and none only when both are missing |
| I18n.I18n.TWithLang | pkg/i18n/i18n.go:97-118 | the localized text, else the English fallback, else the message ID; a panic exactly when no localizer exists |
| I18n.I18n.ContextLanguage | pkg/i18n/i18n.go:70-73 | the context's language, else the default |
| I18n.I18n.T | pkg/i18n/i18n.go:69-95 | translates in the context's language, or the default language when none is set |
| I18n.I18n.NoPanicWithDefaultLocalizer | pkg/i18n/i18n.go:62-67 | with a localizer for the default language, translation never panics |
| I18n.New | pkg/i18n/i18n.go:30-60 | the result is the load of every supported language's file under the defaulted configuration |
| I18n.NewOutcome | pkg/i18n/i18n.go:30-60 | New fails with the first failing file; on success every supported language, and only those, has its localizer |
| I18n.DefaultConfigNeverPanics | pkg/i18n/i18n.go:31-53 | with default languages, the default language has a localizer |
| I18n.MatchTags | pkg/i18n/i18n.go:138-147 | the first tag naming zh or en decides; no match gives `zh`; the result is always `zh` or `en` |
| I18n.ParseAcceptLanguage | pkg/i18n/i18n.go:131-148 | a parse error or no tags gives `zh`; otherwise the first matching tag decides |
| Validator.TagName | pkg/validator/validator.go:38-44 | the json tag text before the first `,`, and `""` exactly for `-` |
| Validator.TagNameWithoutOptions | pkg/validator/validator.go:38-44 | a tag without options other than `-` is its own name |
| Validator.StripTopMeaning | pkg/validator/validator.go:85 | a key without `.` is kept; otherwise everything up to the first `.` is dropped |
| Validator.RemoveTopStruct | pkg/validator/validator.go:82-88 | every stripped key is present, each entry comes from a key with that stripped form, and there are no more entries than before |
| Validator.NoMoreKeys | pkg/validator/validator.go:82-88 | stripping keys cannot add entries |
| Validator.Translate | pkg/validator/validator.go:70-79 | the uninitialised and non-validation errors give their fixed messages; otherwise the stripped translations |
| IdGen.To4 | pkg/idgen/sonyflake.go:132 | an IPv4 form has four bytes, and a four-byte address is its own IPv4 form |
| IdGen.MachineIDOf | pkg/idgen/sonyflake.go:137 | ip[2]*256 + ip[3], which passes `validateMachineID` |
| IdGen.MachineIDOfInjective | pkg/idgen/sonyflake.go:137 | two addresses give the same ID iff their last two bytes agree |
| IdGen.FirstMachineIDMeaning | pkg/idgen/sonyflake.go:131-140 | the search finds the machine ID of the first usable address, and nothing exactly when no address is usable |
| IdGen.MachineIDFrom | pkg/idgen/sonyflake.go:136-137 | a derived machine ID passes `validateMachineID` |
| IdGen.MachineIDFromMeaning | pkg/idgen/sonyflake.go:125-144 | an interface error is wrapped; the first usable non-loopback IPv4 address decides; none gives `no valid IP address found`; there are no other errors |
| IdGen.GetMachineID | pkg/idgen/sonyflake.go:125-144 | the loop computes `MachineIDFrom`, the first-usable-address rule |
| IdGen.DefaultConfig | pkg/idgen/sonyflake.go:114-122 | start 2024-01-01 UTC, machine ID 0, 8 sequence bits, 16 machine bits, 10 ms |
| IdGen.NewSonyflakeGeneratorWithConfig | pkg/idgen/sonyflake.go:46-84 | an explicit non-zero machine ID is used, otherwise the one `MachineIDFrom` derives, whose failure is wrapped as `failed to get machine ID`; bits and time unit are set only when > 0; once the machine ID is known the result is the generator when sonyflake accepts the settings and `failed to create sonyflake instance` wrapping its error otherwise; a generator's machine ID passes `validateMachineID` |
| IdGen.NewSonyflakeGenerator | pkg/idgen/sonyflake.go:23-43 | start 2024-01-01 UTC, the machine ID `MachineIDFrom` derives, sonyflake's default bits and unit; a derivation failure is wrapped as `failed to get machine ID`, a sonyflake failure as `failed to create sonyflake instance` |
| IdGen.ToInt64 | pkg/idgen/sonyflake.go:87-93 | the uint64 to int64 conversion wraps into the int64 range |
| IdGen.NextID | pkg/idgen/sonyflake.go:87-93 | an error gives 0 and a wrapped error; otherwise the int64 conversion |
| IdGen.NextIDString | pkg/idgen/sonyflake.go:96-102 | the same error as NextID, `""` on error, and otherwise the decimal rendering of NextID's ID |
| IdGen.NextIDStringRoundTrip | pkg/idgen/sonyflake.go:96-102 | `strconv.Atoi` of the string gives back NextID's ID |

## Left out

- Logging through zap, the wall clock and the Redis key's date are parameters or left out. Message IDs take the clock as an input, so their digits are not fixed.
- `MessageEnvelope.GetMessageType`/`GetMessageID` are plain field reads of the `MessageEnvelope` datatype.
- JSON syntax is abstracted to a decoded document or "malformed". `json.Marshal` of the hello message cannot fail (strings and integers only), so its error branch is not modelled.
- The goroutine and the blocking `<-forever` in `Consume` are left out. The model settles a finite sequence of deliveries in order and then returns nil.
- gocron internals (next-run computation, cron parsing, execution) are left out. `NextRun`/`LastRun` are opaque per-job values from the creation function.
- Errors.WithDetails: modelled as a functional update on a value, so mutation of the receiver and aliasing of the returned pointer are not captured.
- Errors.WithData: the same, a functional update.
- The float and reflection default branches of `isZero` are one opaque `Other` kind whose zeroness is given.
- ConfigValidator.ConfigValidation.MinLength: the string length counts characters, where Go's `len` counts UTF-8 bytes.
- ConfigValidator.ConfigValidation.MaxLength: the same character count instead of UTF-8 bytes.
- JobRegistry.ClockParseError: `time.Parse`'s exact error text is simplified to one fixed message.
- Foreign libraries are parameters: `time.ParseDuration`, bcrypt hashing and comparison, go-i18n message loading and localizing, `language.ParseAcceptLanguage`, `net.InterfaceAddrs`, sonyflake's own ID algorithm, the AMQP broker's answers, and the Redis push outcome.
- Repository errors other than "not found" are not modelled. These are the wraps `failed to check username`/`email`, `failed to create`/`update`/`delete user` and `failed to get user`: the repository is an in-memory map that does not fail.
- `NewDatabases` (a loop over a Go map, whose order is unspecified) is not part of this model. Neither are `Database.Close`/`Health`/`Stats`/`Transaction`/`Begin`/`WithContext` or the gorm logger settings: these are persistence plumbing.
- `BaseApp` `Start`/`Stop`/`Run`/`GracefulShutdown`/`Context` (signals, contexts and timeouts) and `DefaultValidator` (always no errors) are left out.
- JobRegistry.AddOne: the factory is called (internal/scheduler/job_registry.go:89) but its job only becomes the task gocron runs, so the call and its result are not modelled; a nil factory's panic there is not captured.
- Envelope.Decode: object keys are matched exactly, while `encoding/json` also accepts a key that differs from the field name only in letter case.
- HelloProcessor.DecodeEvent: the same exact-key matching of the event's fields.
- ConfigValidator.ConfigValidation.OneOf: the model's `Value` has one signed and one unsigned integer kind, so values of different Go integer types (`int` 1 and `int64` 1) compare equal here, while `reflect.DeepEqual` tells them apart.
- UserService.UserService.DeleteUser: removes the user from the map, while gorm soft-deletes (internal/model/user.go:18): the row stays, with its username and email, under the unique indexes.
- UserService.UserService.CreateUser: reusing a deleted user's username or email succeeds in the model; in Go the lookups skip the soft-deleted row but the insert breaks the unique index and fails with `failed to create user`.
- UserService.UserService.UpdateUser: renaming a user to a deleted user's username or email succeeds in the model; in Go the lookups (internal/service/user_service.go:103-120) skip the soft-deleted row and the update at line 128 then fails with `failed to update user`.
- `CronLogger` methods only forward to zap; only their `zapFields` conversion is modelled.
- The validator's translator setup in `init` (go-playground registrations) is left out. `Translate` takes the initialised flag and the translated field map as inputs.

=== FILE: app.dfy ===
/** The base application of pkg/app: its configuration check and its
    health report. */
module App {
  import opened Common
  import opened Strings
  import opened Errors
  import opened Values
  import opened ConfigValidator

  const ValidationFailedPrefix := "config validation failed: "

  /** BaseApp.ValidateConfig. The validator is given by what its Validate
      returns; None is a nil validator. */
  function ValidateConfig(validator: Option<seq<ValidationError>>): (r: Option<Error>)
    ensures r.None? <==> validator.None? || validator.value == []
    ensures r.Some? ==> r.value.App? && r.value.app.kind == Validation && r.value.app.code == StatusBadRequest
    ensures r.Some? ==> r.value.app.message == ValidationFailedPrefix + ErrorText(validator.value[0])
  {
    if validator.None? then None
    else
      var errs := validator.value;
      if |errs| > 0 then Some(App(New(Validation, ValidationFailedPrefix + ErrorText(errs[0]))))
      else None
  }

  /** A failed configuration is reported as a validation error that names
      the first failing field. */
  lemma ValidateConfigNamesFirstField(errs: seq<ValidationError>)
    requires errs != []
    ensures var r := ValidateConfig(Some(errs));
            && r.Some? && IsValidationError(r.value)
            && HasPrefix(r.value.app.message, ValidationFailedPrefix + ErrorPrefix + errs[0].field + "'")
  {
    var r := ValidateConfig(Some(errs));
    assert FirstAppError(r.value) == Some(r.value.app);
    assert r.value.app.message == (ValidationFailedPrefix + ErrorPrefix + errs[0].field + "'") + " " + errs[0].message;
  }

  /** BaseApp.Health; `now` is the wall-clock time as RFC 3339 text. */
  function Health(name: string, version: string, now: string): (report: map<string, Value>)
    ensures report.Keys == {"name", "version", "status", "uptime"}
    ensures report["status"] == Str("healthy")
    ensures report["name"] == Str(name) && report["version"] == Str(version)
  {
    map["name" := Str(name), "version" := Str(version), "status" := Str("healthy"), "uptime" := Str(now)]
  }
}

=== FILE: common.dfy ===
/** The optional value used wherever the Go code has a nil pointer, a nil
    error or a "comma ok" lookup. */
module Common {

  datatype Option<+T> = None | Some(value: T)
}

=== FILE: config_validator.dfy ===
/** The fluent configuration checks of pkg/config: a validator that
    collects one error per failed check, in call order, the zero-value test
    behind `Required`, and environment lookups with defaults. */
module ConfigValidator {
  import opened Common
  import opened Decimal
  import opened Strings
  import opened Errors
  import opened Values

  datatype ValidationError = ValidationError(field: string, message: string)

  const ErrorPrefix := "config validation error: field '"

  /** ValidationError.Error */
  function ErrorText(e: ValidationError): (text: string)
    ensures HasPrefix(text, ErrorPrefix)
    ensures |text| == |ErrorPrefix| + |e.field| + 2 + |e.message|
    ensures text[|ErrorPrefix|..|ErrorPrefix| + |e.field|] == e.field
    ensures text[|text| - |e.message|..] == e.message
  {
    ErrorPrefix + e.field + "' " + e.message
  }

  /** isZero: nil, the empty string, integer zero, false and an empty list
      or map are zero; any other kind reports its own zero-ness. */
  predicate IsZero(v: Value) {
    match v
    case Nil => true
    case Str(s) => s == ""
    case Int(i) => i == 0
    case Uint(u) => u == 0
    case Bool(b) => !b
    case List(items) => |items| == 0
    case Dict(entries) => |entries| == 0
    case Other(zero, _) => zero
  }

  /** The zero value of the kind of `v`. */
  function ZeroOfKind(v: Value): (z: Value)
    ensures IsZero(z)
  {
    match v
    case Nil => Nil
    case Str(_) => Str("")
    case Int(_) => Int(0)
    case Uint(_) => Uint(0)
    case Bool(_) => Bool(false)
    case List(_) => List([])
    case Dict(_) => Dict([])
    case Other(_, text) => Other(true, text)
  }

  /** A value is zero exactly when it is the zero value of its kind. */
  lemma IsZeroIsZeroOfKind(v: Value)
    ensures IsZero(v) <==> v == ZeroOfKind(v)
  {
    match v
    case List(items) => assert IsZero(v) ==> items == [];
    case Dict(entries) => assert IsZero(v) ==> entries == [];
    case _ =>
  }

  /** Whether `value` is one of `allowed` (reflect.DeepEqual on these
      values is structural equality). */
  predicate OneOfAllowed(value: Value, allowed: seq<Value>) {
    value in allowed
  }

  /** The check of URL: an http:// or https:// prefix. */
  predicate LooksLikeURL(s: string) {
    HasPrefix(s, "http://") || HasPrefix(s, "https://")
  }

  /** The check of Email: an '@' and a '.' somewhere. */
  predicate LooksLikeEmail(s: string) {
    ContainsChar(s, '@') && ContainsChar(s, '.')
  }

  /** The check of Port. */
  predicate IsPort(n: int) {
    1 <= n <= 65535
  }

  /** The errors a check adds: one when it fails, none otherwise. */
  function Report(failed: bool, field: string, message: string): (r: seq<ValidationError>)
    ensures |r| == (if failed then 1 else 0)
    ensures failed ==> r[0] == ValidationError(field, message)
  {
    if failed then [ValidationError(field, message)] else []
  }

  class ConfigValidation {
    /** the failed checks so far, in call order */
    var errors: seq<ValidationError>

    /** NewConfigValidation */
    constructor ()
      ensures errors == []
    {
      errors := [];
    }

    method Required(field: string, value: Value) returns (cv: ConfigValidation)
      modifies this
      ensures cv == this
      ensures errors == old(errors) + Report(IsZero(value), field, "is required")
    {
      if IsZero(value) {
        errors := errors + [ValidationError(field, "is required")];
      }
      cv := this;
    }

    method MinLength(field: string, value: string, min: int) returns (cv: ConfigValidation)
      modifies this
      ensures cv == this
      ensures errors == old(errors) +
                        Report(|value| < min, field, "must be at least " + IntToString(min) + " characters")
    {
      if |value| < min {
        errors := errors + [ValidationError(field, "must be at least " + IntToString(min) + " characters")];
      }
      cv := this;
    }

    method MaxLength(field: string, value: string, max: int) returns (cv: ConfigValidation)
      modifies this
      ensures cv == this
      ensures errors == old(errors) +
                        Report(|value| > max, field, "must be no more than " + IntToString(max) + " characters")
    {
      if |value| > max {
        errors := errors + [ValidationError(field, "must be no more than " + IntToString(max) + " characters")];
      }
      cv := this;
    }

    method Min(field: string, value: int, min: int) returns (cv: ConfigValidation)
      modifies this
      ensures cv == this
      ensures errors == old(errors) + Report(value < min, field, "must be at least " + IntToString(min))
    {
      if value < min {
        errors := errors + [ValidationError(field, "must be at least " + IntToString(min))];
      }
      cv := this;
    }

    method Max(field: string, value: int, max: int) returns (cv: ConfigValidation)
      modifies this
      ensures cv == this
      ensures errors == old(errors) + Report(value > max, field, "must be no more than " + IntToString(max))
    {
      if value > max {
        errors := errors + [ValidationError(field, "must be no more than " + IntToString(max))];
      }
      cv := this;
    }

    /** OneOf: searches the allowed values; the message lists them with %v. */
    method OneOf(field: string, value: Value, allowed: seq<Value>) returns (cv: ConfigValidation)
      modifies this
      ensures cv == this
      ensures errors == old(errors) +
                        Report(!OneOfAllowed(value, allowed), field, "must be one of " + Format(List(allowed)))
    {
      cv := this;
      var i := 0;
      while i < |allowed|
        invariant 0 <= i <= |allowed|
        invariant value !in allowed[..i]
        invariant errors == old(errors)
      {
        if value == allowed[i] {
          return;
        }
        assert allowed[..i + 1] == allowed[..i] + [allowed[i]];
        i := i + 1;
      }
      assert allowed[..i] == allowed;
      errors := errors + [ValidationError(field, "must be one of " + Format(List(allowed)))];
    }

    method URL(field: string, value: string) returns (cv: ConfigValidation)
      modifies this
      ensures cv == this
      ensures errors == old(errors) + Report(!LooksLikeURL(value), field, "must be a valid URL")
    {
      if !HasPrefix(value, "http://") && !HasPrefix(value, "https://") {
        errors := errors + [ValidationError(field, "must be a valid URL")];
      }
      cv := this;
    }

    method Email(field: string, value: string) returns (cv: ConfigValidation)
      modifies this
      ensures cv == this
      ensures errors == old(errors) + Report(!LooksLikeEmail(value), field, "must be a valid email address")
    {
      if !ContainsChar(value, '@') || !ContainsChar(value, '.') {
        errors := errors + [ValidationError(field, "must be a valid email address")];
      }
      cv := this;
    }

    method Port(field: string, value: int) returns (cv: ConfigValidation)
      modifies this
      ensures cv == this
      ensures errors == old(errors) + Report(!IsPort(value), field, "must be a valid port number (1-65535)")
    {
      if value < 1 || value > 65535 {
        errors := errors + [ValidationError(field, "must be a valid port number (1-65535)")];
      }
      cv := this;
    }

    /** Duration: `parseDuration` is time.ParseDuration. */
    method Duration(field: string, value: string, parseDuration: string -> Result<int>) returns (cv: ConfigValidation)
      modifies this
      ensures cv == this
      ensures errors == old(errors) +
                        Report(parseDuration(value).Fail?, field, "must be a valid duration (e.g., 1h, 30m, 10s)")
    {
      if parseDuration(value).Fail? {
        errors := errors + [ValidationError(field, "must be a valid duration (e.g., 1h, 30m, 10s)")];
      }
      cv := this;
    }

    method Validate() returns (errs: seq<ValidationError>)
      ensures errs == errors
    {
      errs := errors;
    }

    method AllErrors() returns (errs: seq<ValidationError>)
      ensures errs == errors
    {
      errs := errors;
    }
  }

  /** os.Getenv: the variable's value, or "" when it is not set. */
  function Getenv(env: map<string, string>, key: string): string {
    if key in env then env[key] else ""
  }

  /** GetEnv: a set, non-empty variable wins over the default. */
  function GetEnv(env: map<string, string>, key: string, defaultValue: string): (r: string)
    ensures r != "" ==> r == Getenv(env, key) || r == defaultValue
    ensures key !in env ==> r == defaultValue
    ensures key in env && env[key] != "" ==> r == env[key]
    ensures Getenv(env, key) == "" ==> r == defaultValue
  {
    var value := Getenv(env, key);
    if value != "" then value else defaultValue
  }

  /** GetEnvInt: the variable read with Atoi, or the default when it is
      unset, empty or not an int. */
  function GetEnvInt(env: map<string, string>, key: string, defaultValue: int): (r: int)
    ensures Atoi(Getenv(env, key)).None? ==> r == defaultValue
    ensures Atoi(Getenv(env, key)).Some? ==> r == Atoi(Getenv(env, key)).value
  {
    var value := Getenv(env, key);
    if value != "" then
      var parsed := Atoi(value);
      if parsed.Some? then parsed.value else defaultValue
    else defaultValue
  }

  /** GetEnvBool: the variable read with ParseBool, or the default. */
  function GetEnvBool(env: map<string, string>, key: string, defaultValue: bool): (r: bool)
    ensures ParseBool(Getenv(env, key)).None? ==> r == defaultValue
    ensures ParseBool(Getenv(env, key)).Some? ==> r == ParseBool(Getenv(env, key)).value
  {
    var value := Getenv(env, key);
    if value != "" then
      var parsed := ParseBool(value);
      if parsed.Some? then parsed.value else defaultValue
    else defaultValue
  }

  /** GetEnvDuration: the variable read with time.ParseDuration, or the default. */
  function GetEnvDuration(env: map<string, string>, key: string, defaultValue: int,
                          parseDuration: string -> Result<int>): (r: int)
    ensures Getenv(env, key) == "" ==> r == defaultValue
    ensures Getenv(env, key) != "" && parseDuration(Getenv(env, key)).Fail? ==> r == defaultValue
    ensures Getenv(env, key) != "" && parseDuration(Getenv(env, key)).Ok? ==> r == parseDuration(Getenv(env, key)).value
  {
    var value := Getenv(env, key);
    if value != "" then
      var parsed := parseDuration(value);
      if parsed.Ok? then parsed.value else defaultValue
    else defaultValue
  }

  /** An integer written into the environment with %d is read back by
      GetEnvInt, whatever the default. */
  lemma GetEnvIntRoundTrip(env: map<string, string>, key: string, n: int, defaultValue: int)
    requires InInt64(n)
    requires key in env && env[key] == IntToString(n)
    ensures GetEnvInt(env, key, defaultValue) == n
  {
    AtoiIntToString(n);
  }
}

=== FILE: database.dfy ===
/** The database wrapper of pkg/database: the configuration checks, the
    choice of SQL dialect by driver name and the pool settings applied after
    connecting. gorm and database/sql are abstracted: their answers are
    parameters, and the pool settings are recorded as a trace. */
module Database {
  import opened Common
  import opened Errors

  datatype DBConfig = DBConfig(
    driver: string,
    dsn: string,
    maxOpenConns: int,
    maxIdleConns: int,
    connMaxLifetime: int,
    connMaxIdleTime: int)

  /** An entry of the `database` section of the service configuration. */
  datatype DataSourceConfig = DataSourceConfig(kind: string, dsn: string, maxOpenConns: int,
                                               maxIdleConns: int, connMaxLifetime: int)

  datatype Dialect = MySQL | Postgres

  /** The calls made on the connection pool, in order. */
  datatype PoolOp =
    | SetMaxOpenConns(n: int)
    | SetMaxIdleConns(n: int)
    | SetConnMaxLifetime(d: int)
    | SetConnMaxIdleTime(d: int)
    | Ping

  /** What gorm and database/sql answer: the error of opening the dialect,
      of getting the underlying pool, and of the ping (None = success). */
  datatype Backend = Backend(open: (Dialect, string) -> Option<Error>, pool: Option<Error>, ping: Option<Error>)

  /** An opened database and the configuration it was opened with. */
  datatype Handle = Handle(dialect: Dialect, config: DBConfig)

  /** DBConfig.Validate: the first violated rule, as a validation error. */
  function Validate(c: DBConfig): Option<Error> {
    if c.driver == "" then Some(App(New(Validation, "database driver is required")))
    else if c.dsn == "" then Some(App(New(Validation, "database DSN is required")))
    else if c.maxOpenConns <= 0 then Some(App(New(Validation, "MaxOpenConns must be greater than 0")))
    else if c.maxIdleConns <= 0 then Some(App(New(Validation, "MaxIdleConns must be greater than 0")))
    else if c.maxIdleConns > c.maxOpenConns then
      Some(App(New(Validation, "MaxIdleConns cannot be greater than MaxOpenConns")))
    else None
  }

  /** A configuration passes exactly when driver and DSN are set and
      0 < MaxIdleConns <= MaxOpenConns; a rejection is a validation error
      (HTTP 400) that names the first broken rule. */
  lemma ValidateMeaning(c: DBConfig)
    ensures Validate(c).None? <==> c.driver != "" && c.dsn != "" && 0 < c.maxIdleConns <= c.maxOpenConns
    ensures Validate(c).Some? ==> IsValidationError(Validate(c).value) &&
                                  Validate(c).value.app.code == StatusBadRequest
    ensures c.driver == "" ==> Validate(c).value.app.message == "database driver is required"
    ensures c.driver != "" && c.dsn == "" ==> Validate(c).value.app.message == "database DSN is required"
    ensures c.driver != "" && c.dsn != "" && c.maxOpenConns <= 0 ==>
              Validate(c).value.app.message == "MaxOpenConns must be greater than 0"
    ensures c.driver != "" && c.dsn != "" && c.maxOpenConns > 0 && c.maxIdleConns <= 0 ==>
              Validate(c).value.app.message == "MaxIdleConns must be greater than 0"
    ensures c.driver != "" && c.dsn != "" && c.maxOpenConns > 0 && c.maxIdleConns > 0 && c.maxIdleConns > c.maxOpenConns ==>
              Validate(c).value.app.message == "MaxIdleConns cannot be greater than MaxOpenConns"
  {
    if Validate(c).Some? {
      assert FirstAppError(Validate(c).value) == Some(Validate(c).value.app);
    }
  }

  /** The dialect of a driver name: only mysql and postgres are known. */
  function DialectOf(driver: string): (d: Option<Dialect>)
    ensures d.Some? <==> driver in {"mysql", "postgres"}
    ensures d == Some(MySQL) <==> driver == "mysql"
  {
    match driver
    case "mysql" => Some(MySQL)
    case "postgres" => Some(Postgres)
    case _ => None
  }

  /** The result of NewDatabase and the pool calls it made. */
  datatype Opened = Opened(result: Result<Handle>, ops: seq<PoolOp>)

  /** NewDatabase: validate, choose the dialect, open, configure the pool
      (the idle-time limit only when positive) and ping. */
  function NewDatabase(c: DBConfig, backend: Backend): (r: Opened)
    ensures Validate(c).Some? ==> r == Opened(Fail(Validate(c).value), [])
    ensures Validate(c).None? && DialectOf(c.driver).None? ==>
              r == Opened(Fail(App(New(Validation, "unsupported database driver: " + c.driver))), [])
    ensures r.result.Ok? ==> Validate(c).None? && r.result.value == Handle(DialectOf(c.driver).value, c)
    ensures r.ops != [] ==> |r.ops| >= 4 && r.ops[|r.ops| - 1] == Ping && r.ops[..3] == PoolLimits(c)
    ensures SetConnMaxIdleTime(c.connMaxIdleTime) in r.ops <==> r.ops != [] && c.connMaxIdleTime > 0
    ensures (Validate(c).None? && DialectOf(c.driver).Some? &&
             backend.open(DialectOf(c.driver).value, c.dsn).None? && backend.pool.None? && backend.ping.None?) ==>
              r.result == Ok(Handle(DialectOf(c.driver).value, c))
  {
    if Validate(c).Some? then Opened(Fail(Validate(c).value), [])
    else
      var dialect := DialectOf(c.driver);
      if dialect.None? then Opened(Fail(App(New(Validation, "unsupported database driver: " + c.driver))), [])
      else
        var openErr := backend.open(dialect.value, c.dsn);
        if openErr.Some? then Opened(Fail(App(Wrap(openErr.value, Database, "failed to connect to database"))), [])
        else if backend.pool.Some? then
          Opened(Fail(App(Wrap(backend.pool.value, Database, "failed to get underlying database"))), [])
        else
          var ops := PoolLimits(c) + (if c.connMaxIdleTime > 0 then [SetConnMaxIdleTime(c.connMaxIdleTime)] else []) + [Ping];
          if backend.ping.Some? then Opened(Fail(App(Wrap(backend.ping.value, Database, "failed to ping database"))), ops)
          else Opened(Ok(Handle(dialect.value, c)), ops)
  }

  /** The three pool limits set on every connection. */
  function PoolLimits(c: DBConfig): (ops: seq<PoolOp>)
    ensures |ops| == 3 && Ping !in ops
    ensures forall op :: op in ops ==> !op.SetConnMaxIdleTime?
  {
    [SetMaxOpenConns(c.maxOpenConns), SetMaxIdleConns(c.maxIdleConns), SetConnMaxLifetime(c.connMaxLifetime)]
  }

  /** NewDatabase never connects with a configuration Validate rejects,
      and any failure after validation is a database error (HTTP 500)
      unless the driver is unknown. */
  lemma NewDatabaseErrors(c: DBConfig, backend: Backend)
    ensures var r := NewDatabase(c, backend);
            && (Validate(c).Some? ==> r.ops == [] && r.result.Fail?)
            && (Validate(c).None? && DialectOf(c.driver).Some? && r.result.Fail? ==>
                  IsDatabaseError(r.result.error) && r.result.error.app.code == StatusInternalServerError)
            && (DialectOf(c.driver).None? ==> r.result.Fail? && IsValidationError(r.result.error))
  {
    var r := NewDatabase(c, backend);
    if r.result.Fail? {
      assert r.result.error.App?;
      assert FirstAppError(r.result.error) == Some(r.result.error.app);
    }
  }

  /** connect: the same driver switch with a plain error, then the three
      pool limits; gorm's own errors are returned as they are. */
  function Connect(cfg: DataSourceConfig, backend: Backend): (r: Opened)
    ensures DialectOf(cfg.kind).None? ==> r == Opened(Fail(Simple("unsupported database type: " + cfg.kind)), [])
    ensures r.result.Ok? ==> DialectOf(cfg.kind).Some? && r.ops == PoolLimits(AsDBConfig(cfg))
    ensures r.result.Fail? ==> r.ops == []
    ensures Ping !in r.ops
    ensures DialectOf(cfg.kind).Some? && backend.open(DialectOf(cfg.kind).value, cfg.dsn).None? && backend.pool.None? ==>
              r.result == Ok(Handle(DialectOf(cfg.kind).value, AsDBConfig(cfg)))
  {
    var dialect := DialectOf(cfg.kind);
    if dialect.None? then Opened(Fail(Simple("unsupported database type: " + cfg.kind)), [])
    else
      var openErr := backend.open(dialect.value, cfg.dsn);
      if openErr.Some? then Opened(Fail(openErr.value), [])
      else if backend.pool.Some? then Opened(Fail(backend.pool.value), [])
      else Opened(Ok(Handle(dialect.value, AsDBConfig(cfg))), PoolLimits(AsDBConfig(cfg)))
  }

  /** The pool settings of a data source entry, as a DBConfig. */
  function AsDBConfig(cfg: DataSourceConfig): DBConfig {
    DBConfig(cfg.kind, cfg.dsn, cfg.maxOpenConns, cfg.maxIdleConns, cfg.connMaxLifetime, 0)
  }
}

=== FILE: decimal.dfy ===
/** Decimal rendering and parsing of integers: the `%d` verb of fmt and the
    strconv functions Atoi and ParseBool. Go's `int` is taken to be 64 bits
    wide, as on the platforms the service targets. */
module Decimal {
  import opened Common

  const Int64Min: int := -0x8000_0000_0000_0000
  const Int64Max: int := 0x7FFF_FFFF_FFFF_FFFF

  predicate InInt64(n: int) {
    Int64Min <= n <= Int64Max
  }

  /** The 64-bit two's-complement result of an `int` operation whose exact
      value is `n`: the value of the range congruent to `n` modulo 2^64. */
  function WrapInt64(n: int): (r: int)
    ensures InInt64(r)
    ensures InInt64(n) ==> r == n
    ensures (n - r) % 0x1_0000_0000_0000_0000 == 0
  {
    (n - Int64Min) % 0x1_0000_0000_0000_0000 + Int64Min
  }

  predicate IsDigit(c: char) {
    '0' <= c <= '9'
  }

  predicate AllDigits(s: string) {
    forall i :: 0 <= i < |s| ==> IsDigit(s[i])
  }

  function DigitChar(d: nat): (c: char)
    requires d < 10
    ensures IsDigit(c)
  {
    (d + '0' as int) as char
  }

  function DigitValue(c: char): (d: nat)
    requires IsDigit(c)
    ensures d < 10
  {
    (c as int - '0' as int) as nat
  }

  /** The value of a string of decimal digits, most significant first. */
  function DigitsValue(s: string): nat
    requires AllDigits(s)
  {
    if s == [] then 0 else DigitsValue(s[..|s| - 1]) * 10 + DigitValue(s[|s| - 1])
  }

  /** The shortest decimal digits of `n`. */
  function NatToString(n: nat): (s: string)
    ensures |s| >= 1 && AllDigits(s)
    ensures |s| > 1 ==> s[0] != '0'
  {
    if n < 10 then [DigitChar(n)]
    else
      var prefix := NatToString(n / 10);
      assert prefix[0] != '0' by {
        if |prefix| == 1 {
          assert n / 10 >= 1;
          assert DigitValue(DigitChar(n / 10)) == n / 10;
        }
      }
      prefix + [DigitChar(n % 10)]
  }

  /** fmt's `%d` of an integer: a minus sign before the digits of a negative one. */
  function IntToString(i: int): (s: string)
    ensures |s| >= 1
  {
    if i < 0 then "-" + NatToString(-i) else NatToString(i)
  }

  lemma {:induction false} NatToStringValue(n: nat)
    ensures DigitsValue(NatToString(n)) == n
  {
    if n >= 10 {
      var s := NatToString(n);
      NatToStringValue(n / 10);
      assert s[..|s| - 1] == NatToString(n / 10);
      assert DigitValue(DigitChar(n % 10)) == n % 10;
    } else {
      assert DigitValue(DigitChar(n)) == n;
    }
  }

  /** strconv.Atoi: an optional sign followed by at least one decimal digit,
      nothing else, and a value that fits in 64 bits. None is the error result. */
  function Atoi(s: string): (r: Option<int>)
    ensures r.Some? ==> InInt64(r.value)
    ensures r.Some? ==> |s| >= 1
  {
    var negative := |s| > 0 && s[0] == '-';
    var digits := if |s| > 0 && (s[0] == '-' || s[0] == '+') then s[1..] else s;
    if digits == [] || !AllDigits(digits) then None
    else
      var magnitude: int := DigitsValue(digits);
      var value: int := if negative then -magnitude else magnitude;
      if InInt64(value) then Some(value) else None
  }

  /** Rendering a 64-bit integer with `%d` and reading it back with Atoi gives
      the integer back. */
  lemma AtoiIntToString(i: int)
    requires InInt64(i)
    ensures Atoi(IntToString(i)) == Some(i)
  {
    var s := IntToString(i);
    if i < 0 {
      var digits := NatToString(-i);
      assert s == "-" + digits && s[1..] == digits;
      NatToStringValue(-i);
      assert DigitsValue(digits) == -i;
    } else {
      assert s == NatToString(i) && IsDigit(s[0]);
      NatToStringValue(i);
      assert DigitsValue(s) == i;
    }
  }

  /** strconv.ParseBool: the spellings Go accepts for each truth value. */
  function ParseBool(s: string): (r: Option<bool>)
    ensures r == Some(true) <==> s in {"1", "t", "T", "TRUE", "true", "True"}
    ensures r == Some(false) <==> s in {"0", "f", "F", "FALSE", "false", "False"}
  {
    if s in {"1", "t", "T", "TRUE", "true", "True"} then Some(true)
    else if s in {"0", "f", "F", "FALSE", "false", "False"} then Some(false)
    else None
  }
}

=== FILE: envelope.dfy ===
/** The routing envelope of a broker message (MessageEnvelope in
    internal/messaging/message_processor.go) and its JSON decoding. The
    payload is kept undecoded until a processor knows its schema. */
module Envelope {
  import opened Common
  import opened Json
  import opened Errors
  import Decimal

  datatype MessageEnvelope = MessageEnvelope(
    messageId: string,
    messageType: string,
    payload: Option<Json>,   // json.RawMessage; None when the member is absent
    timestamp: int,
    source: string,
    version: string)

  const ZeroEnvelope := MessageEnvelope("", "", None, 0, "", "")

  // Stand-ins for encoding/json's error texts, which are not modelled.
  const SyntaxError := Simple("invalid character in JSON input")
  const TypeError := Simple("json: cannot unmarshal into Go struct field")
  const EndOfInput := Simple("unexpected end of JSON input")

  /** All members the envelope declares have a value of the right JSON type. */
  predicate WellTyped(members: map<string, Json>) {
    && AsString(Member(members, "message_id")).Some?
    && AsString(Member(members, "message_type")).Some?
    && AsInt64(Member(members, "timestamp")).Some?
    && AsString(Member(members, "source")).Some?
    && AsString(Member(members, "version")).Some?
  }

  /** json.Unmarshal(body, &envelope). `null` decodes to the zero envelope; an
      object decodes member by member; anything else fails. */
  function Decode(body: Body): (r: Result<MessageEnvelope>)
    ensures body.Malformed? ==> r.Fail?
    ensures body == Doc(JNull) ==> r == Ok(ZeroEnvelope)
    ensures body.Doc? && !body.value.JNull? && !body.value.JObj? ==> r.Fail?
    ensures body.Doc? && body.value.JObj? ==> (r.Ok? <==> WellTyped(body.value.members))
    ensures r.Ok? && body.Doc? && body.value.JObj? ==>
              var m := body.value.members;
              && r.value.messageId == AsString(Member(m, "message_id")).value
              && r.value.messageType == AsString(Member(m, "message_type")).value
              && r.value.payload == Member(m, "payload")
              && r.value.timestamp == AsInt64(Member(m, "timestamp")).value
  {
    match body
    case Malformed => Fail(SyntaxError)
    case Doc(JNull) => Ok(ZeroEnvelope)
    case Doc(JObj(m)) =>
      if !WellTyped(m) then Fail(TypeError)
      else Ok(MessageEnvelope(
        AsString(Member(m, "message_id")).value,
        AsString(Member(m, "message_type")).value,
        Member(m, "payload"),
        AsInt64(Member(m, "timestamp")).value,
        AsString(Member(m, "source")).value,
        AsString(Member(m, "version")).value))
    case Doc(_) => Fail(TypeError)
  }

  /** json.Marshal of an envelope: the four members always, `source` and
      `version` only when non-empty (omitempty). A missing payload marshals
      as null. */
  function Encode(e: MessageEnvelope): Json
  {
    var members := map["message_id" := JStr(e.messageId),
                        "message_type" := JStr(e.messageType),
                        "payload" := if e.payload.Some? then e.payload.value else JNull,
                        "timestamp" := JNum(e.timestamp)];
    var withSource := if e.source != "" then members["source" := JStr(e.source)] else members;
    JObj(if e.version != "" then withSource["version" := JStr(e.version)] else withSource)
  }

  /** Decoding what Encode produced gives the envelope back, provided it has a
      payload and its timestamp fits in an int64. */
  lemma DecodeEncode(e: MessageEnvelope)
    requires e.payload.Some? && Decimal.InInt64(e.timestamp)
    ensures Decode(Doc(Encode(e))) == Ok(e)
  {
    var m := Encode(e).members;
    assert AsString(Member(m, "source")) == Some(e.source);
    assert AsString(Member(m, "version")) == Some(e.version);
  }

  /** MessageEnvelope.UnmarshalPayload: decodes the raw payload, and only it,
      with the decoder of the target type. An absent payload is empty input. */
  function UnmarshalPayload<T>(e: MessageEnvelope, decode: Json -> Result<T>): (r: Result<T>)
    ensures e.payload.None? ==> r == Fail(EndOfInput)
    ensures e.payload.Some? ==> r == decode(e.payload.value)
  {
    if e.payload.None? then Fail(EndOfInput) else decode(e.payload.value)
  }
}

=== FILE: errors.dfy ===
/** Go's `error` values as used throughout the service, and the application
    error type of pkg/errors: its HTTP status mapping, constructors, text,
    comparison, localisation and classification along a wrap chain. */
module Errors {
  import opened Common
  import Values

  // The error types (Go's `ErrorType` is a string, so other values exist too).
  const Validation := "validation"
  const NotFound := "not_found"
  const Unauthorized := "unauthorized"
  const Forbidden := "forbidden"
  const Conflict := "conflict"
  const Internal := "internal"
  const Database := "database"
  const External := "external"

  // The status codes of section 15 of RFC 9110 that the mapping uses.
  const StatusBadRequest := 400
  const StatusUnauthorized := 401
  const StatusForbidden := 403
  const StatusNotFound := 404
  const StatusConflict := 409
  const StatusInternalServerError := 500

  /** A Go error: a plain error with its text (errors.New, or an error from a
      library), an error made by fmt.Errorf("<context>: %w", cause), or an
      *AppError. */
  datatype Error =
    | Simple(text: string)
    | Wrapped(context: string, cause: Error)
    | App(app: AppError)

  /** pkg/errors.AppError. `data` is the i18n template data. */
  datatype AppError = AppError(
    kind: string,
    message: string,
    code: int,
    cause: Option<Error>,
    details: string,
    messageId: string,
    data: map<string, Values.Value>)

  /** The result of an operation that returns a value and an error. */
  datatype Result<+T> = Ok(value: T) | Fail(error: Error)

  /** getStatusCodeByType: the five client-error types map to their 4xx code,
      everything else (including unknown types) to 500. */
  function StatusCodeByType(kind: string): (code: int)
    ensures code == StatusBadRequest <==> kind == Validation
    ensures code == StatusNotFound <==> kind == NotFound
    ensures code == StatusUnauthorized <==> kind == Unauthorized
    ensures code == StatusForbidden <==> kind == Forbidden
    ensures code == StatusConflict <==> kind == Conflict
    ensures code == StatusInternalServerError <==>
              kind !in {Validation, NotFound, Unauthorized, Forbidden, Conflict}
  {
    if kind == Validation then StatusBadRequest
    else if kind == NotFound then StatusNotFound
    else if kind == Unauthorized then StatusUnauthorized
    else if kind == Forbidden then StatusForbidden
    else if kind == Conflict then StatusConflict
    else StatusInternalServerError
  }

  /** errors.New */
  function New(kind: string, message: string): (e: AppError)
    ensures e.kind == kind && e.message == message && e.code == StatusCodeByType(kind)
    ensures e.cause == None && e.messageId == "" && e.details == "" && e.data == map[]
  {
    AppError(kind, message, StatusCodeByType(kind), None, "", "", map[])
  }

  /** errors.NewI18n: the message ID doubles as the default message. */
  function NewI18n(kind: string, messageId: string, data: map<string, Values.Value>): (e: AppError)
    ensures e.kind == kind && e.message == messageId && e.messageId == messageId
    ensures e.code == StatusCodeByType(kind) && e.cause == None && e.data == data
  {
    AppError(kind, messageId, StatusCodeByType(kind), None, "", messageId, data)
  }

  /** errors.Wrap */
  function Wrap(cause: Error, kind: string, message: string): (e: AppError)
    ensures e.kind == kind && e.message == message && e.code == StatusCodeByType(kind)
    ensures e.cause == Some(cause) && e.messageId == ""
  {
    AppError(kind, message, StatusCodeByType(kind), Some(cause), "", "", map[])
  }

  /** errors.WrapI18n */
  function WrapI18n(cause: Error, kind: string, messageId: string, data: map<string, Values.Value>): (e: AppError)
    ensures e.kind == kind && e.message == messageId && e.messageId == messageId
    ensures e.code == StatusCodeByType(kind) && e.cause == Some(cause) && e.data == data
  {
    AppError(kind, messageId, StatusCodeByType(kind), Some(cause), "", messageId, data)
  }

  /** The convenience constructors: New with a fixed type, so each error
      reports its type's status. */
  function ValidationError(message: string): (e: AppError)
    ensures e == New(Validation, message) && e.code == StatusBadRequest
  {
    New(Validation, message)
  }

  function NotFoundError(message: string): (e: AppError)
    ensures e == New(NotFound, message) && e.code == StatusNotFound
  {
    New(NotFound, message)
  }

  function UnauthorizedError(message: string): (e: AppError)
    ensures e == New(Unauthorized, message) && e.code == StatusUnauthorized
  {
    New(Unauthorized, message)
  }

  function ForbiddenError(message: string): (e: AppError)
    ensures e == New(Forbidden, message) && e.code == StatusForbidden
  {
    New(Forbidden, message)
  }

  function ConflictError(message: string): (e: AppError)
    ensures e == New(Conflict, message) && e.code == StatusConflict
  {
    New(Conflict, message)
  }

  function InternalError(message: string): (e: AppError)
    ensures e == New(Internal, message) && e.code == StatusInternalServerError
  {
    New(Internal, message)
  }

  /** Every error built by a constructor reports the status of its type, and
      that status is a client error exactly for the five client-error types. */
  lemma ConstructorStatus(kind: string, text: string, cause: Error, data: map<string, Values.Value>)
    ensures New(kind, text).code == NewI18n(kind, text, data).code
            == Wrap(cause, kind, text).code == WrapI18n(cause, kind, text, data).code
            == StatusCodeByType(kind)
    ensures StatusCodeByType(kind) < 500 <==>
              kind in {Validation, NotFound, Unauthorized, Forbidden, Conflict}
  {
  }

  /** err.Error() */
  function Text(e: Error): string
  {
    match e
    case Simple(text) => text
    case Wrapped(context, cause) => context + ": " + Text(cause)
    case App(a) => AppText(a)
  }

  /** AppError.Error(): the message, followed by ": " and the wrapped error's
      text when there is one. */
  function AppText(a: AppError): (s: string)
  {
    match a.cause
    case None => a.message
    case Some(c) => a.message + ": " + Text(c)
  }

  /** The message always starts the text, and the text is exactly the message
      when nothing is wrapped. */
  lemma AppTextStartsWithMessage(a: AppError)
    ensures |AppText(a)| >= |a.message| && AppText(a)[..|a.message|] == a.message
    ensures a.cause.None? <==> AppText(a) == a.message
  {
    if a.cause.Some? {
      assert AppText(a) == a.message + ": " + Text(a.cause.value);
      assert |AppText(a)| > |a.message|;
    }
  }

  /** errors.Unwrap / AppError.Unwrap: the next error of the chain. */
  function Unwrap(e: Error): (next: Option<Error>)
    ensures next.Some? ==> next.value < e
    ensures e.Simple? <==> next.None? && !e.App?
    ensures e.Wrapped? ==> next == Some(e.cause)
    ensures e.App? ==> next == e.app.cause
  {
    match e
    case Simple(_) => None
    case Wrapped(_, cause) => Some(cause)
    case App(a) => a.cause
  }

  /** AppError.Is: the target is an AppError of the same type; message, code
      and everything else are ignored. */
  predicate AppIs(a: AppError, target: Error)
  {
    target.App? && target.app.kind == a.kind
  }

  /** Is compares types only, so on AppErrors it is an equivalence relation
      that does not look at messages or codes. */
  lemma AppIsIsEquivalence(a: AppError, b: AppError, c: AppError)
    ensures AppIs(a, App(a))
    ensures AppIs(a, App(b)) <==> AppIs(b, App(a))
    ensures AppIs(a, App(b)) && AppIs(b, App(c)) ==> AppIs(a, App(c))
    ensures AppIs(a, App(b.(message := "", code := 0, details := "")))  <==> AppIs(a, App(b))
    ensures !AppIs(a, Simple(AppText(a)))
  {
  }

  /** AppError.WithDetails; the Go method sets the field on the receiver and
      returns the receiver. */
  function WithDetails(a: AppError, details: string): (r: AppError)
    ensures r.details == details
    ensures r.kind == a.kind && r.message == a.message && r.code == a.code && r.cause == a.cause
    ensures r.messageId == a.messageId && r.data == a.data
  {
    a.(details := details)
  }

  /** AppError.WithData */
  function WithData(a: AppError, data: map<string, Values.Value>): (r: AppError)
    ensures r.data == data
    ensures r.kind == a.kind && r.message == a.message && r.code == a.code && r.cause == a.cause
    ensures r.messageId == a.messageId && r.details == a.details
  {
    a.(data := data)
  }

  /** AppError.LocalizedMessage: the translator's text for the message ID when
      there is a message ID and a translator, otherwise the message. */
  function LocalizedMessage(a: AppError, translator: Option<(string, map<string, Values.Value>) -> string>): (s: string)
  {
    if a.messageId != "" && translator.Some? then translator.value(a.messageId, a.data) else a.message
  }

  /** Errors built without a message ID always show their message; i18n errors
      without a translator show their message ID. */
  lemma LocalizedMessageFallback(kind: string, text: string, cause: Error, data: map<string, Values.Value>,
                                 translator: Option<(string, map<string, Values.Value>) -> string>)
    ensures LocalizedMessage(New(kind, text), translator) == text
    ensures LocalizedMessage(Wrap(cause, kind, text), translator) == text
    ensures LocalizedMessage(NewI18n(kind, text, data), None) == text
    ensures text != "" && translator.Some? ==>
              LocalizedMessage(WrapI18n(cause, kind, text, data), translator) == translator.value(text, data)
  {
  }

  /** errors.As(err, &appErr): the first *AppError met while following the
      wrap chain from `e`. */
  function FirstAppError(e: Error): (r: Option<AppError>)
  {
    match e
    case Simple(_) => None
    case Wrapped(_, cause) => FirstAppError(cause)
    case App(a) => Some(a)
  }

  /** The errors of the chain that starts at `e`, `e` first. */
  function Chain(e: Error): (c: seq<Error>)
    ensures |c| >= 1 && c[0] == e
  {
    match Unwrap(e)
    case None => [e]
    case Some(next) => [e] + Chain(next)
  }

  /** The common body of IsNotFoundError ... IsInternalError. */
  predicate IsOfType(e: Error, kind: string) {
    var a := FirstAppError(e);
    a.Some? && a.value.kind == kind
  }

  predicate IsNotFoundError(e: Error) { IsOfType(e, NotFound) }
  predicate IsConflictError(e: Error) { IsOfType(e, Conflict) }
  predicate IsValidationError(e: Error) { IsOfType(e, Validation) }
  predicate IsUnauthorizedError(e: Error) { IsOfType(e, Unauthorized) }
  predicate IsForbiddenError(e: Error) { IsOfType(e, Forbidden) }
  predicate IsDatabaseError(e: Error) { IsOfType(e, Database) }
  predicate IsExternalError(e: Error) { IsOfType(e, External) }
  predicate IsInternalError(e: Error) { IsOfType(e, Internal) }

  /** Position i of chain c holds an AppError of the type, and no AppError
      comes before it. */
  predicate FirstAppOfTypeAt(c: seq<Error>, i: int, kind: string) {
    && 0 <= i < |c| && c[i].App? && c[i].app.kind == kind
    && forall j :: 0 <= j < i ==> !c[j].App?
  }

  /** The classification is decided by the first AppError of the chain: it
      holds exactly when some AppError of the chain has the type and no
      AppError comes before it. */
  lemma {:induction false} IsOfTypeFirstInChain(e: Error, kind: string)
    ensures IsOfType(e, kind) <==> exists i :: FirstAppOfTypeAt(Chain(e), i, kind)
  {
    match e
    case Simple(_) =>
      assert Chain(e) == [e];
    case App(a) =>
      if IsOfType(e, kind) {
        assert FirstAppOfTypeAt(Chain(e), 0, kind);
      }
    case Wrapped(context, cause) =>
      IsOfTypeFirstInChain(cause, kind);
      if IsOfType(e, kind) {
        var i :| FirstAppOfTypeAt(Chain(cause), i, kind);
        ChainShift(context, cause, kind, i + 1);
      } else {
        forall i | FirstAppOfTypeAt(Chain(e), i, kind) ensures false {
          ChainShift(context, cause, kind, i);
        }
      }
  }

  /** Wrapping puts one error in front of the chain. */
  lemma ChainShift(context: string, cause: Error, kind: string, i: int)
    ensures FirstAppOfTypeAt(Chain(Wrapped(context, cause)), i, kind) <==>
              i >= 1 && FirstAppOfTypeAt(Chain(cause), i - 1, kind)
  {
    var c := Chain(Wrapped(context, cause));
    assert c == [Wrapped(context, cause)] + Chain(cause);
    if i >= 1 && FirstAppOfTypeAt(Chain(cause), i - 1, kind) {
      forall j | 0 <= j < i ensures !c[j].App? {
        if j > 0 { assert c[j] == Chain(cause)[j - 1]; }
      }
    }
    if FirstAppOfTypeAt(c, i, kind) {
      forall j | 0 <= j < i - 1 ensures !Chain(cause)[j].App? {
        assert c[j + 1] == Chain(cause)[j];
      }
    }
  }

  /** An AppError of a type deeper in the chain does not count when another
      AppError wraps it: a not-found error wrapped by an internal error is
      not classified as not found. */
  lemma InnerAppErrorIsHidden()
    ensures var inner := App(NotFoundError("user"));
            var outer := App(Wrap(inner, Internal, "lookup failed"));
            inner in Chain(outer) && !IsNotFoundError(outer) && IsInternalError(outer)
  {
    var inner := App(NotFoundError("user"));
    var outer := App(Wrap(inner, Internal, "lookup failed"));
    assert Chain(outer) == [outer, inner];
  }

  /** Wrapping with fmt.Errorf("...: %w") keeps the classification. */
  lemma WrappingKeepsType(context: string, e: Error, kind: string)
    ensures IsOfType(Wrapped(context, e), kind) == IsOfType(e, kind)
  {
  }

  /** GetHTTPStatus: the status every constructor gives an error of that
      type; a client error exactly for the five client-error types. */
  function GetHTTPStatus(kind: string): (status: int)
    ensures status == StatusCodeByType(kind)
    ensures status < 500 <==> kind in {Validation, NotFound, Unauthorized, Forbidden, Conflict}
  {
    StatusCodeByType(kind)
  }
}

=== FILE: hello_processor.dfy ===
/** The processor for "hello" messages: decodes its payload into a HelloEvent
    and records the content in Redis when Redis is configured. Redis is
    abstracted as the outcome of the push, and the commands issued are
    returned as a trace. */
module HelloProcessor {
  import opened Common
  import opened Json
  import opened Errors
  import opened Envelope

  const MessageType := "hello"
  const KeyPrefix := "hello:messages:"
  /** 7 * 24 hours, in seconds */
  const RetentionSeconds := 7 * 24 * 60 * 60

  datatype HelloEvent = HelloEvent(content: string, sender: string, timestamp: int)

  /** What the application offers the processor: no Redis client at all, or
      one whose LPUSH succeeds or fails. */
  datatype Redis = NoRedis | Redis(pushSucceeds: bool)

  /** A Redis command issued by the processor. */
  datatype StoreOp = LPush(key: string, value: string) | Expire(key: string, seconds: int)

  /** GetSupportedMessageType */
  function SupportedMessageType(): (t: string)
    ensures t == "hello"
  {
    MessageType
  }

  /** json.Unmarshal of a payload into a HelloEvent. */
  function DecodeEvent(j: Json): (r: Result<HelloEvent>)
    ensures j.JNull? ==> r == Ok(HelloEvent("", "", 0))
    ensures j.JObj? && r.Ok? ==>
              AsString(Member(j.members, "content")) == Some(r.value.content) &&
              AsString(Member(j.members, "sender")) == Some(r.value.sender)
    ensures !j.JNull? && !j.JObj? ==> r.Fail?
    ensures j.JObj? ==>
              (r.Ok? <==> AsString(Member(j.members, "content")).Some? &&
                          AsString(Member(j.members, "sender")).Some? &&
                          AsInt64(Member(j.members, "timestamp")).Some?)
    ensures j.JObj? && r.Ok? ==> AsInt64(Member(j.members, "timestamp")) == Some(r.value.timestamp)
  {
    match j
    case JNull => Ok(HelloEvent("", "", 0))
    case JObj(m) =>
      var content := AsString(Member(m, "content"));
      var sender := AsString(Member(m, "sender"));
      var timestamp := AsInt64(Member(m, "timestamp"));
      if content.Some? && sender.Some? && timestamp.Some? then
        Ok(HelloEvent(content.value, sender.value, timestamp.value))
      else Fail(TypeError)
    case _ => Fail(TypeError)
  }

  /** handleHelloMessage: with Redis, push the content under the day's key
      and, only if the push succeeded, set the key to expire after seven
      days. A failed push is logged, not returned: the result is always nil.
      `day` is the current date formatted as YYYYMMDD. */
  function HandleHelloMessage(event: HelloEvent, redis: Redis, day: string): (r: (Option<Error>, seq<StoreOp>))
    ensures r.0 == None
    ensures redis.NoRedis? <==> r.1 == []
    ensures redis.Redis? ==> r.1[0] == LPush(KeyPrefix + day, event.content)
    ensures |r.1| == 2 <==> redis == Redis(true)
    ensures |r.1| == 2 ==> r.1[1] == Expire(KeyPrefix + day, RetentionSeconds)
    ensures |r.1| <= 2
  {
    match redis
    case NoRedis => (None, [])
    case Redis(pushed) =>
      var key := KeyPrefix + day;
      if !pushed then (None, [LPush(key, event.content)])
      else (None, [LPush(key, event.content), Expire(key, RetentionSeconds)])
  }

  /** ProcessMessage: a payload that does not decode is returned as the error
      with no Redis command issued; otherwise the event is handled. */
  function ProcessMessage(e: MessageEnvelope, redis: Redis, day: string): (r: (Option<Error>, seq<StoreOp>))
    ensures UnmarshalPayload(e, DecodeEvent).Fail? ==>
              r == (Some(UnmarshalPayload(e, DecodeEvent).error), [])
    ensures UnmarshalPayload(e, DecodeEvent).Ok? ==>
              r == HandleHelloMessage(UnmarshalPayload(e, DecodeEvent).value, redis, day)
  {
    match UnmarshalPayload(e, DecodeEvent)
    case Fail(err) => (Some(err), [])
    case Ok(event) => HandleHelloMessage(event, redis, day)
  }

  /** The processor succeeds exactly when the payload decodes, whatever Redis
      does; it writes to Redis only when the payload decodes, and then pushes
      the event's content. */
  lemma ProcessMessageOutcome(e: MessageEnvelope, redis: Redis, day: string)
    ensures ProcessMessage(e, redis, day).0.None? <==> UnmarshalPayload(e, DecodeEvent).Ok?
    ensures ProcessMessage(e, redis, day).1 != [] ==>
              && UnmarshalPayload(e, DecodeEvent).Ok?
              && ProcessMessage(e, redis, day).1[0] ==
                 LPush(KeyPrefix + day, UnmarshalPayload(e, DecodeEvent).value.content)
  {
  }
}

=== FILE: hello_service.dfy ===
/** The hello publisher: builds a "hello" message envelope for a request
    and publishes it to the hello exchange. The three clock readings of the
    call are parameters. */
module HelloService {
  import opened Common
  import opened Decimal
  import opened Strings
  import opened Json
  import opened Errors
  import opened Envelope
  import opened RabbitMQ
  import Messaging
  import HelloProcessor
  import MessageConsumer

  const HelloExchange := "hello.exchange"
  const HelloRoutingKey := "hello"
  const JsonContentType := "application/json"

  datatype PublishHelloRequest = PublishHelloRequest(content: string, sender: string)

  /** The clock readings of one call: nanoseconds for the message ID, then
      the Unix seconds of the payload and of the envelope. */
  datatype Clock = Clock(nanos: int, payloadSeconds: int, envelopeSeconds: int)

  predicate ClockInRange(c: Clock)
  {
    InInt64(c.nanos) && InInt64(c.payloadSeconds) && InInt64(c.envelopeSeconds)
  }

  /** "msg-" followed by the decimal nanosecond reading. */
  function MessageID(nanos: int): (id: string)
    ensures HasPrefix(id, "msg-") && |id| > 4
  {
    "msg-" + IntToString(nanos)
  }

  /** The ID's digits read back as the clock reading it came from. */
  lemma MessageIDDigits(nanos: int)
    requires InInt64(nanos)
    ensures MessageID(nanos)[4..] == IntToString(nanos)
    ensures Atoi(MessageID(nanos)[4..]) == Some(nanos)
  {
    AtoiIntToString(nanos);
  }

  /** The payload object: content and sender copied from the request. */
  function HelloPayload(req: PublishHelloRequest, seconds: int): Json
  {
    JObj(map["content" := JStr(req.content), "sender" := JStr(req.sender), "timestamp" := JNum(seconds)])
  }

  /** The envelope the message body encodes (no source, no version). */
  function HelloEnvelope(req: PublishHelloRequest, clock: Clock): (e: MessageEnvelope)
    ensures e.messageType == HelloProcessor.SupportedMessageType()
    ensures e.messageId == MessageID(clock.nanos)
  {
    MessageEnvelope(MessageID(clock.nanos), "hello", Some(HelloPayload(req, clock.payloadSeconds)),
                    clock.envelopeSeconds, "", "")
  }

  /** The AMQP message: JSON, persistent, with the same ID as the body. */
  function HelloPublishing(req: PublishHelloRequest, clock: Clock): (m: Publishing)
    ensures m.contentType == JsonContentType && m.deliveryMode == Persistent
    ensures m.body.Doc? && m.messageId == MessageID(clock.nanos)
  {
    Publishing(JsonContentType, Doc(Encode(HelloEnvelope(req, clock))), Persistent, MessageID(clock.nanos))
  }

  /** PublishHelloMessage: publishes the hello message; the ID is returned
      exactly when the publish succeeded, otherwise "" and the wrapped
      publish error. */
  method PublishHelloMessage(producer: Producer, req: PublishHelloRequest, clock: Clock)
    returns (id: string, err: Option<Error>)
    modifies producer.conn
    ensures var n := |old(producer.conn.log)|;
            var conn := producer.conn;
            var publish := BasicPublish(HelloExchange, HelloRoutingKey, false, false, HelloPublishing(req, clock));
            && (err.None? <==> conn.reply(n, OpenChannel).None? && conn.reply(n + 1, publish).None?)
            && (conn.reply(n, OpenChannel).None? ==>
                  conn.log == old(conn.log) + [OpenChannel, publish, CloseChannel])
            && (conn.reply(n, OpenChannel).Some? ==> conn.log == old(conn.log) + [OpenChannel])
    ensures err.None? ==> id == MessageID(clock.nanos)
    ensures err.Some? ==> id == "" && err.value.Wrapped? && err.value.context == "failed to publish message to queue"
  {
    var messageID := MessageID(clock.nanos);
    var msg := HelloPublishing(req, clock);
    var e := producer.Publish(HelloExchange, HelloRoutingKey, msg);
    if e.Some? {
      return "", Some(Wrapped("failed to publish message to queue", e.value));
    }
    return messageID, None;
  }

  /** The published body decodes as a hello envelope carrying the returned
      ID, and its payload decodes to the request's content and sender. */
  lemma HelloBodyRoundTrip(req: PublishHelloRequest, clock: Clock)
    requires ClockInRange(clock)
    ensures Decode(HelloPublishing(req, clock).body) == Ok(HelloEnvelope(req, clock))
    ensures Decode(HelloPublishing(req, clock).body).value.messageId == HelloPublishing(req, clock).messageId
    ensures UnmarshalPayload(HelloEnvelope(req, clock), HelloProcessor.DecodeEvent) ==
            Ok(HelloProcessor.HelloEvent(req.content, req.sender, clock.payloadSeconds))
  {
    DecodeEncode(HelloEnvelope(req, clock));
    var m := HelloPayload(req, clock.payloadSeconds).members;
    assert AsString(Member(m, "content")) == Some(req.content);
    assert AsString(Member(m, "sender")) == Some(req.sender);
    assert AsInt64(Member(m, "timestamp")) == Some(clock.payloadSeconds);
  }

  /** End to end: a consumer service fresh from its constructor hands the
      published body to the hello processor, once, and accepts it; the
      processor stores the request's content. */
  lemma PublishedMessageReachesHello(c: MessageConsumer.MessageConsumerService, req: PublishHelloRequest, clock: Clock)
    requires c.registry.processors == map["hello" := Messaging.Hello]
    requires ClockInRange(clock)
    ensures var d := c.ConsumeMessage(HelloPublishing(req, clock).body);
            && d.err == None
            && d.invoked == [HelloEnvelope(req, clock)]
            && d.store == HelloProcessor.HandleHelloMessage(
                 HelloProcessor.HelloEvent(req.content, req.sender, clock.payloadSeconds), c.env.redis, c.env.day).1
  {
    HelloBodyRoundTrip(req, clock);
  }
}

=== FILE: i18n.dfy ===
/** Message localization of pkg/i18n: configuration defaults, one localizer
    per supported language, the fallback chain of a translation and the
    choice of language from an Accept-Language header (RFC 9110, section
    12.5.4). go-i18n's message lookup and x/text's tag parsing are
    parameters. */
module I18n {
  import opened Common
  import opened Errors
  import opened Values

  const ContextKeyLanguage := "language"
  const DefaultLanguage := "zh"
  const FallbackLanguage := "en"
  const DefaultMessagesPath := "./locales"

  datatype Config = Config(defaultLanguage: string, supportLangs: seq<string>, messagesPath: string)

  /** The localizer go-i18n builds for one language. */
  datatype Localizer = Localizer(lang: string)

  /** A translation, or the panic of calling a nil localizer. */
  datatype Translation = Text(text: string) | Panic

  /** The defaults New fills in: only fields that are empty change. */
  function WithDefaults(c: Config): (d: Config)
    ensures d.defaultLanguage == (if c.defaultLanguage == "" then DefaultLanguage else c.defaultLanguage)
    ensures d.messagesPath == (if c.messagesPath == "" then DefaultMessagesPath else c.messagesPath)
    ensures d.supportLangs == (if |c.supportLangs| == 0 then [DefaultLanguage, FallbackLanguage] else c.supportLangs)
    ensures d.defaultLanguage != "" && d.messagesPath != "" && |d.supportLangs| > 0
  {
    var c1 := if c.defaultLanguage == "" then c.(defaultLanguage := DefaultLanguage) else c;
    var c2 := if c1.messagesPath == "" then c1.(messagesPath := DefaultMessagesPath) else c1;
    if |c2.supportLangs| == 0 then c2.(supportLangs := [DefaultLanguage, FallbackLanguage]) else c2
  }

  /** Filling the defaults twice is filling them once. */
  lemma WithDefaultsIdempotent(c: Config)
    ensures WithDefaults(WithDefaults(c)) == WithDefaults(c)
  {
  }

  /** The message file of a language. */
  function MessageFile(path: string, lang: string): string {
    path + "/" + lang + ".yaml"
  }

  /** The loop of New from the localizers built so far: each language's
      message file is loaded in order and the language gets a localizer;
      the first failure stops it. */
  function LoadAll(acc: map<string, Localizer>, langs: seq<string>, path: string,
                   load: string -> Option<Error>): Result<map<string, Localizer>>
    decreases |langs|
  {
    if langs == [] then Ok(acc)
    else
      var loadErr := load(MessageFile(path, langs[0]));
      if loadErr.Some? then Fail(Wrapped("failed to load message file for " + langs[0], loadErr.value))
      else LoadAll(acc[langs[0] := Localizer(langs[0])], langs[1..], path, load)
  }

  /** Loading fails with the first language whose file fails; otherwise
      every language, and only those, has its own localizer. */
  lemma {:induction false} LoadAllMeaning(acc: map<string, Localizer>, langs: seq<string>, path: string,
                                          load: string -> Option<Error>)
    requires forall l :: l in acc ==> acc[l] == Localizer(l)
    ensures var k := FirstLoadFailure(langs, path, load);
            var r := LoadAll(acc, langs, path, load);
            && (k < |langs| ==>
                  r == Fail(Wrapped("failed to load message file for " + langs[k], load(MessageFile(path, langs[k])).value)))
            && (k == |langs| ==>
                  && r.Ok?
                  && (forall l :: l in r.value <==> l in acc || l in langs)
                  && (forall l :: l in r.value ==> r.value[l] == Localizer(l)))
    decreases |langs|
  {
    if langs != [] && load(MessageFile(path, langs[0])).None? {
      LoadAllMeaning(acc[langs[0] := Localizer(langs[0])], langs[1..], path, load);
      assert forall l :: l in langs <==> l == langs[0] || l in langs[1..];
    }
  }

  /** The index of the first language whose message file fails to load,
      or the count. */
  function FirstLoadFailure(langs: seq<string>, path: string, load: string -> Option<Error>): (k: nat)
    ensures k <= |langs|
    ensures forall j :: 0 <= j < k ==> load(MessageFile(path, langs[j])).None?
    ensures k < |langs| ==> load(MessageFile(path, langs[k])).Some?
  {
    if langs == [] then 0
    else if load(MessageFile(path, langs[0])).Some? then 0
    else 1 + FirstLoadFailure(langs[1..], path, load)
  }

  /** A context's values, by key. */
  datatype Context = Context(values: map<string, Value>)

  /** GetLanguageFromContext: the language when one is stored as a string. */
  function GetLanguageFromContext(ctx: Context): string {
    if ContextKeyLanguage in ctx.values && ctx.values[ContextKeyLanguage].Str? then ctx.values[ContextKeyLanguage].s
    else ""
  }

  /** SetLanguageToContext */
  function SetLanguageToContext(ctx: Context, lang: string): (c: Context)
    ensures forall k :: k in ctx.values && k != ContextKeyLanguage ==> k in c.values && c.values[k] == ctx.values[k]
  {
    Context(ctx.values[ContextKeyLanguage := Str(lang)])
  }

  /** Setting then getting the language gives it back; a context without
      one gives "". */
  lemma ContextLanguageRoundTrip(ctx: Context, lang: string)
    ensures GetLanguageFromContext(SetLanguageToContext(ctx, lang)) == lang
    ensures ContextKeyLanguage !in ctx.values ==> GetLanguageFromContext(ctx) == ""
  {
  }

  class I18n {
    const localizers: map<string, Localizer>
    const defaultLang: string
    /** go-i18n's Localize: the message of an ID in a language, filled with
        the template data, if the bundle has one */
    const localize: (string, string, map<string, Value>) -> Option<string>

    constructor (localizers: map<string, Localizer>, defaultLang: string,
                 localize: (string, string, map<string, Value>) -> Option<string>)
      ensures this.localizers == localizers && this.defaultLang == defaultLang && this.localize == localize
    {
      this.localizers := localizers;
      this.defaultLang := defaultLang;
      this.localize := localize;
    }

    /** GetLocalizer: the requested language's localizer, else the default
        language's, else none (a nil localizer). */
    function GetLocalizer(lang: string): (l: Option<Localizer>)
      reads this
      ensures lang in localizers ==> l == Some(localizers[lang])
      ensures lang !in localizers && defaultLang in localizers ==> l == Some(localizers[defaultLang])
      ensures l.None? <==> lang !in localizers && defaultLang !in localizers
    {
      if lang in localizers then Some(localizers[lang])
      else if defaultLang in localizers then Some(localizers[defaultLang])
      else None
    }

    /** TWithLang: the localized message, else the English one, else the
        message ID; a nil localizer panics. */
    function TWithLang(lang: string, messageId: string, data: map<string, Value>): (t: Translation)
      reads this
      ensures t.Panic? <==> GetLocalizer(lang).None?
      ensures t.Text? ==>
                var first := localize(GetLocalizer(lang).value.lang, messageId, data);
                var english := if FallbackLanguage in localizers
                               then localize(localizers[FallbackLanguage].lang, messageId, data) else None;
                && (first.Some? ==> t.text == first.value)
                && (first.None? && english.Some? ==> t.text == english.value)
                && (first.None? && english.None? ==> t.text == messageId)
    {
      var localizer := GetLocalizer(lang);
      if localizer.None? then Panic
      else
        var msg := localize(localizer.value.lang, messageId, data);
        if msg.Some? then Text(msg.value)
        else if FallbackLanguage in localizers then
          var fallback := localize(localizers[FallbackLanguage].lang, messageId, data);
          if fallback.Some? then Text(fallback.value) else Text(messageId)
        else Text(messageId)
    }

    /** The language T uses: the context's, or the default. */
    function ContextLanguage(ctx: Context): (lang: string)
      reads this
      ensures GetLanguageFromContext(ctx) == "" ==> lang == defaultLang
      ensures GetLanguageFromContext(ctx) != "" ==> lang == GetLanguageFromContext(ctx)
    {
      var lang := GetLanguageFromContext(ctx);
      if lang == "" then defaultLang else lang
    }

    /** T: TWithLang in the context's language, or the default language. */
    function T(ctx: Context, messageId: string, data: map<string, Value>): (t: Translation)
      reads this
      ensures GetLanguageFromContext(ctx) == "" ==> t == TWithLang(defaultLang, messageId, data)
      ensures GetLanguageFromContext(ctx) != "" ==> t == TWithLang(GetLanguageFromContext(ctx), messageId, data)
    {
      TWithLang(ContextLanguage(ctx), messageId, data)
    }

    /** When the default language has a localizer no translation panics,
        whatever language is asked for. */
    lemma NoPanicWithDefaultLocalizer(lang: string, messageId: string, data: map<string, Value>)
      requires defaultLang in localizers
      ensures TWithLang(lang, messageId, data).Text?
    {
    }
  }

  /** New: fills the defaults, then loads every supported language's
      message file in order; the first that fails stops it. */
  method New(config: Config, load: string -> Option<Error>,
             localize: (string, string, map<string, Value>) -> Option<string>) returns (r: Result<I18n>)
    ensures var c := WithDefaults(config);
            var loaded := LoadAll(map[], c.supportLangs, c.messagesPath, load);
            && (loaded.Fail? ==> r == Fail(loaded.error))
            && (loaded.Ok? ==>
                  && r.Ok? && fresh(r.value)
                  && r.value.localizers == loaded.value
                  && r.value.defaultLang == c.defaultLanguage && r.value.localize == localize)
  {
    var c := WithDefaults(config);
    var langs, path := c.supportLangs, c.messagesPath;
    ghost var goal := LoadAll(map[], langs, path, load);
    var localizers: map<string, Localizer> := map[];
    var i := 0;
    while i < |langs|
      invariant 0 <= i <= |langs|
      invariant goal == LoadAll(localizers, langs[i..], path, load)
    {
      var lang := langs[i];
      assert langs[i..][1..] == langs[i + 1..];
      var loadErr := load(MessageFile(path, lang));
      if loadErr.Some? {
        return Fail(Wrapped("failed to load message file for " + lang, loadErr.value));
      }
      localizers := localizers[lang := Localizer(lang)];
      i := i + 1;
    }
    var service := new I18n(localizers, c.defaultLanguage, localize);
    r := Ok(service);
  }

  /** The outcome of New in terms of the supported languages: the first
      file that fails to load is reported; otherwise every supported
      language, and only those, has its own localizer. */
  lemma NewOutcome(config: Config, load: string -> Option<Error>)
    ensures var c := WithDefaults(config);
            var k := FirstLoadFailure(c.supportLangs, c.messagesPath, load);
            var loaded := LoadAll(map[], c.supportLangs, c.messagesPath, load);
            && (k < |c.supportLangs| ==>
                  loaded == Fail(Wrapped("failed to load message file for " + c.supportLangs[k],
                                         load(MessageFile(c.messagesPath, c.supportLangs[k])).value)))
            && (k == |c.supportLangs| ==>
                  && loaded.Ok?
                  && (forall l :: l in loaded.value <==> l in c.supportLangs)
                  && (forall l :: l in loaded.value ==> loaded.value[l] == Localizer(l)))
  {
    var c := WithDefaults(config);
    LoadAllMeaning(map[], c.supportLangs, c.messagesPath, load);
  }

  /** With the default configuration the default language has a
      localizer, so T never panics. */
  lemma DefaultConfigNeverPanics(config: Config, load: string -> Option<Error>)
    requires config.defaultLanguage == "" && |config.supportLangs| == 0
    ensures var c := WithDefaults(config);
            var loaded := LoadAll(map[], c.supportLangs, c.messagesPath, load);
            loaded.Ok? ==> c.defaultLanguage in loaded.value
  {
    NewOutcome(config, load);
    assert DefaultLanguage in WithDefaults(config).supportLangs;
  }

  /** The language an Accept-Language tag selects, if it is one of ours. */
  function TagLanguage(tag: string): Option<string> {
    if tag == "zh" || tag == "zh-CN" || tag == "zh-Hans" then Some("zh")
    else if tag == "en" || tag == "en-US" then Some("en")
    else None
  }

  /** The loop of ParseAcceptLanguage over the parsed tags, in preference
      order: the first tag we know decides, otherwise the default. */
  function MatchTags(tags: seq<string>): (lang: string)
    ensures lang == "zh" || lang == "en"
    ensures (forall k :: 0 <= k < |tags| ==> TagLanguage(tags[k]).None?) ==> lang == DefaultLanguage
    ensures forall k :: 0 <= k < |tags| && TagLanguage(tags[k]).Some? &&
                        (forall j :: 0 <= j < k ==> TagLanguage(tags[j]).None?) ==>
                          lang == TagLanguage(tags[k]).value
  {
    if tags == [] then DefaultLanguage
    else if TagLanguage(tags[0]).Some? then TagLanguage(tags[0]).value
    else
      var rest := MatchTags(tags[1..]);
      assert forall k :: 1 <= k < |tags| ==> tags[k] == tags[1..][k - 1];
      rest
  }

  /** ParseAcceptLanguage; `parse` is x/text's Accept-Language parser,
      giving the tags' canonical texts in preference order, or None on a
      parse error. */
  function ParseAcceptLanguage(header: string, parse: string -> Option<seq<string>>): (lang: string)
    ensures lang == "zh" || lang == "en"
    ensures parse(header).None? || parse(header) == Some([]) ==> lang == DefaultLanguage
    ensures parse(header).Some? ==> lang == MatchTags(parse(header).value)
  {
    var tags := parse(header);
    if tags.None? || |tags.value| == 0 then DefaultLanguage else MatchTags(tags.value)
  }
}

=== FILE: idgen.dfy ===
/** The ID generator of pkg/idgen: the machine ID derived from the host's
    first non-loopback IPv4 address, the settings handed to sonyflake, and
    the decimal form of generated IDs. The network interface list and
    sonyflake itself are parameters. */
module IdGen {
  import opened Common
  import opened Decimal
  import opened Errors

  newtype byte = x: int | 0 <= x < 256

  /** An interface address: an IP network (its IP's bytes, 4 or 16 of them)
      or an address of another kind. */
  datatype Addr = IPNet(ip: seq<byte>) | OtherAddr

  /** net.IP.To4: the four bytes of an IPv4 address, in either form. */
  function To4(ip: seq<byte>): (r: Option<seq<byte>>)
    ensures r.Some? ==> |r.value| == 4
    ensures |ip| == 4 ==> r == Some(ip)
  {
    if |ip| == 4 then Some(ip)
    else if |ip| == 16 && (forall k :: 0 <= k < 10 ==> ip[k] == 0) && ip[10] == 0xff && ip[11] == 0xff then Some(ip[12..])
    else None
  }

  /** net.IP.IsLoopback: 127.0.0.0/8, or ::1. */
  predicate IsLoopback(ip: seq<byte>) {
    if To4(ip).Some? then To4(ip).value[0] == 127
    else |ip| == 16 && (forall k :: 0 <= k < 15 ==> ip[k] == 0) && ip[15] == 1
  }

  /** The addresses getMachineID can use. */
  predicate Usable(a: Addr) {
    a.IPNet? && !IsLoopback(a.ip) && To4(a.ip).Some?
  }

  /** validateMachineID */
  predicate ValidateMachineID(id: int) {
    0 <= id < 0x1_0000
  }

  /** The machine ID of an IPv4 address: its last two bytes, high byte first. */
  function MachineIDOf(ip4: seq<byte>): (id: int)
    requires |ip4| == 4
    ensures ValidateMachineID(id)
    ensures id / 256 == ip4[2] as int && id % 256 == ip4[3] as int
  {
    ip4[2] as int * 256 + ip4[3] as int
  }

  /** Two addresses share a machine ID exactly when their last two bytes agree. */
  lemma MachineIDOfInjective(a: seq<byte>, b: seq<byte>)
    requires |a| == 4 && |b| == 4
    ensures MachineIDOf(a) == MachineIDOf(b) <==> a[2..] == b[2..]
  {
    if MachineIDOf(a) == MachineIDOf(b) {
      assert a[2] == b[2] && a[3] == b[3];
      assert a[2..] == [a[2], a[3]] && b[2..] == [b[2], b[3]];
    } else {
      assert a[2..][0] == a[2] && a[2..][1] == a[3];
      assert b[2..][0] == b[2] && b[2..][1] == b[3];
    }
  }

  /** The machine ID of the first usable address of `list`, if any. */
  function FirstMachineID(list: seq<Addr>): (r: Option<int>)
    ensures r.Some? ==> ValidateMachineID(r.value)
  {
    if list == [] then None
    else if Usable(list[0]) then Some(MachineIDOf(To4(list[0].ip).value))
    else FirstMachineID(list[1..])
  }

  /** FirstMachineID finds the first usable address, and nothing when there
      is none. */
  lemma {:induction false} FirstMachineIDMeaning(list: seq<Addr>)
    ensures (forall k :: 0 <= k < |list| ==> !Usable(list[k])) <==> FirstMachineID(list).None?
    ensures forall k :: 0 <= k < |list| && Usable(list[k]) && (forall j :: 0 <= j < k ==> !Usable(list[j])) ==>
                          FirstMachineID(list) == Some(MachineIDOf(To4(list[k].ip).value))
  {
    if list != [] {
      FirstMachineIDMeaning(list[1..]);
      if !Usable(list[0]) {
        forall k | 0 <= k < |list| && Usable(list[k]) && (forall j :: 0 <= j < k ==> !Usable(list[j]))
          ensures FirstMachineID(list) == Some(MachineIDOf(To4(list[k].ip).value))
        {
          assert list[1..][k - 1] == list[k];
          forall j | 0 <= j < k - 1 ensures !Usable(list[1..][j]) {
            assert list[1..][j] == list[j + 1];
          }
        }
        if FirstMachineID(list).None? {
          forall k | 0 <= k < |list| ensures !Usable(list[k]) {
            if k > 0 { assert list[1..][k - 1] == list[k]; }
          }
        }
      }
    }
  }

  /** getMachineID as a function of the answer of net.InterfaceAddrs. */
  function MachineIDFrom(addrs: Result<seq<Addr>>): (r: Result<int>)
    ensures r.Ok? ==> ValidateMachineID(r.value)
  {
    if addrs.Fail? then Fail(Wrapped("failed to get interface addresses", addrs.error))
    else
      match FirstMachineID(addrs.value)
      case None => Fail(Simple("no valid IP address found"))
      case Some(id) => Ok(id)
  }

  /** The first usable address decides the machine ID; a failure of the
      address list, or the lack of any usable address, is an error, and
      these are the only errors. */
  lemma MachineIDFromMeaning(addrs: Result<seq<Addr>>)
    ensures var r := MachineIDFrom(addrs);
            && (addrs.Fail? ==> r == Fail(Wrapped("failed to get interface addresses", addrs.error)))
            && (addrs.Ok? && (forall k :: 0 <= k < |addrs.value| ==> !Usable(addrs.value[k])) ==>
                  r == Fail(Simple("no valid IP address found")))
            && (addrs.Ok? ==> forall k :: 0 <= k < |addrs.value| && Usable(addrs.value[k]) &&
                                           (forall j :: 0 <= j < k ==> !Usable(addrs.value[j])) ==>
                                             r == Ok(MachineIDOf(To4(addrs.value[k].ip).value)))
            && (r.Fail? ==> r.error == Simple("no valid IP address found") ||
                            (addrs.Fail? && r.error == Wrapped("failed to get interface addresses", addrs.error)))
  {
    if addrs.Ok? {
      FirstMachineIDMeaning(addrs.value);
    }
  }

  /** getMachineID: scans the answer of net.InterfaceAddrs for the first
      usable address. */
  method GetMachineID(addrs: Result<seq<Addr>>) returns (r: Result<int>)
    ensures r == MachineIDFrom(addrs)
  {
    if addrs.Fail? {
      return Fail(Wrapped("failed to get interface addresses", addrs.error));
    }
    var list := addrs.value;
    var i := 0;
    while i < |list|
      invariant 0 <= i <= |list|
      invariant FirstMachineID(list) == FirstMachineID(list[i..])
    {
      var addr := list[i];
      assert list[i..][1..] == list[i + 1..];
      if addr.IPNet? && !IsLoopback(addr.ip) {
        var ip4 := To4(addr.ip);
        if ip4.Some? {
          return Ok(MachineIDOf(ip4.value));
        }
      }
      i := i + 1;
    }
    r := Fail(Simple("no valid IP address found"));
  }

  /** 2024-01-01T00:00:00Z as seconds of the Unix epoch. */
  const StartOf2024 := 1704067200
  const Millisecond := 1_000_000

  /** The generator configuration: times in seconds and nanoseconds; a
      zero machine ID means "derive it", zero bit counts and unit mean
      "sonyflake's default". */
  datatype Config = Config(startTime: int, machineID: int, bitsSequence: int, bitsMachineID: int, timeUnit: int)

  /** DefaultConfig */
  function DefaultConfig(): (c: Config)
    ensures c.startTime == StartOf2024 && c.machineID == 0
    ensures c.bitsSequence == 8 && c.bitsMachineID == 16 && c.timeUnit == 10 * Millisecond
  {
    Config(StartOf2024, 0, 8, 16, 10 * Millisecond)
  }

  /** The sonyflake settings: a zero field is sonyflake's default. The
      machine ID check is always validateMachineID, so sonyflake.New accepts
      only settings whose machine ID passes it. */
  datatype Settings = Settings(startTime: int, machineID: int, bitsSequence: int, bitsMachineID: int, timeUnit: int)

  /** The settings built for `config` once the machine ID is known: the bit
      counts and the time unit are taken from the configuration only when
      positive. */
  function SettingsFor(config: Config, machineID: int): Settings {
    Settings(config.startTime, machineID,
             if config.bitsSequence > 0 then config.bitsSequence else 0,
             if config.bitsMachineID > 0 then config.bitsMachineID else 0,
             if config.timeUnit > 0 then config.timeUnit else 0)
  }

  /** A generator built from its settings. */
  datatype Generator = Generator(settings: Settings)

  /** NewSonyflakeGeneratorWithConfig; `create` is sonyflake.New's error,
      which rejects a machine ID that fails validateMachineID. */
  method NewSonyflakeGeneratorWithConfig(config: Config, addrs: Result<seq<Addr>>, create: Settings -> Option<Error>)
    returns (r: Result<Generator>)
    requires forall s :: create(s).None? ==> ValidateMachineID(s.machineID)
    ensures config.machineID == 0 && MachineIDFrom(addrs).Fail? ==>
              r == Fail(Wrapped("failed to get machine ID", MachineIDFrom(addrs).error))
    ensures r.Ok? ==> var s := r.value.settings;
              && create(s).None?
              && s.startTime == config.startTime
              && (config.machineID != 0 ==> s.machineID == config.machineID)
              && (config.machineID == 0 ==> MachineIDFrom(addrs).Ok? && s.machineID == MachineIDFrom(addrs).value)
              && s.bitsSequence == (if config.bitsSequence > 0 then config.bitsSequence else 0)
              && s.bitsMachineID == (if config.bitsMachineID > 0 then config.bitsMachineID else 0)
              && s.timeUnit == (if config.timeUnit > 0 then config.timeUnit else 0)
    ensures r.Fail? && (config.machineID != 0 || addrs.Ok?) ==>
              r.error.Wrapped? && r.error.context in {"failed to get machine ID", "failed to create sonyflake instance"}
    ensures config.machineID != 0 || MachineIDFrom(addrs).Ok? ==>
              var s := SettingsFor(config, if config.machineID != 0 then config.machineID else MachineIDFrom(addrs).value);
              r == (if create(s).None? then Ok(Generator(s))
                    else Fail(Wrapped("failed to create sonyflake instance", create(s).value)))
    ensures r.Ok? ==> ValidateMachineID(r.value.settings.machineID)
  {
    var machineID: int;
    if config.machineID != 0 {
      machineID := config.machineID;
    } else {
      var derived := GetMachineID(addrs);
      if derived.Fail? {
        return Fail(Wrapped("failed to get machine ID", derived.error));
      }
      machineID := derived.value;
    }
    var settings := Settings(config.startTime, machineID, 0, 0, 0);
    if config.bitsSequence > 0 {
      settings := settings.(bitsSequence := config.bitsSequence);
    }
    if config.bitsMachineID > 0 {
      settings := settings.(bitsMachineID := config.bitsMachineID);
    }
    if config.timeUnit > 0 {
      settings := settings.(timeUnit := config.timeUnit);
    }
    assert settings == SettingsFor(config, machineID);
    var createErr := create(settings);
    if createErr.Some? {
      return Fail(Wrapped("failed to create sonyflake instance", createErr.value));
    }
    r := Ok(Generator(settings));
  }

  /** NewSonyflakeGenerator: always derives the machine ID and leaves the
      bit counts and unit at sonyflake's defaults. */
  method NewSonyflakeGenerator(addrs: Result<seq<Addr>>, create: Settings -> Option<Error>) returns (r: Result<Generator>)
    ensures r.Ok? ==> var s := r.value.settings;
              && create(s).None? && s.startTime == StartOf2024 && MachineIDFrom(addrs).Ok? && s.machineID == MachineIDFrom(addrs).value
              && s.bitsSequence == 0 && s.bitsMachineID == 0 && s.timeUnit == 0
    ensures MachineIDFrom(addrs).Fail? ==> r == Fail(Wrapped("failed to get machine ID", MachineIDFrom(addrs).error))
    ensures MachineIDFrom(addrs).Ok? ==>
              r == (if create(Settings(StartOf2024, MachineIDFrom(addrs).value, 0, 0, 0)).None?
                    then Ok(Generator(Settings(StartOf2024, MachineIDFrom(addrs).value, 0, 0, 0)))
                    else Fail(Wrapped("failed to create sonyflake instance",
                                      create(Settings(StartOf2024, MachineIDFrom(addrs).value, 0, 0, 0)).value)))
  {
    var derived := GetMachineID(addrs);
    if derived.Fail? {
      return Fail(Wrapped("failed to get machine ID", derived.error));
    }
    var settings := Settings(StartOf2024, derived.value, 0, 0, 0);
    var createErr := create(settings);
    if createErr.Some? {
      return Fail(Wrapped("failed to create sonyflake instance", createErr.value));
    }
    r := Ok(Generator(settings));
  }

  /** int64(id) of a uint64: values from 2^63 up wrap to negative. */
  function ToInt64(u: nat): (i: int)
    requires u < 0x1_0000_0000_0000_0000
    ensures InInt64(i)
    ensures u <= Int64Max ==> i == u
  {
    if u <= Int64Max then u else u - 0x1_0000_0000_0000_0000
  }

  /** NextID: `answer` is sonyflake's NextID; 0 with the error on failure. */
  function NextID(answer: Result<nat>): (r: (int, Option<Error>))
    requires answer.Ok? ==> answer.value < 0x1_0000_0000_0000_0000
    ensures answer.Fail? ==> r == (0, Some(Wrapped("failed to generate ID", answer.error)))
    ensures answer.Ok? ==> r.1 == None && InInt64(r.0) && r.0 == ToInt64(answer.value)
  {
    if answer.Fail? then (0, Some(Wrapped("failed to generate ID", answer.error)))
    else (ToInt64(answer.value), None)
  }

  /** NextIDString: "" with the error on failure, else the ID in decimal. */
  function NextIDString(answer: Result<nat>): (r: (string, Option<Error>))
    requires answer.Ok? ==> answer.value < 0x1_0000_0000_0000_0000
    ensures r.1 == NextID(answer).1
    ensures r.1.Some? ==> r.0 == ""
    ensures r.1.None? ==> r.0 == IntToString(NextID(answer).0)
  {
    var (id, err) := NextID(answer);
    if err.Some? then ("", err) else (IntToString(id), None)
  }

  /** The decimal string of an ID reads back as the ID NextID returns. */
  lemma NextIDStringRoundTrip(answer: Result<nat>)
    requires answer.Ok? && answer.value < 0x1_0000_0000_0000_0000
    ensures Atoi(NextIDString(answer).0) == Some(NextID(answer).0)
  {
    AtoiIntToString(NextID(answer).0);
  }
}

=== FILE: job_registry.dfy ===
/** The job registry: turns the scheduler section of the configuration into
    gocron jobs. Each enabled job needs a registered factory and a schedule
    of type "duration", "cron" or "daily"; the first job that cannot be added
    stops initialization. */
module JobRegistry {
  import opened Common
  import opened Decimal
  import opened Errors
  import opened Scheduler

  /** One job of the scheduler configuration. */
  datatype JobConfig = JobConfig(name: string, kind: string, schedule: string, enabled: bool, description: string)

  datatype SchedulerConfig = SchedulerConfig(enabled: bool, jobs: seq<JobConfig>)

  /** What a factory builds; only its presence matters to the registry. */
  datatype JobFactory = HelloJobFactory | CustomFactory(factoryName: string)

  const HelloJobName := "hello_job"

  /** A time of day as time.Parse reads it from the layout "15:04". */
  datatype ClockTime = ClockTime(hour: nat, minute: nat)

  /** time.Parse with layout "15:04": one or two hour digits below 24, a
      colon, exactly two minute digits below 60 and nothing after them. */
  function ParseClock(s: string): (r: Option<ClockTime>)
    ensures r.Some? ==> r.value.hour < 24 && r.value.minute < 60
    ensures r.Some? ==> (|s| == 4 || |s| == 5) && s[|s| - 3] == ':'
  {
    if |s| == 4 && IsDigit(s[0]) && s[1] == ':' && IsDigit(s[2]) && IsDigit(s[3]) then
      var minute := 10 * DigitValue(s[2]) + DigitValue(s[3]);
      if minute < 60 then Some(ClockTime(DigitValue(s[0]), minute)) else None
    else if |s| == 5 && IsDigit(s[0]) && IsDigit(s[1]) && s[2] == ':' && IsDigit(s[3]) && IsDigit(s[4]) then
      var hour := 10 * DigitValue(s[0]) + DigitValue(s[1]);
      var minute := 10 * DigitValue(s[3]) + DigitValue(s[4]);
      if hour < 24 && minute < 60 then Some(ClockTime(hour, minute)) else None
    else
      None
  }

  /** Two decimal digits of a number below 100. */
  function TwoDigits(n: nat): (s: string)
    requires n < 100
    ensures |s| == 2 && IsDigit(s[0]) && IsDigit(s[1])
    ensures 10 * DigitValue(s[0]) + DigitValue(s[1]) == n
  {
    [DigitChar(n / 10), DigitChar(n % 10)]
  }

  /** A time of day written as the layout "15:04" writes it. */
  function FormatClock(c: ClockTime): string
    requires c.hour < 24 && c.minute < 60
  {
    TwoDigits(c.hour) + ":" + TwoDigits(c.minute)
  }

  /** Every time of day written as HH:MM reads back as itself, and a
      five-character time reads back only from its own HH:MM form. */
  lemma ParseClockFormat(c: ClockTime, s: string)
    requires c.hour < 24 && c.minute < 60
    ensures ParseClock(FormatClock(c)) == Some(c)
    ensures |s| == 5 && ParseClock(s) == Some(c) ==> s == FormatClock(c)
  {
    var f := FormatClock(c);
    assert f[0] == TwoDigits(c.hour)[0] && f[1] == TwoDigits(c.hour)[1] && f[2] == ':';
    assert f[3] == TwoDigits(c.minute)[0] && f[4] == TwoDigits(c.minute)[1];
    if |s| == 5 && ParseClock(s) == Some(c) {
      forall k | 0 <= k < 5 ensures s[k] == f[k] {
        DigitsDetermined(s[0], s[1], f[0], f[1]);
        DigitsDetermined(s[3], s[4], f[3], f[4]);
      }
    }
  }

  /** Two digits are fixed by the number they spell. */
  lemma DigitsDetermined(a: char, b: char, c: char, d: char)
    requires IsDigit(a) && IsDigit(b) && IsDigit(c) && IsDigit(d)
    requires 10 * DigitValue(a) + DigitValue(b) == 10 * DigitValue(c) + DigitValue(d)
    ensures a == c && b == d
  {
    assert DigitValue(a) == DigitValue(c);
  }

  /** The cause time.Parse reports for a schedule that is not HH:MM. */
  function ClockParseError(s: string): Error {
    Simple("parsing time \"" + s + "\" as \"15:04\"")
  }

  /** createJobDefinition: a job's schedule read according to its type;
      `parseDuration` is time.ParseDuration, giving nanoseconds. */
  function CreateJobDefinition(jc: JobConfig, parseDuration: string -> Result<int>): (r: Result<JobDefinition>)
    ensures jc.kind == "duration" ==>
              r == (if parseDuration(jc.schedule).Ok? then Ok(DurationJob(parseDuration(jc.schedule).value))
                    else Fail(Wrapped("invalid duration format", parseDuration(jc.schedule).error)))
    ensures jc.kind == "cron" ==> r == Ok(CronJob(jc.schedule, false))
    ensures jc.kind == "daily" ==>
              (r.Ok? <==> ParseClock(jc.schedule).Some?) &&
              (r.Ok? ==> r.value.DailyJob? && r.value.everyDays == 1 && r.value.second == 0 &&
                         r.value.hour < 24 && r.value.minute < 60 &&
                         Some(ClockTime(r.value.hour, r.value.minute)) == ParseClock(jc.schedule))
    ensures jc.kind !in {"duration", "cron", "daily"} ==> r == Fail(Simple("unsupported job type: " + jc.kind))
  {
    match jc.kind
    case "duration" =>
      var d := parseDuration(jc.schedule);
      if d.Fail? then Fail(Wrapped("invalid duration format", d.error)) else Ok(DurationJob(d.value))
    case "cron" => Ok(CronJob(jc.schedule, false))
    case "daily" =>
      var t := ParseClock(jc.schedule);
      if t.None? then Fail(Wrapped("invalid daily time format (should be HH:MM)", ClockParseError(jc.schedule)))
      else Ok(DailyJob(1, t.value.hour, t.value.minute, 0))
    case _ => Fail(Simple("unsupported job type: " + jc.kind))
  }

  /** The tags a configured job is given: its name and its type. */
  function Tags(jc: JobConfig): seq<string> {
    [jc.name, jc.kind]
  }

  /** The scheduler's jobs and the error after an attempt. */
  datatype Added = Added(jobs: seq<Job>, err: Option<Error>)

  /** addJob, on the scheduler's job list. */
  function AddOne(factories: map<string, JobFactory>, parseDuration: string -> Result<int>,
                  newJob: (nat, JobDefinition, string, seq<string>) -> Result<GocronJob>,
                  jobs: seq<Job>, jc: JobConfig): (r: Added)
    ensures r.err.Some? ==> r.jobs == jobs
    ensures jc.name !in factories ==> r.err == Some(Simple("job factory not found for: " + jc.name))
    ensures r.err.None? ==> jc.name in factories
    ensures r.err.None? ==> |r.jobs| == |jobs| + 1 && r.jobs[..|jobs|] == jobs &&
                            r.jobs[|jobs|].name == jc.name && r.jobs[|jobs|].tags == Tags(jc)
  {
    if jc.name !in factories then Added(jobs, Some(Simple("job factory not found for: " + jc.name)))
    else
      var definition := CreateJobDefinition(jc, parseDuration);
      if definition.Fail? then Added(jobs, Some(Wrapped("failed to create job definition", definition.error)))
      else
        var answer := newJob(|jobs|, definition.value, jc.name, Tags(jc));
        if answer.Fail? then
          Added(jobs, Some(Wrapped("failed to add job to scheduler", Wrapped("failed to create job", answer.error))))
        else
          Added(jobs + [CreatedJob(answer.value, definition.value, jc.name, Tags(jc))], None)
  }

  /** The loop of InitializeJobs from a given job list: disabled jobs are
      skipped, the first failure stops the loop. */
  function AddAll(factories: map<string, JobFactory>, parseDuration: string -> Result<int>,
                  newJob: (nat, JobDefinition, string, seq<string>) -> Result<GocronJob>,
                  jobs: seq<Job>, specs: seq<JobConfig>): Added
    decreases |specs|
  {
    if specs == [] then Added(jobs, None)
    else if !specs[0].enabled then AddAll(factories, parseDuration, newJob, jobs, specs[1..])
    else
      var one := AddOne(factories, parseDuration, newJob, jobs, specs[0]);
      if one.err.Some? then Added(one.jobs, Some(Wrapped("failed to add job " + specs[0].name, one.err.value)))
      else AddAll(factories, parseDuration, newJob, one.jobs, specs[1..])
  }

  /** The enabled jobs of a configuration, in order. */
  function Enabled(specs: seq<JobConfig>): (r: seq<JobConfig>)
    ensures |r| <= |specs|
    ensures forall jc :: jc in r ==> jc in specs && jc.enabled
    ensures forall jc :: jc in specs && jc.enabled ==> jc in r
  {
    if specs == [] then []
    else if specs[0].enabled then [specs[0]] + Enabled(specs[1..])
    else Enabled(specs[1..])
  }

  /** Disabled jobs make no difference: initializing with them is
      initializing with the enabled jobs alone. */
  lemma {:induction false} AddAllIgnoresDisabled(factories: map<string, JobFactory>, parseDuration: string -> Result<int>,
                                                 newJob: (nat, JobDefinition, string, seq<string>) -> Result<GocronJob>,
                                                 jobs: seq<Job>, specs: seq<JobConfig>)
    ensures AddAll(factories, parseDuration, newJob, jobs, specs) ==
            AddAll(factories, parseDuration, newJob, jobs, Enabled(specs))
    decreases |specs|
  {
    if specs != [] {
      var rest := Enabled(specs[1..]);
      if specs[0].enabled {
        assert ([specs[0]] + rest)[1..] == rest;
        var one := AddOne(factories, parseDuration, newJob, jobs, specs[0]);
        AddAllIgnoresDisabled(factories, parseDuration, newJob, one.jobs, specs[1..]);
      } else {
        AddAllIgnoresDisabled(factories, parseDuration, newJob, jobs, specs[1..]);
      }
    }
  }

  /** Jobs added before stay, whatever happens. */
  lemma {:induction false} AddAllKeepsEarlierJobs(factories: map<string, JobFactory>, parseDuration: string -> Result<int>,
                                                  newJob: (nat, JobDefinition, string, seq<string>) -> Result<GocronJob>,
                                                  jobs: seq<Job>, specs: seq<JobConfig>)
    ensures var r := AddAll(factories, parseDuration, newJob, jobs, specs);
            |jobs| <= |r.jobs| && r.jobs[..|jobs|] == jobs
    decreases |specs|
  {
    if specs != [] {
      var one := AddOne(factories, parseDuration, newJob, jobs, specs[0]);
      if !specs[0].enabled {
        AddAllKeepsEarlierJobs(factories, parseDuration, newJob, jobs, specs[1..]);
      } else if one.err.None? {
        AddAllKeepsEarlierJobs(factories, parseDuration, newJob, one.jobs, specs[1..]);
        var r := AddAll(factories, parseDuration, newJob, one.jobs, specs[1..]);
        assert r.jobs[..|jobs|] == r.jobs[..|one.jobs|][..|jobs|];
      }
    }
  }

  /** The jobs from index |jobs| of `added` are those of `enabled`, in
      order, each with a factory, its name and its tags. */
  predicate AddedInOrder(factories: map<string, JobFactory>, jobs: seq<Job>, added: seq<Job>, enabled: seq<JobConfig>) {
    && |added| == |jobs| + |enabled|
    && (forall i :: 0 <= i < |enabled| ==>
          enabled[i].name in factories &&
          added[|jobs| + i].name == enabled[i].name && added[|jobs| + i].tags == Tags(enabled[i]))
  }

  /** One added job followed by the jobs of the rest. */
  lemma AddedInOrderCons(factories: map<string, JobFactory>, jobs: seq<Job>, withHead: seq<Job>, added: seq<Job>,
                         head: JobConfig, rest: seq<JobConfig>)
    requires |withHead| == |jobs| + 1 && head.name in factories
    requires withHead[|jobs|].name == head.name && withHead[|jobs|].tags == Tags(head)
    requires |withHead| <= |added| && added[..|withHead|] == withHead
    requires AddedInOrder(factories, withHead, added, rest)
    ensures AddedInOrder(factories, jobs, added, [head] + rest)
  {
    var enabled := [head] + rest;
    forall i | 0 <= i < |enabled|
      ensures enabled[i].name in factories
      ensures added[|jobs| + i].name == enabled[i].name && added[|jobs| + i].tags == Tags(enabled[i])
    {
      if i == 0 {
        assert added[|jobs|] == added[..|withHead|][|jobs|];
      } else {
        assert enabled[i] == rest[i - 1];
        assert |withHead| + (i - 1) == |jobs| + i;
      }
    }
  }

  /** A successful initialization adds exactly the enabled jobs, in order,
      each under its own name and tagged with its name and type. */
  lemma {:induction false} AddAllSuccess(factories: map<string, JobFactory>, parseDuration: string -> Result<int>,
                                         newJob: (nat, JobDefinition, string, seq<string>) -> Result<GocronJob>,
                                         jobs: seq<Job>, specs: seq<JobConfig>)
    requires AddAll(factories, parseDuration, newJob, jobs, specs).err.None?
    ensures var r := AddAll(factories, parseDuration, newJob, jobs, specs);
            var enabled := Enabled(specs);
            && |r.jobs| == |jobs| + |enabled|
            && (forall i :: 0 <= i < |enabled| ==>
                  enabled[i].name in factories &&
                  r.jobs[|jobs| + i].name == enabled[i].name && r.jobs[|jobs| + i].tags == Tags(enabled[i]))
  {
    AddAllSuccessInOrder(factories, parseDuration, newJob, jobs, specs);
  }

  /** AddAllSuccess, stated through AddedInOrder for the induction. */
  lemma {:induction false} AddAllSuccessInOrder(factories: map<string, JobFactory>, parseDuration: string -> Result<int>,
                                                newJob: (nat, JobDefinition, string, seq<string>) -> Result<GocronJob>,
                                                jobs: seq<Job>, specs: seq<JobConfig>)
    requires AddAll(factories, parseDuration, newJob, jobs, specs).err.None?
    ensures AddedInOrder(factories, jobs, AddAll(factories, parseDuration, newJob, jobs, specs).jobs, Enabled(specs))
    decreases |specs|
  {
    if specs == [] {
    } else if !specs[0].enabled {
      AddAllSuccessInOrder(factories, parseDuration, newJob, jobs, specs[1..]);
    } else {
      var one := AddOne(factories, parseDuration, newJob, jobs, specs[0]);
      assert one.err.None?;
      AddAllSuccessInOrder(factories, parseDuration, newJob, one.jobs, specs[1..]);
      AddAllKeepsEarlierJobs(factories, parseDuration, newJob, one.jobs, specs[1..]);
      var r := AddAll(factories, parseDuration, newJob, one.jobs, specs[1..]);
      assert AddAll(factories, parseDuration, newJob, jobs, specs) == r;
      assert Enabled(specs) == [specs[0]] + Enabled(specs[1..]);
      AddedInOrderCons(factories, jobs, one.jobs, r.jobs, specs[0], Enabled(specs[1..]));
    }
  }

  /** Initialization fails at spec `k`: the enabled specs before it were
      all added, spec `k` is enabled and its addition fails, and the result
      is the job list as it stood before `k` with that failure wrapped in
      the job's name, so no later spec is processed. */
  predicate FailsAt(factories: map<string, JobFactory>, parseDuration: string -> Result<int>,
                    newJob: (nat, JobDefinition, string, seq<string>) -> Result<GocronJob>,
                    jobs: seq<Job>, specs: seq<JobConfig>, k: nat)
  {
    && k < |specs| && specs[k].enabled
    && var before := AddAll(factories, parseDuration, newJob, jobs, specs[..k]);
       var one := AddOne(factories, parseDuration, newJob, before.jobs, specs[k]);
       && before.err.None?
       && one.err.Some?
       && AddAll(factories, parseDuration, newJob, jobs, specs) ==
          Added(before.jobs, Some(Wrapped("failed to add job " + specs[k].name, one.err.value)))
  }

  /** A failed initialization is fail-fast but not all-or-nothing: it
      stops at the first enabled spec whose addition fails, keeping the
      jobs of the enabled specs before it. */
  lemma {:induction false} AddAllFailure(factories: map<string, JobFactory>, parseDuration: string -> Result<int>,
                                         newJob: (nat, JobDefinition, string, seq<string>) -> Result<GocronJob>,
                                         jobs: seq<Job>, specs: seq<JobConfig>)
    requires AddAll(factories, parseDuration, newJob, jobs, specs).err.Some?
    ensures exists k: nat :: FailsAt(factories, parseDuration, newJob, jobs, specs, k)
    decreases |specs|
  {
    var one := AddOne(factories, parseDuration, newJob, jobs, specs[0]);
    if specs[0].enabled && one.err.Some? {
      assert specs[..0] == [];
      assert FailsAt(factories, parseDuration, newJob, jobs, specs, 0);
    } else {
      var next := if !specs[0].enabled then jobs else one.jobs;
      var tail := specs[1..];
      AddAllFailure(factories, parseDuration, newJob, next, tail);
      var k: nat :| FailsAt(factories, parseDuration, newJob, next, tail, k);
      assert specs[..k + 1][0] == specs[0];
      assert specs[..k + 1][1..] == tail[..k];
      assert AddAll(factories, parseDuration, newJob, jobs, specs[..k + 1]) ==
             AddAll(factories, parseDuration, newJob, next, tail[..k]);
      assert FailsAt(factories, parseDuration, newJob, jobs, specs, k + 1);
    }
  }

  class JobRegistry {
    const scheduler: SchedulerService
    const config: SchedulerConfig
    /** time.ParseDuration */
    const parseDuration: string -> Result<int>
    var registeredJobs: map<string, JobFactory>

    /** NewJobRegistry: the hello job is registered by default. */
    constructor (scheduler: SchedulerService, config: SchedulerConfig, parseDuration: string -> Result<int>)
      ensures this.scheduler == scheduler && this.config == config && this.parseDuration == parseDuration
      ensures registeredJobs == map[HelloJobName := HelloJobFactory]
    {
      this.scheduler := scheduler;
      this.config := config;
      this.parseDuration := parseDuration;
      registeredJobs := map[HelloJobName := HelloJobFactory];
    }

    /** RegisterJob: adds or replaces the factory of a name. */
    method RegisterJob(name: string, factory: JobFactory)
      modifies this
      ensures registeredJobs == old(registeredJobs)[name := factory]
    {
      registeredJobs := registeredJobs[name := factory];
    }

    /** addJob: the job's factory and definition, then the scheduler. */
    method AddJob(jc: JobConfig) returns (err: Option<Error>)
      modifies scheduler
      ensures var r := AddOne(registeredJobs, parseDuration, scheduler.newJob, old(scheduler.jobs), jc);
              scheduler.jobs == r.jobs && err == r.err
      ensures scheduler.started == old(scheduler.started)
    {
      if jc.name !in registeredJobs {
        return Some(Simple("job factory not found for: " + jc.name));
      }
      var definition := CreateJobDefinition(jc, parseDuration);
      if definition.Fail? {
        return Some(Wrapped("failed to create job definition", definition.error));
      }
      var addErr := scheduler.AddJob(definition.value, jc.name, Tags(jc));
      if addErr.Some? {
        return Some(Wrapped("failed to add job to scheduler", addErr.value));
      }
      err := None;
    }

    /** InitializeJobs: nothing when the scheduler is disabled; otherwise
        every enabled job in order, up to the first failure. */
    method InitializeJobs() returns (err: Option<Error>)
      modifies scheduler
      ensures !config.enabled ==> err == None && scheduler.jobs == old(scheduler.jobs)
      ensures config.enabled ==>
                var r := AddAll(registeredJobs, parseDuration, scheduler.newJob, old(scheduler.jobs), config.jobs);
                scheduler.jobs == r.jobs && err == r.err
      ensures scheduler.started == old(scheduler.started)
    {
      if !config.enabled {
        return None;
      }
      ghost var goal := AddAll(registeredJobs, parseDuration, scheduler.newJob, scheduler.jobs, config.jobs);
      var i := 0;
      while i < |config.jobs|
        invariant 0 <= i <= |config.jobs|
        invariant goal == AddAll(registeredJobs, parseDuration, scheduler.newJob, scheduler.jobs, config.jobs[i..])
        invariant scheduler.started == old(scheduler.started)
      {
        var jc := config.jobs[i];
        assert config.jobs[i..][1..] == config.jobs[i + 1..];
        if jc.enabled {
          var addErr := AddJob(jc);
          if addErr.Some? {
            return Some(Wrapped("failed to add job " + jc.name, addErr.value));
          }
        }
        i := i + 1;
      }
      err := None;
    }

    /** Start: a disabled scheduler is left alone; otherwise the jobs are
        initialized and the scheduler starts only if all were added. */
    method Start() returns (err: Option<Error>)
      modifies scheduler
      ensures !config.enabled ==> err == None && scheduler.jobs == old(scheduler.jobs) &&
                                  scheduler.started == old(scheduler.started)
      ensures config.enabled ==>
                var r := AddAll(registeredJobs, parseDuration, scheduler.newJob, old(scheduler.jobs), config.jobs);
                && scheduler.jobs == r.jobs
                && (r.err.Some? ==> err == Some(Wrapped("failed to initialize jobs", r.err.value)) &&
                                    scheduler.started == old(scheduler.started))
                && (r.err.None? ==> err == None && scheduler.started)
    {
      if !config.enabled {
        return None;
      }
      var initErr := InitializeJobs();
      if initErr.Some? {
        return Some(Wrapped("failed to initialize jobs", initErr.value));
      }
      scheduler.Start();
      err := None;
    }

    /** Stop: the scheduler's own stop. */
    method Stop(shutdownErr: Option<Error>) returns (err: Option<Error>)
      modifies scheduler
      ensures scheduler.jobs == old(scheduler.jobs)
      ensures shutdownErr.None? ==> err == None && !scheduler.started
      ensures shutdownErr.Some? ==> err == Some(Wrapped("failed to shutdown scheduler", shutdownErr.value)) &&
                                    scheduler.started == old(scheduler.started)
    {
      err := scheduler.Stop(shutdownErr);
    }

    /** GetJobsStatus: the scheduler's job list. */
    method GetJobsStatus() returns (infos: seq<JobInfo>)
      ensures |infos| == |scheduler.jobs|
      ensures forall i :: 0 <= i < |infos| ==> infos[i] == Info(scheduler.jobs[i])
    {
      infos := scheduler.GetJobs();
    }
  }
}

=== FILE: json.dfy ===
/** JSON documents as encoding/json sees them. The byte-level syntax is
    abstracted: a body either is not JSON at all or is one JSON document.
    Numbers are integers (floating-point values are not modelled); an object
    is the map from its keys to their values, which is how the decoder sees
    it (a repeated key keeps its last value). */
module Json {
  import opened Common
  import Decimal

  datatype Json =
    | JNull
    | JBool(b: bool)
    | JNum(n: int)
    | JStr(s: string)
    | JArr(items: seq<Json>)
    | JObj(members: map<string, Json>)

  /** A message body: bytes that are not a JSON document, or a document. */
  datatype Body = Malformed | Doc(value: Json)

  /** The member `key` of an object. */
  function Member(members: map<string, Json>, key: string): (r: Option<Json>)
  {
    if key in members then Some(members[key]) else None
  }

  /** Decoding into a Go string: an absent member or null leaves "", a JSON
      string gives its text, anything else is a type error (None). */
  function AsString(j: Option<Json>): Option<string>
  {
    match j
    case None => Some("")
    case Some(JNull) => Some("")
    case Some(JStr(s)) => Some(s)
    case Some(_) => None
  }

  /** Decoding into a Go int64: absent or null leaves 0, an integer that fits
      is taken, anything else is an error (None). */
  function AsInt64(j: Option<Json>): Option<int>
  {
    match j
    case None => Some(0)
    case Some(JNull) => Some(0)
    case Some(JNum(n)) => if Decimal.InInt64(n) then Some(n) else None
    case Some(_) => None
  }
}

=== FILE: message_consumer.dfy ===
/** The message consumer service: owns a processor registry with the
    built-in "hello" processor registered, and hands every message body to
    it. */
module MessageConsumer {
  import opened Common
  import opened Json
  import opened Errors
  import opened Envelope
  import opened Messaging

  class MessageConsumerService {
    const registry: ProcessorRegistry
    /** what the application offers processors (its Redis client, the date) */
    const env: AppEnv

    /** NewMessageConsumerService, including registerEventProcessors: the
        registry starts empty and receives the hello processor. */
    constructor (env: AppEnv)
      ensures fresh(registry) && this.env == env
      ensures registry.processors == map["hello" := Hello]
    {
      this.env := env;
      var r := new ProcessorRegistry();
      r.RegisterProcessor(Hello);
      registry := r;
    }

    /** ConsumeMessage: the registry's dispatch outcome, error unchanged. */
    function ConsumeMessage(body: Body): (d: Dispatch)
      reads this, registry
      ensures d == registry.ProcessIncomingMessage(body, env)
      ensures d.err.None? ==> Decode(body).Ok?
    {
      registry.ProcessIncomingMessage(body, env)
    }

    /** GetRegisteredProcessorTypes: the registry's types, each once. */
    method GetRegisteredProcessorTypes() returns (types: seq<string>)
      ensures forall t :: t in types <==> t in registry.processors
      ensures forall i, j :: 0 <= i < j < |types| ==> types[i] != types[j]
      ensures |types| == |registry.processors|
    {
      types := registry.GetRegisteredTypes();
    }

    /** Shutdown: nothing to release; always nil. */
    method Shutdown() returns (err: Option<Error>)
      ensures err == None
    {
      err := None;
    }
  }
}

=== FILE: message_processor.dfy ===
/** The message dispatch registry: a map from message type to processor.
    Dispatch decodes the envelope, looks the processor up by the envelope's
    message type and delegates to it; a message of an unknown type is
    accepted without being processed. */
module Messaging {
  import opened Common
  import opened Json
  import opened Errors
  import opened Envelope
  import HelloProcessor

  /** A message processor. Hello is the one this repository defines; Opaque
      stands for any other implementation, given by the type it supports and
      what it returns for an envelope. */
  datatype Processor =
    | Hello
    | Opaque(messageType: string, handle: MessageEnvelope -> Option<Error>)

  /** GetSupportedMessageType */
  function SupportedType(p: Processor): string
  {
    match p
    case Hello => HelloProcessor.SupportedMessageType()
    case Opaque(t, _) => t
  }

  /** What the application provides to processors: its Redis client and the
      current day (YYYYMMDD). */
  datatype AppEnv = AppEnv(redis: HelloProcessor.Redis, day: string)

  /** ProcessMessage of any processor: its error and the Redis commands it issued. */
  function Handle(p: Processor, e: MessageEnvelope, env: AppEnv): (Option<Error>, seq<HelloProcessor.StoreOp>)
  {
    match p
    case Hello => HelloProcessor.ProcessMessage(e, env.redis, env.day)
    case Opaque(_, handle) => (handle(e), [])
  }

  /** The outcome of dispatching one body: the error returned, the envelopes
      handed to a processor (in call order) and the Redis commands issued. */
  datatype Dispatch = Dispatch(err: Option<Error>, invoked: seq<MessageEnvelope>, store: seq<HelloProcessor.StoreOp>)

  const EnvelopeErrorContext := "failed to unmarshal message envelope"

  class ProcessorRegistry {
    var processors: map<string, Processor>

    /** NewProcessorRegistry */
    constructor ()
      ensures processors == map[]
    {
      processors := map[];
    }

    /** RegisterProcessor: stores the processor under its own message type,
        replacing an earlier one of that type. */
    method RegisterProcessor(p: Processor)
      modifies this
      ensures processors == old(processors)[SupportedType(p) := p]
      ensures SupportedType(p) in processors && processors[SupportedType(p)] == p
      ensures forall t :: t != SupportedType(p) ==>
                (t in processors <==> t in old(processors)) &&
                (t in processors ==> processors[t] == old(processors)[t])
    {
      processors := processors[SupportedType(p) := p];
    }

    /** ProcessIncomingMessage */
    function ProcessIncomingMessage(body: Body, env: AppEnv): (d: Dispatch)
      reads this
      ensures Decode(body).Fail? ==>
                d == Dispatch(Some(Wrapped(EnvelopeErrorContext, Decode(body).error)), [], [])
      ensures Decode(body).Ok? && Decode(body).value.messageType !in processors ==>
                d == Dispatch(None, [], [])
      ensures Decode(body).Ok? && Decode(body).value.messageType in processors ==>
                var e := Decode(body).value;
                var outcome := Handle(processors[e.messageType], e, env);
                d == Dispatch(outcome.0, [e], outcome.1)
    {
      match Decode(body)
      case Fail(err) => Dispatch(Some(Wrapped(EnvelopeErrorContext, err)), [], [])
      case Ok(e) =>
        if e.messageType !in processors then Dispatch(None, [], [])
        else
          var outcome := Handle(processors[e.messageType], e, env);
          Dispatch(outcome.0, [e], outcome.1)
    }

    /** GetRegisteredTypes: every registered type exactly once, in the
        unspecified order of map iteration. */
    method GetRegisteredTypes() returns (types: seq<string>)
      ensures forall t :: t in types <==> t in processors
      ensures forall i, j :: 0 <= i < j < |types| ==> types[i] != types[j]
      ensures |types| == |processors|
    {
      types := [];
      var remaining := processors.Keys;
      while remaining != {}
        invariant remaining <= processors.Keys
        invariant forall t :: t in types <==> t in processors.Keys - remaining
        invariant forall i, j :: 0 <= i < j < |types| ==> types[i] != types[j]
        invariant |types| + |remaining| == |processors.Keys|
        decreases |remaining|
      {
        var t :| t in remaining;
        assert t !in types;
        types := types + [t];
        remaining := remaining - {t};
      }
      assert |processors.Keys| == |processors|;
    }
  }
}

=== FILE: rabbitmq.dfy ===
/** The RabbitMQ boundary (AMQP 0-9-1). The connection is an object that
    records every request sent to the broker, in order, and receives the
    broker's answer to each from `reply`, a function of the request's
    position in the log and the request itself. Producer and Consumer issue
    their requests through it, so what they do to the broker is a trace. */
module RabbitMQ {
  import opened Common
  import opened Errors
  import opened Json

  /** delivery mode 2: the message is persisted by the broker */
  const Persistent := 2

  /** The amqp.Publishing properties this code sets (the wall-clock
      timestamp is not modelled). */
  datatype Publishing = Publishing(contentType: string, body: Body, deliveryMode: int, messageId: string)

  /** A request sent to the broker on a channel. */
  datatype ChannelOp =
    | OpenChannel
    | CloseChannel
    | Qos(prefetchCount: int, prefetchSize: int, global: bool)
    | BasicPublish(exchange: string, routingKey: string, mandatory: bool, immediate: bool, msg: Publishing)
    | BasicConsume(queue: string, consumer: string, autoAck: bool, exclusive: bool, noLocal: bool, noWait: bool)
    | Ack(deliveryTag: nat, multiple: bool)
    | Nack(deliveryTag: nat, multiple: bool, requeue: bool)
    | ExchangeDeclare(name: string, kind: string, durable: bool, autoDelete: bool, internal: bool, noWait: bool)
    | QueueDeclare(name: string, durable: bool, autoDelete: bool, exclusive: bool, noWait: bool)
    | QueueBind(queue: string, routingKey: string, exchange: string, noWait: bool)

  /** A message the broker delivers to a consumer. */
  datatype Delivery = Delivery(deliveryTag: nat, body: Body)

  datatype ExchangeConfig = ExchangeConfig(name: string, kind: string, durable: bool, autoDelete: bool)
  datatype QueueConfig = QueueConfig(name: string, durable: bool, autoDelete: bool, exclusive: bool,
                                     exchange: string, routingKeys: seq<string>)
  datatype Config = Config(url: string, exchanges: seq<ExchangeConfig>, queues: seq<QueueConfig>)

  class Connection {
    /** every request sent so far, oldest first */
    var log: seq<ChannelOp>
    /** the broker's answer to the request at a given position of the log */
    const reply: (nat, ChannelOp) -> Option<Error>

    constructor (reply: (nat, ChannelOp) -> Option<Error>)
      ensures log == [] && this.reply == reply
    {
      log := [];
      this.reply := reply;
    }

    /** Sends one request and returns the broker's answer. */
    method Call(op: ChannelOp) returns (err: Option<Error>)
      modifies this
      ensures log == old(log) + [op]
      ensures err == reply(|old(log)|, op)
    {
      err := reply(|log|, op);
      log := log + [op];
    }
  }

  class Producer {
    const conn: Connection

    /** NewProducer */
    constructor (conn: Connection)
      ensures this.conn == conn
    {
      this.conn := conn;
    }

    /** Publish: opens a channel of its own for the call, publishes
        (mandatory and immediate off) and closes the channel again whatever
        the publish returned; the publish error is the result. */
    method Publish(exchange: string, routingKey: string, msg: Publishing) returns (err: Option<Error>)
      modifies conn
      ensures var n := |old(conn.log)|;
              && |conn.log| > n && conn.log[n] == OpenChannel
              && (conn.reply(n, OpenChannel).Some? ==>
                    conn.log == old(conn.log) + [OpenChannel] &&
                    err == Some(Wrapped("failed to open a channel", conn.reply(n, OpenChannel).value)))
              && (conn.reply(n, OpenChannel).None? ==>
                    conn.log == old(conn.log) + [OpenChannel, BasicPublish(exchange, routingKey, false, false, msg), CloseChannel] &&
                    err == conn.reply(n + 1, BasicPublish(exchange, routingKey, false, false, msg)))
    {
      var openErr := conn.Call(OpenChannel);
      if openErr.Some? {
        return Some(Wrapped("failed to open a channel", openErr.value));
      }
      err := conn.Call(BasicPublish(exchange, routingKey, false, false, msg));
      var _ := conn.Call(CloseChannel);
    }
  }

  /** The acknowledgement rule: a delivery whose handler returned nil is
      acked on its own; otherwise it is nacked on its own and requeued. */
  function Settle(d: Delivery, handled: Option<Error>): (op: ChannelOp)
    ensures op.Ack? <==> handled.None?
    ensures op.Ack? || op.Nack?
    ensures op.Ack? ==> op == Ack(d.deliveryTag, false)
    ensures op.Nack? ==> op == Nack(d.deliveryTag, false, true)
  {
    if handled.None? then Ack(d.deliveryTag, false) else Nack(d.deliveryTag, false, true)
  }

  /** The settlements of a run of deliveries, in arrival order. */
  function Settlements(ds: seq<Delivery>, handler: Body -> Option<Error>): seq<ChannelOp>
  {
    if ds == [] then [] else Settlements(ds[..|ds| - 1], handler) + [Settle(ds[|ds| - 1], handler(ds[|ds| - 1].body))]
  }

  /** Every delivery is settled exactly once, in arrival order, with its own
      tag: acked exactly when its handler succeeded, otherwise nacked with
      requeue. */
  lemma {:induction false} SettlementsInOrder(ds: seq<Delivery>, handler: Body -> Option<Error>)
    ensures |Settlements(ds, handler)| == |ds|
    ensures forall i :: 0 <= i < |ds| ==>
              Settlements(ds, handler)[i] == Settle(ds[i], handler(ds[i].body))
  {
    if ds != [] {
      SettlementsInOrder(ds[..|ds| - 1], handler);
      assert forall i :: 0 <= i < |ds| - 1 ==> ds[..|ds| - 1][i] == ds[i];
    }
  }

  /** What a failing setup request is reported as. */
  function FailureContext(op: ChannelOp): string
  {
    match op
    case ExchangeDeclare(name, _, _, _, _, _) => "failed to declare exchange " + name
    case QueueDeclare(name, _, _, _, _) => "failed to declare queue " + name
    case QueueBind(q, key, x, _) => "failed to bind queue " + q + " to exchange " + x + " with routing key " + key
    case _ => ""
  }

  function DeclareExchangeOp(x: ExchangeConfig): ChannelOp
  {
    ExchangeDeclare(x.name, x.kind, x.durable, x.autoDelete, false, false)
  }

  function DeclareQueueOp(q: QueueConfig): ChannelOp
  {
    QueueDeclare(q.name, q.durable, q.autoDelete, q.exclusive, false)
  }

  function BindOp(q: QueueConfig, key: string): ChannelOp
  {
    QueueBind(q.name, key, q.exchange, false)
  }

  /** The declarations of the configured exchanges, in configuration order. */
  function ExchangeSteps(xs: seq<ExchangeConfig>): seq<ChannelOp>
  {
    if xs == [] then [] else [DeclareExchangeOp(xs[0])] + ExchangeSteps(xs[1..])
  }

  /** The bindings of one queue, one per routing key, in order. */
  function BindSteps(q: QueueConfig, keys: seq<string>): seq<ChannelOp>
  {
    if keys == [] then [] else [BindOp(q, keys[0])] + BindSteps(q, keys[1..])
  }

  /** One queue: its declaration followed by its bindings. */
  function QueueSteps(q: QueueConfig): seq<ChannelOp>
  {
    [DeclareQueueOp(q)] + BindSteps(q, q.routingKeys)
  }

  function QueuesSteps(qs: seq<QueueConfig>): seq<ChannelOp>
  {
    if qs == [] then [] else QueueSteps(qs[0]) + QueuesSteps(qs[1..])
  }

  /** The whole declare/bind sequence SetupInfrastructureFromConfig runs
      when nothing fails. */
  function Plan(cfg: Config): seq<ChannelOp>
  {
    ExchangeSteps(cfg.exchanges) + QueuesSteps(cfg.queues)
  }

  lemma {:induction false} ExchangeStepsAt(xs: seq<ExchangeConfig>)
    ensures |ExchangeSteps(xs)| == |xs|
    ensures forall i :: 0 <= i < |xs| ==> ExchangeSteps(xs)[i] == DeclareExchangeOp(xs[i])
  {
    if xs != [] {
      ExchangeStepsAt(xs[1..]);
    }
  }

  lemma {:induction false} BindStepsAt(q: QueueConfig, keys: seq<string>)
    ensures |BindSteps(q, keys)| == |keys|
    ensures forall i :: 0 <= i < |keys| ==> BindSteps(q, keys)[i] == BindOp(q, keys[i])
  {
    if keys != [] {
      BindStepsAt(q, keys[1..]);
    }
  }

  lemma {:induction false} QueuesStepsDeclareNoExchange(qs: seq<QueueConfig>)
    ensures forall j :: 0 <= j < |QueuesSteps(qs)| ==> !QueuesSteps(qs)[j].ExchangeDeclare?
  {
    if qs != [] {
      QueuesStepsDeclareNoExchange(qs[1..]);
      BindStepsAt(qs[0], qs[0].routingKeys);
    }
  }

  /** Every exchange is declared, in configuration order, before any queue
      is declared or bound. */
  lemma ExchangesFirst(cfg: Config)
    ensures |cfg.exchanges| <= |Plan(cfg)|
    ensures forall i :: 0 <= i < |cfg.exchanges| ==> Plan(cfg)[i] == DeclareExchangeOp(cfg.exchanges[i])
    ensures forall j :: |cfg.exchanges| <= j < |Plan(cfg)| ==> !Plan(cfg)[j].ExchangeDeclare?
  {
    ExchangeStepsAt(cfg.exchanges);
    QueuesStepsDeclareNoExchange(cfg.queues);
  }

  /** Request `i` of `steps` declares queue `qs[k]`, and request `j`, a
      later one, binds that queue with one of its routing keys to its
      exchange. */
  predicate DeclaredBefore(steps: seq<ChannelOp>, qs: seq<QueueConfig>, j: nat, i: nat, k: nat)
    requires j < |steps|
  {
    && i < j && k < |qs| && steps[j].QueueBind?
    && steps[i] == DeclareQueueOp(qs[k])
    && steps[j].queue == qs[k].name
    && steps[j].exchange == qs[k].exchange
    && steps[j].routingKey in qs[k].routingKeys
  }

  /** Every binding in the sequence comes after the declaration of its
      queue, and binds it to the queue's configured exchange with one of its
      routing keys. */
  lemma {:induction false} BindAfterDeclare(qs: seq<QueueConfig>, j: nat)
    requires j < |QueuesSteps(qs)| && QueuesSteps(qs)[j].QueueBind?
    ensures exists i: nat, k: nat :: DeclaredBefore(QueuesSteps(qs), qs, j, i, k)
  {
    var q := qs[0];
    var head := QueueSteps(q);
    var steps := QueuesSteps(qs);
    BindStepsAt(q, q.routingKeys);
    if j < |head| {
      assert j != 0;
      assert steps[j] == BindOp(q, q.routingKeys[j - 1]);
      assert DeclaredBefore(steps, qs, j, 0, 0);
    } else {
      var tail := qs[1..];
      var tailSteps := QueuesSteps(tail);
      assert steps == head + tailSteps;
      BindAfterDeclare(tail, j - |head|);
      var i: nat, k: nat :| DeclaredBefore(tailSteps, tail, j - |head|, i, k);
      assert DeclaredBefore(steps, qs, j, |head| + i, k + 1);
    }
  }

  /** What running a sequence of setup requests leaves: the connection's
      log afterwards and the error returned. */
  datatype Ran = Ran(log: seq<ChannelOp>, err: Option<Error>)

  /** The setup loop as a reference definition: starting from the log
      `log`, send the requests of `plan` in order until one is answered with
      an error; that error is returned wrapped in the name of the failing
      request, and nothing after it is sent. */
  function Run(log: seq<ChannelOp>, reply: (nat, ChannelOp) -> Option<Error>, plan: seq<ChannelOp>): Ran
    decreases |plan|
  {
    if plan == [] then Ran(log, None)
    else
      var answer := reply(|log|, plan[0]);
      if answer.Some? then Ran(log + [plan[0]], Some(Wrapped(FailureContext(plan[0]), answer.value)))
      else Run(log + [plan[0]], reply, plan[1..])
  }

  /** A run only appends to the log, and what it appends is a prefix of
      the plan. */
  lemma {:induction false} RunExtends(log: seq<ChannelOp>, reply: (nat, ChannelOp) -> Option<Error>, plan: seq<ChannelOp>)
    ensures var r := Run(log, reply, plan);
            |log| <= |r.log| <= |log| + |plan| && r.log == log + plan[..|r.log| - |log|]
    decreases |plan|
  {
    if plan != [] && reply(|log|, plan[0]).None? {
      RunExtends(log + [plan[0]], reply, plan[1..]);
      var r := Run(log, reply, plan);
      assert plan[..|r.log| - |log|] == [plan[0]] + plan[1..][..|r.log| - |log| - 1];
    }
  }

  /** Running two sequences one after the other is running their
      concatenation. */
  lemma {:induction false} RunAppend(log: seq<ChannelOp>, reply: (nat, ChannelOp) -> Option<Error>, first: seq<ChannelOp>, second: seq<ChannelOp>)
    ensures Run(log, reply, first + second) ==
            if Run(log, reply, first).err.Some? then Run(log, reply, first)
            else Run(Run(log, reply, first).log, reply, second)
    decreases |first|
  {
    if first == [] {
      assert first + second == second;
    } else {
      assert (first + second)[0] == first[0];
      assert (first + second)[1..] == first[1..] + second;
      RunAppend(log + [first[0]], reply, first[1..], second);
    }
  }

  /** Every request sent before the last one was answered without error. */
  lemma {:induction false} RunEarlierSucceeded(log: seq<ChannelOp>, reply: (nat, ChannelOp) -> Option<Error>, plan: seq<ChannelOp>, i: nat)
    requires |log| <= i && i + 1 < |Run(log, reply, plan).log|
    ensures reply(i, Run(log, reply, plan).log[i]).None?
    decreases |plan|
  {
    RunExtends(log, reply, plan);
    if plan != [] && reply(|log|, plan[0]).None? {
      RunExtends(log + [plan[0]], reply, plan[1..]);
      if i > |log| {
        RunEarlierSucceeded(log + [plan[0]], reply, plan[1..], i);
      }
    }
  }

  /** A run that fails stops on a request the broker refused: the last
      request sent, whose name and answer make up the error. */
  lemma {:induction false} RunFailure(log: seq<ChannelOp>, reply: (nat, ChannelOp) -> Option<Error>, plan: seq<ChannelOp>)
    requires Run(log, reply, plan).err.Some?
    ensures var r := Run(log, reply, plan);
            var last := |r.log| - 1;
            && |log| <= last
            && reply(last, r.log[last]).Some?
            && r.err == Some(Wrapped(FailureContext(r.log[last]), reply(last, r.log[last]).value))
    decreases |plan|
  {
    if reply(|log|, plan[0]).None? {
      RunFailure(log + [plan[0]], reply, plan[1..]);
    }
  }

  /** A run that succeeds sent the whole plan, and the broker accepted
      every request. */
  lemma {:induction false} RunSuccess(log: seq<ChannelOp>, reply: (nat, ChannelOp) -> Option<Error>, plan: seq<ChannelOp>)
    requires Run(log, reply, plan).err.None?
    ensures Run(log, reply, plan).log == log + plan
    ensures forall i :: 0 <= i < |plan| ==> reply(|log| + i, plan[i]).None?
    decreases |plan|
  {
    if plan != [] {
      RunSuccess(log + [plan[0]], reply, plan[1..]);
      assert log + [plan[0]] + plan[1..] == log + plan;
      assert forall i :: 1 <= i < |plan| ==> plan[i] == plan[1..][i - 1];
    }
  }

  class Consumer {
    const conn: Connection
    /** whether a channel is held */
    const channel: bool

    /** a Consumer value; NewConsumer is the way to get one holding a channel */
    constructor (conn: Connection, channel: bool)
      ensures this.conn == conn && this.channel == channel
    {
      this.conn := conn;
      this.channel := channel;
    }

    /** Consume: registers a manually acknowledged consumer on the queue,
        then settles each delivery in arrival order according to the
        handler's result. The answers to the acks and nacks are ignored. */
    method Consume(queue: string, consumerName: string, handler: Body -> Option<Error>, deliveries: seq<Delivery>)
      returns (err: Option<Error>)
      modifies conn
      ensures var n := |old(conn.log)|;
              var register := BasicConsume(queue, consumerName, false, false, false, false);
              && (conn.reply(n, register).Some? ==>
                    conn.log == old(conn.log) + [register] &&
                    err == Some(Wrapped("failed to register a consumer", conn.reply(n, register).value)))
              && (conn.reply(n, register).None? ==>
                    conn.log == old(conn.log) + [register] + Settlements(deliveries, handler) && err == None)
    {
      var registerErr := conn.Call(BasicConsume(queue, consumerName, false, false, false, false));
      if registerErr.Some? {
        return Some(Wrapped("failed to register a consumer", registerErr.value));
      }
      ghost var start := conn.log;
      var i := 0;
      while i < |deliveries|
        invariant 0 <= i <= |deliveries|
        invariant conn.log == start + Settlements(deliveries[..i], handler)
      {
        var d := deliveries[i];
        var outcome := handler(d.body);
        if outcome.Some? {
          var _ := conn.Call(Nack(d.deliveryTag, false, true));
        } else {
          var _ := conn.Call(Ack(d.deliveryTag, false));
        }
        assert deliveries[..i + 1][..i] == deliveries[..i];
        i := i + 1;
      }
      assert deliveries[..i] == deliveries;
      err := None;
    }

    /** Close: closes the channel when one is held, and is nil otherwise. */
    method Close() returns (err: Option<Error>)
      modifies conn
      ensures !channel ==> err == None && conn.log == old(conn.log)
      ensures channel ==> conn.log == old(conn.log) + [CloseChannel] &&
                          err == conn.reply(|old(conn.log)|, CloseChannel)
    {
      if channel {
        err := conn.Call(CloseChannel);
      } else {
        err := None;
      }
    }

    /** DeclareExchange (not internal, waiting for the broker's answer) */
    method DeclareExchange(name: string, kind: string, durable: bool, autoDelete: bool) returns (err: Option<Error>)
      modifies conn
      ensures conn.log == old(conn.log) + [ExchangeDeclare(name, kind, durable, autoDelete, false, false)]
      ensures err == conn.reply(|old(conn.log)|, ExchangeDeclare(name, kind, durable, autoDelete, false, false))
    {
      err := conn.Call(ExchangeDeclare(name, kind, durable, autoDelete, false, false));
    }

    /** DeclareQueue (waiting for the broker's answer) */
    method DeclareQueue(name: string, durable: bool, autoDelete: bool, exclusive: bool) returns (err: Option<Error>)
      modifies conn
      ensures conn.log == old(conn.log) + [QueueDeclare(name, durable, autoDelete, exclusive, false)]
      ensures err == conn.reply(|old(conn.log)|, QueueDeclare(name, durable, autoDelete, exclusive, false))
    {
      err := conn.Call(QueueDeclare(name, durable, autoDelete, exclusive, false));
    }

    /** BindQueue (waiting for the broker's answer) */
    method BindQueue(queueName: string, routingKey: string, exchangeName: string) returns (err: Option<Error>)
      modifies conn
      ensures conn.log == old(conn.log) + [QueueBind(queueName, routingKey, exchangeName, false)]
      ensures err == conn.reply(|old(conn.log)|, QueueBind(queueName, routingKey, exchangeName, false))
    {
      err := conn.Call(QueueBind(queueName, routingKey, exchangeName, false));
    }

    /** One queue of the setup: its declaration, then its bindings,
        stopping at the first failure. */
    method SetupQueue(q: QueueConfig) returns (err: Option<Error>)
      modifies conn
      ensures conn.log == Run(old(conn.log), conn.reply, QueueSteps(q)).log
      ensures err == Run(old(conn.log), conn.reply, QueueSteps(q)).err
    {
      var e := DeclareQueue(q.name, q.durable, q.autoDelete, q.exclusive);
      assert QueueSteps(q)[0] == DeclareQueueOp(q) && QueueSteps(q)[1..] == BindSteps(q, q.routingKeys);
      if e.Some? {
        return Some(Wrapped("failed to declare queue " + q.name, e.value));
      }
      err := BindRoutingKeys(q);
    }

    /** The bindings of one queue, one per routing key to the queue's
        exchange, stopping at the first failure. */
    method BindRoutingKeys(q: QueueConfig) returns (err: Option<Error>)
      modifies conn
      ensures conn.log == Run(old(conn.log), conn.reply, BindSteps(q, q.routingKeys)).log
      ensures err == Run(old(conn.log), conn.reply, BindSteps(q, q.routingKeys)).err
    {
      ghost var goal := Run(conn.log, conn.reply, BindSteps(q, q.routingKeys));
      var k := 0;
      while k < |q.routingKeys|
        invariant 0 <= k <= |q.routingKeys|
        invariant goal == Run(conn.log, conn.reply, BindSteps(q, q.routingKeys[k..]))
      {
        var key := q.routingKeys[k];
        assert q.routingKeys[k..][1..] == q.routingKeys[k + 1..];
        var b := BindQueue(q.name, key, q.exchange);
        if b.Some? {
          return Some(Wrapped("failed to bind queue " + q.name + " to exchange " + q.exchange +
                              " with routing key " + key, b.value));
        }
        k := k + 1;
      }
      err := None;
    }

    /** SetupInfrastructureFromConfig: runs the declare/bind sequence of Plan
        in order, as Run describes: the first failing request ends the setup
        with an error naming it, and nothing after it is sent. */
    method SetupInfrastructureFromConfig(cfg: Config) returns (err: Option<Error>)
      modifies conn
      ensures conn.log == Run(old(conn.log), conn.reply, Plan(cfg)).log
      ensures err == Run(old(conn.log), conn.reply, Plan(cfg)).err
    {
      ghost var goal := Run(conn.log, conn.reply, Plan(cfg));
      ghost var exchanges := Run(conn.log, conn.reply, ExchangeSteps(cfg.exchanges));
      RunAppend(conn.log, conn.reply, ExchangeSteps(cfg.exchanges), QueuesSteps(cfg.queues));
      var i := 0;
      while i < |cfg.exchanges|
        invariant 0 <= i <= |cfg.exchanges|
        invariant exchanges == Run(conn.log, conn.reply, ExchangeSteps(cfg.exchanges[i..]))
      {
        var x := cfg.exchanges[i];
        assert cfg.exchanges[i..][1..] == cfg.exchanges[i + 1..];
        var e := DeclareExchange(x.name, x.kind, x.durable, x.autoDelete);
        if e.Some? {
          return Some(Wrapped("failed to declare exchange " + x.name, e.value));
        }
        i := i + 1;
      }
      assert cfg.queues[0..] == cfg.queues;
      var j := 0;
      while j < |cfg.queues|
        invariant 0 <= j <= |cfg.queues|
        invariant goal == Run(conn.log, conn.reply, QueuesSteps(cfg.queues[j..]))
      {
        var q := cfg.queues[j];
        assert cfg.queues[j..][1..] == cfg.queues[j + 1..];
        RunAppend(conn.log, conn.reply, QueueSteps(q), QueuesSteps(cfg.queues[j + 1..]));
        var e := SetupQueue(q);
        if e.Some? {
          return e;
        }
        j := j + 1;
      }
      err := None;
    }
  }

  /** NewConsumer: opens a channel and asks for a prefetch of one unacked
      message; if that fails, the channel is closed again and no consumer is
      returned. */
  method NewConsumer(conn: Connection) returns (c: Consumer?, err: Option<Error>)
    modifies conn
    ensures c == null <==> err.Some?
    ensures c != null ==> fresh(c) && c.conn == conn && c.channel
    ensures var n := |old(conn.log)|;
            && (conn.reply(n, OpenChannel).Some? ==>
                  conn.log == old(conn.log) + [OpenChannel] &&
                  err == Some(Wrapped("failed to open a channel", conn.reply(n, OpenChannel).value)))
            && (conn.reply(n, OpenChannel).None? && conn.reply(n + 1, Qos(1, 0, false)).Some? ==>
                  conn.log == old(conn.log) + [OpenChannel, Qos(1, 0, false), CloseChannel] &&
                  err == Some(Wrapped("failed to set QoS", conn.reply(n + 1, Qos(1, 0, false)).value)))
            && (conn.reply(n, OpenChannel).None? && conn.reply(n + 1, Qos(1, 0, false)).None? ==>
                  conn.log == old(conn.log) + [OpenChannel, Qos(1, 0, false)] && err == None)
  {
    var openErr := conn.Call(OpenChannel);
    if openErr.Some? {
      return null, Some(Wrapped("failed to open a channel", openErr.value));
    }
    var qosErr := conn.Call(Qos(1, 0, false));
    if qosErr.Some? {
      var _ := conn.Call(CloseChannel);
      return null, Some(Wrapped("failed to set QoS", qosErr.value));
    }
    c := new Consumer(conn, true);
    err := None;
  }
}

=== FILE: scheduler.dfy ===
/** The scheduler service: a wrapper around the gocron scheduler that keeps
    the jobs it added, in order, and reports them. gocron itself is
    abstracted: `newJob` is its answer when asked to create a job, and the
    times it computes (next and last run) are opaque values. */
module Scheduler {
  import opened Common
  import opened Errors
  import opened Values

  /** How a job is scheduled, as given to gocron. */
  datatype JobDefinition =
    | DurationJob(interval: int)
    | CronJob(expression: string, withSeconds: bool)
    | DailyJob(everyDays: nat, hour: nat, minute: nat, second: nat)

  /** What gocron reports about a job it created: its ID, its next run and
      its last run (None when gocron reports an error for it). */
  datatype GocronJob = GocronJob(id: string, nextRun: int, lastRun: Option<int>)

  /** A job held by the service. */
  datatype Job = Job(id: string, name: string, tags: seq<string>, definition: JobDefinition,
                     nextRun: int, lastRun: Option<int>)

  /** The status line of one job. */
  datatype JobInfo = JobInfo(id: string, nextRun: int, lastRun: Option<int>, tags: seq<string>)

  /** The job gocron created for a definition with a name and tags. */
  function CreatedJob(g: GocronJob, definition: JobDefinition, name: string, tags: seq<string>): (j: Job)
    ensures j.id == g.id && j.name == name && j.tags == tags && j.definition == definition
  {
    Job(g.id, name, tags, definition, g.nextRun, g.lastRun)
  }

  /** The JobInfo of a job: ID, next run and tags copied; a last run only
      when the job has one. */
  function Info(j: Job): (info: JobInfo)
    ensures info.id == j.id && info.tags == j.tags && info.nextRun == j.nextRun
    ensures info.lastRun.None? <==> j.lastRun.None?
    ensures info.lastRun.Some? ==> info.lastRun.value == j.lastRun.value
  {
    JobInfo(j.id, j.nextRun, if j.lastRun.Some? then Some(j.lastRun.value) else None, j.tags)
  }

  class SchedulerService {
    /** the jobs added so far, in the order they were added */
    var jobs: seq<Job>
    var started: bool
    /** gocron's answer when asked for its job number `n` with a definition,
        name and tags */
    const newJob: (nat, JobDefinition, string, seq<string>) -> Result<GocronJob>

    /** NewSchedulerService (creating the gocron scheduler is not modelled
        to fail) */
    constructor (newJob: (nat, JobDefinition, string, seq<string>) -> Result<GocronJob>)
      ensures jobs == [] && !started && this.newJob == newJob
    {
      jobs := [];
      started := false;
      this.newJob := newJob;
    }

    /** AddJob: asks gocron for the job; on success appends exactly that
        job, otherwise leaves the list alone and returns the wrapped error. */
    method AddJob(definition: JobDefinition, name: string, tags: seq<string>) returns (err: Option<Error>)
      modifies this
      ensures started == old(started)
      ensures var answer := newJob(|old(jobs)|, definition, name, tags);
              && (answer.Fail? ==> jobs == old(jobs) && err == Some(Wrapped("failed to create job", answer.error)))
              && (answer.Ok? ==> jobs == old(jobs) + [CreatedJob(answer.value, definition, name, tags)] && err == None)
    {
      var answer := newJob(|jobs|, definition, name, tags);
      if answer.Fail? {
        return Some(Wrapped("failed to create job", answer.error));
      }
      jobs := jobs + [CreatedJob(answer.value, definition, name, tags)];
      err := None;
    }

    method Start()
      modifies this
      ensures started && jobs == old(jobs)
    {
      started := true;
    }

    /** Stop: gocron's shutdown result decides; a failure is wrapped and
        leaves the scheduler as it was. */
    method Stop(shutdownErr: Option<Error>) returns (err: Option<Error>)
      modifies this
      ensures jobs == old(jobs)
      ensures shutdownErr.None? ==> err == None && !started
      ensures shutdownErr.Some? ==> err == Some(Wrapped("failed to shutdown scheduler", shutdownErr.value)) &&
                                    started == old(started)
    {
      if shutdownErr.Some? {
        return Some(Wrapped("failed to shutdown scheduler", shutdownErr.value));
      }
      started := false;
      err := None;
    }

    /** GetJobs: one JobInfo per job, in the order the jobs were added. */
    method GetJobs() returns (infos: seq<JobInfo>)
      ensures |infos| == |jobs|
      ensures forall i :: 0 <= i < |jobs| ==> infos[i] == Info(jobs[i])
    {
      var a := new JobInfo[|jobs|];
      var i := 0;
      while i < |jobs|
        invariant 0 <= i <= |jobs| == a.Length
        invariant forall k :: 0 <= k < i ==> a[k] == Info(jobs[k])
      {
        var job := jobs[i];
        var info := JobInfo(job.id, job.nextRun, None, job.tags);
        if job.lastRun.Some? {
          info := info.(lastRun := Some(job.lastRun.value));
        }
        a[i] := info;
        i := i + 1;
      }
      infos := a[..];
    }
  }

  /** zapFields: pairs up the logger's alternating keys and values; the key
      is rendered with %v and an unpaired last element is dropped. */
  method ZapFields(keysAndValues: seq<Value>) returns (fields: seq<(string, Value)>)
    ensures |fields| == |keysAndValues| / 2
    ensures forall j :: 0 <= j < |fields| ==>
              fields[j] == (Format(keysAndValues[2 * j]), keysAndValues[2 * j + 1])
  {
    fields := [];
    var i := 0;
    while i < |keysAndValues|
      invariant 0 <= i && i % 2 == 0
      invariant i <= |keysAndValues| + 1
      invariant |fields| == (if i <= |keysAndValues| then i / 2 else |keysAndValues| / 2)
      invariant forall j :: 0 <= j < |fields| ==>
                  fields[j] == (Format(keysAndValues[2 * j]), keysAndValues[2 * j + 1])
    {
      if i + 1 < |keysAndValues| {
        var key := Format(keysAndValues[i]);
        var value := keysAndValues[i + 1];
        fields := fields + [(key, value)];
      }
      i := i + 2;
    }
  }
}

=== FILE: service.dfy ===
/** The service manager of pkg/service: services started in the order they
    were added, stopped in the reverse order, and checked in order. What a
    service answers is part of its value; the calls made on services are
    recorded in the manager's trace. */
module Services {
  import opened Common
  import opened Errors

  /** A service: its name and what its Start, Stop and Health answer. */
  datatype Service = Service(name: string, start: Option<Error>, stop: Option<Error>, health: Option<Error>)

  /** A call made on the service at an index of the manager's list. */
  datatype ServiceCall = StartCall(index: nat) | StopCall(index: nat) | HealthCall(index: nat)

  /** BaseService: Start, Stop and Health always succeed. */
  function BaseService(name: string): (s: Service)
    ensures s.name == name && s.start == None && s.stop == None && s.health == None
  {
    Service(name, None, None, None)
  }

  /** Start calls on indices 0 .. n-1, in that order. */
  function Starts(n: nat): (calls: seq<ServiceCall>)
    ensures |calls| == n && forall k :: 0 <= k < n ==> calls[k] == StartCall(k)
  {
    if n == 0 then [] else Starts(n - 1) + [StartCall(n - 1)]
  }

  /** Health calls on indices 0 .. n-1, in that order. */
  function Checks(n: nat): (calls: seq<ServiceCall>)
    ensures |calls| == n && forall k :: 0 <= k < n ==> calls[k] == HealthCall(k)
  {
    if n == 0 then [] else Checks(n - 1) + [HealthCall(n - 1)]
  }

  /** Stop calls on indices n-1 down to i. */
  function StopsDown(n: nat, i: nat): (calls: seq<ServiceCall>)
    requires i <= n
    ensures |calls| == n - i && forall k :: 0 <= k < n - i ==> calls[k] == StopCall(n - 1 - k)
    decreases n - i
  {
    if i == n then [] else [StopCall(n - 1)] + StopsDown(n - 1, i)
  }

  /** The index of the first service whose Start fails, or the count. */
  function FirstStartFailure(services: seq<Service>): (k: nat)
    ensures k <= |services|
    ensures forall j :: 0 <= j < k ==> services[j].start.None?
    ensures k < |services| ==> services[k].start.Some?
  {
    if services == [] then 0
    else if services[0].start.Some? then 0
    else 1 + FirstStartFailure(services[1..])
  }

  /** The index of the first service whose Health fails, or the count. */
  function FirstHealthFailure(services: seq<Service>): (k: nat)
    ensures k <= |services|
    ensures forall j :: 0 <= j < k ==> services[j].health.None?
    ensures k < |services| ==> services[k].health.Some?
  {
    if services == [] then 0
    else if services[0].health.Some? then 0
    else 1 + FirstHealthFailure(services[1..])
  }

  class ServiceManager {
    var services: seq<Service>
    /** the calls made on services so far */
    var log: seq<ServiceCall>

    /** NewServiceManager */
    constructor ()
      ensures services == [] && log == []
    {
      services := [];
      log := [];
    }

    /** AddService: appended at the end. */
    method AddService(service: Service)
      modifies this
      ensures services == old(services) + [service] && log == old(log)
    {
      services := services + [service];
    }

    /** StartAll: in insertion order up to and including the first failure. */
    method StartAll() returns (err: Option<Error>)
      modifies this
      ensures services == old(services)
      ensures var k := FirstStartFailure(services);
              && (k == |services| ==> log == old(log) + Starts(k) && err == None)
              && (k < |services| ==>
                    && log == old(log) + Starts(k + 1)
                    && err == Some(Wrapped("failed to start service " + services[k].name, services[k].start.value)))
    {
      var i := 0;
      while i < |services|
        invariant 0 <= i <= |services|
        invariant forall j :: 0 <= j < i ==> services[j].start.None?
        invariant log == old(log) + Starts(i)
        invariant services == old(services)
      {
        log := log + [StartCall(i)];
        if services[i].start.Some? {
          return Some(Wrapped("failed to start service " + services[i].name, services[i].start.value));
        }
        i := i + 1;
      }
      err := None;
    }

    /** StopAll: every service, last added first; failures are only logged. */
    method StopAll() returns (err: Option<Error>)
      modifies this
      ensures services == old(services)
      ensures log == old(log) + StopsDown(|services|, 0)
      ensures err == None
    {
      var i := |services|;
      while i > 0
        invariant 0 <= i <= |services|
        invariant log == old(log) + StopsDown(|services|, i)
        invariant services == old(services)
      {
        i := i - 1;
        assert StopsDown(|services|, i) == StopsDown(|services|, i + 1) + [StopCall(i)] by {
          StopsDownExtend(|services|, i);
        }
        log := log + [StopCall(i)];
      }
      err := None;
    }

    /** HealthAll: in order, stopping at the first failing service with an
        internal error that wraps its answer. */
    method HealthAll() returns (err: Option<Error>)
      modifies this
      ensures services == old(services)
      ensures var k := FirstHealthFailure(services);
              && (k == |services| ==> log == old(log) + Checks(k) && err == None)
              && (k < |services| ==>
                    && log == old(log) + Checks(k + 1)
                    && err == Some(App(Wrap(services[k].health.value, Internal,
                                            "service " + services[k].name + " health check failed"))))
    {
      var i := 0;
      while i < |services|
        invariant 0 <= i <= |services|
        invariant forall j :: 0 <= j < i ==> services[j].health.None?
        invariant log == old(log) + Checks(i)
        invariant services == old(services)
      {
        log := log + [HealthCall(i)];
        if services[i].health.Some? {
          return Some(App(Wrap(services[i].health.value, Internal,
                               "service " + services[i].name + " health check failed")));
        }
        i := i + 1;
      }
      err := None;
    }

    method GetServices() returns (all: seq<Service>)
      ensures all == services
    {
      all := services;
    }

    /** GetServiceByName: the first service with that name, or nil. */
    method GetServiceByName(name: string) returns (found: Option<Service>)
      ensures found.None? <==> forall j :: 0 <= j < |services| ==> services[j].name != name
      ensures found.Some? ==> exists k :: 0 <= k < |services| && services[k] == found.value &&
                                          found.value.name == name &&
                                          forall j :: 0 <= j < k ==> services[j].name != name
    {
      var i := 0;
      while i < |services|
        invariant 0 <= i <= |services|
        invariant forall j :: 0 <= j < i ==> services[j].name != name
      {
        if services[i].name == name {
          return Some(services[i]);
        }
        i := i + 1;
      }
      found := None;
    }
  }

  /** Stopping one more service (at index i) extends the trace at its end. */
  lemma {:induction false} StopsDownExtend(n: nat, i: nat)
    requires i < n
    ensures StopsDown(n, i) == StopsDown(n, i + 1) + [StopCall(i)]
    decreases n - i
  {
    if i + 1 < n {
      StopsDownExtend(n - 1, i);
    }
  }

  /** StopAll reaches every service exactly once, and in the reverse of
      the order StartAll uses. */
  lemma StopAllReversesStartAll(n: nat)
    ensures |StopsDown(n, 0)| == |Starts(n)|
    ensures forall k :: 0 <= k < n ==> StopsDown(n, 0)[k].index == Starts(n)[n - 1 - k].index
  {
  }
}

=== FILE: strings.dfy ===
/** The few operations of Go's `strings` package that the core relies on. */
module Strings {

  /** strings.HasPrefix */
  predicate HasPrefix(s: string, prefix: string) {
    |prefix| <= |s| && s[..|prefix|] == prefix
  }

  /** strings.Contains with a one-character needle */
  predicate ContainsChar(s: string, c: char) {
    c in s
  }

  /** strings.Index with a one-character needle: the first position of `c`,
      or -1 when `c` does not occur. */
  function IndexOf(s: string, c: char): (i: int)
    ensures -1 <= i < |s|
    ensures i == -1 <==> c !in s
    ensures 0 <= i ==> s[i] == c && c !in s[..i]
  {
    if |s| == 0 then -1
    else if s[0] == c then 0
    else
      var j := IndexOf(s[1..], c);
      if j == -1 then -1 else (assert s[..j + 1] == [s[0]] + s[1..][..j]; j + 1)
  }

  /** The text before the first `c` (all of `s` when there is none): element 0
      of strings.SplitN(s, string(c), 2). */
  function Before(s: string, c: char): (r: string)
    ensures c !in r
    ensures c !in s ==> r == s
    ensures c in s ==> |r| < |s| && s[|r|] == c && s[..|r|] == r
  {
    var i := IndexOf(s, c);
    if i == -1 then s else s[..i]
  }

  /** The text after the first `c`; all of `s` when there is none. This is
      s[strings.Index(s, c) + 1:], which starts at 0 when the index is -1. */
  function After(s: string, c: char): (r: string)
    ensures c !in s ==> r == s
    ensures c in s ==> s == Before(s, c) + [c] + r
  {
    s[IndexOf(s, c) + 1..]
  }
}

=== FILE: user_service.dfy ===
/** The user service: account rules over the user repository. The
    repository is a map from ID to the users that are not deleted, whose
    usernames and emails are unique; bcrypt is a pair of functions. */
module UserService {
  import opened Common
  import opened Errors
  import opened Decimal

  datatype User = User(id: nat, username: string, email: string, password: string, status: int,
                       createdAt: int, updatedAt: int)

  /** What the API returns for a user: never the password. */
  datatype UserResponse = UserResponse(id: nat, username: string, email: string, status: int,
                                       createdAt: int, updatedAt: int)

  datatype CreateUserRequest = CreateUserRequest(username: string, email: string, password: string)

  /** Empty strings and a missing status leave the field as it is. */
  datatype UpdateUserRequest = UpdateUserRequest(username: string, email: string, status: Option<int>)

  /** A page of responses and the total the repository reported. */
  datatype Page = Page(responses: seq<UserResponse>, total: int)

  const ActiveStatus := 1

  /** toUserResponse */
  function ToUserResponse(u: User): (r: UserResponse)
    ensures r.id == u.id && r.username == u.username && r.email == u.email && r.status == u.status
    ensures r.createdAt == u.createdAt && r.updatedAt == u.updatedAt
  {
    UserResponse(u.id, u.username, u.email, u.status, u.createdAt, u.updatedAt)
  }

  /** The password never reaches a response. */
  lemma ResponseIgnoresPassword(u: User, other: string)
    ensures ToUserResponse(u) == ToUserResponse(u.(password := other))
  {
  }

  /** The store: every user is filed under its own ID, below the next ID
      the database will assign, and no two users share a username or an
      email. */
  predicate StoreValid(users: map<nat, User>, nextId: nat) {
    && (forall k :: k in users ==> users[k].id == k && k < nextId)
    && (forall a, b :: a in users && b in users && users[a].username == users[b].username ==> a == b)
    && (forall a, b :: a in users && b in users && users[a].email == users[b].email ==> a == b)
  }

  predicate UsernameTaken(users: map<nat, User>, name: string) {
    exists k :: k in users && users[k].username == name
  }

  predicate EmailTaken(users: map<nat, User>, email: string) {
    exists k :: k in users && users[k].email == email
  }

  /** The record GetByUsername finds has a different ID. */
  predicate UsernameTakenByOther(users: map<nat, User>, name: string, id: nat) {
    exists k :: k in users && k != id && users[k].username == name
  }

  predicate EmailTakenByOther(users: map<nat, User>, email: string, id: nat) {
    exists k :: k in users && k != id && users[k].email == email
  }

  /** ListUsers' paging on Go's 64-bit `int`: a page below 1 is page 1, a
      page size outside 1..100 is 10; the result is (offset, limit), the
      offset being (page-1)*size with 64-bit wrap-around. */
  function Paging(page: int, pageSize: int): (r: (int, int))
    requires InInt64(page) && InInt64(pageSize)
    ensures InInt64(r.0) && 1 <= r.1 <= 100
    ensures page < 1 ==> r.0 == 0
    ensures 1 <= pageSize <= 100 ==> r.1 == pageSize
    ensures !(1 <= pageSize <= 100) ==> r.1 == 10
    ensures page >= 1 ==> r.0 == WrapInt64((page - 1) * r.1)
    ensures page >= 1 && (page - 1) * r.1 <= Int64Max ==> r.0 == (page - 1) * r.1 && r.0 >= 0
  {
    var p := if page < 1 then 1 else page;
    var size := if pageSize < 1 || pageSize > 100 then 10 else pageSize;
    var n := (p - 1) * size;
    assert n >= 0 by { assert p - 1 >= 0 && size > 0; }
    (WrapInt64(n), size)
  }

  /** Once (page-1)*size passes the 64-bit maximum (and stays below 2^64)
      the offset handed to the repository is that product minus 2^64, a
      negative number. */
  lemma PagingOffsetWraps(page: int, pageSize: int)
    requires InInt64(page) && InInt64(pageSize) && page >= 1
    requires Int64Max < (page - 1) * Paging(page, pageSize).1 < 0x1_0000_0000_0000_0000
    ensures Paging(page, pageSize).0 == (page - 1) * Paging(page, pageSize).1 - 0x1_0000_0000_0000_0000 < 0
  {
    var n := (page - 1) * Paging(page, pageSize).1;
    var m := n - Int64Min - 0x1_0000_0000_0000_0000;
    assert 0 <= m < 0x1_0000_0000_0000_0000;
    assert n - Int64Min == 0x1_0000_0000_0000_0000 + m;
    assert (n - Int64Min) % 0x1_0000_0000_0000_0000 == m;
  }

  /** Page 2^57 + 1 of 100 users: (page-1)*100 = 100 * 2^57 exceeds the
      64-bit range and wraps to a negative offset. */
  lemma PagingOverflowExample()
    ensures Paging(0x200_0000_0000_0001, 100).0 < 0
  {
    PagingOffsetWraps(0x200_0000_0000_0001, 100);
  }

  /** The effect of an update request on a stored user. */
  function Updated(u: User, req: UpdateUserRequest, now: int): (v: User)
    ensures v.id == u.id && v.password == u.password && v.createdAt == u.createdAt && v.updatedAt == now
    ensures v.username == (if req.username != "" then req.username else u.username)
    ensures v.email == (if req.email != "" then req.email else u.email)
    ensures v.status == (if req.status.Some? then req.status.value else u.status)
  {
    u.(username := if req.username != "" then req.username else u.username,
       email := if req.email != "" then req.email else u.email,
       status := if req.status.Some? then req.status.value else u.status,
       updatedAt := now)
  }

  class UserService {
    var users: map<nat, User>
    /** the ID the database assigns to the next created user */
    var nextId: nat
    /** bcrypt.GenerateFromPassword */
    const hash: string -> Result<string>
    /** bcrypt.CompareHashAndPassword(hashed, plain) succeeds */
    const matches: (string, string) -> bool

    predicate Valid()
      reads this
    {
      StoreValid(users, nextId)
    }

    /** NewUserService over an existing repository. */
    constructor (users: map<nat, User>, nextId: nat, hash: string -> Result<string>, matches: (string, string) -> bool)
      requires StoreValid(users, nextId)
      ensures Valid()
      ensures this.users == users && this.nextId == nextId && this.hash == hash && this.matches == matches
    {
      this.users := users;
      this.nextId := nextId;
      this.hash := hash;
      this.matches := matches;
    }

    /** CreateUser: the username, then the email, must be free; the stored
        password is the hash; a new user is active. */
    method CreateUser(req: CreateUserRequest, now: int) returns (r: Result<UserResponse>)
      requires Valid()
      modifies this
      ensures Valid()
      ensures UsernameTaken(old(users), req.username) ==>
                r == Fail(Simple("username already exists")) && users == old(users)
      ensures !UsernameTaken(old(users), req.username) && EmailTaken(old(users), req.email) ==>
                r == Fail(Simple("email already exists")) && users == old(users)
      ensures !UsernameTaken(old(users), req.username) && !EmailTaken(old(users), req.email) ==>
                if hash(req.password).Fail? then
                  r == Fail(Wrapped("failed to hash password", hash(req.password).error)) && users == old(users)
                else
                  var u := User(old(nextId), req.username, req.email, hash(req.password).value, ActiveStatus, now, now);
                  users == old(users)[old(nextId) := u] && r == Ok(ToUserResponse(u))
    {
      if UsernameTaken(users, req.username) {
        return Fail(Simple("username already exists"));
      }
      if EmailTaken(users, req.email) {
        return Fail(Simple("email already exists"));
      }
      var hashed := hash(req.password);
      if hashed.Fail? {
        return Fail(Wrapped("failed to hash password", hashed.error));
      }
      var u := User(nextId, req.username, req.email, hashed.value, ActiveStatus, now, now);
      users := users[nextId := u];
      nextId := nextId + 1;
      r := Ok(ToUserResponse(u));
    }

    /** GetUser */
    function GetUser(id: nat): (r: Result<UserResponse>)
      reads this
      ensures id !in users <==> r == Fail(Simple("user not found"))
      ensures id in users ==> r == Ok(ToUserResponse(users[id]))
    {
      if id !in users then Fail(Simple("user not found")) else Ok(ToUserResponse(users[id]))
    }

    /** UpdateUser: the user must exist; a new username or email must not
        belong to another user; the fields are then overwritten in turn. */
    method UpdateUser(id: nat, req: UpdateUserRequest, now: int) returns (r: Result<UserResponse>)
      requires Valid()
      modifies this
      ensures Valid()
      ensures id !in old(users) ==> r == Fail(Simple("user not found")) && users == old(users)
      ensures id in old(users) && req.username != "" && UsernameTakenByOther(old(users), req.username, id) ==>
                r == Fail(Simple("username already exists")) && users == old(users)
      ensures id in old(users) && !(req.username != "" && UsernameTakenByOther(old(users), req.username, id)) &&
              req.email != "" && EmailTakenByOther(old(users), req.email, id) ==>
                r == Fail(Simple("email already exists")) && users == old(users)
      ensures r.Ok? <==> id in old(users) && !(req.username != "" && UsernameTakenByOther(old(users), req.username, id)) &&
                          !(req.email != "" && EmailTakenByOther(old(users), req.email, id))
      ensures r.Ok? ==> users == old(users)[id := Updated(old(users)[id], req, now)] &&
                        r.value == ToUserResponse(Updated(old(users)[id], req, now))
    {
      if id !in users {
        return Fail(Simple("user not found"));
      }
      var user := users[id];
      if req.username != "" {
        if UsernameTakenByOther(users, req.username, id) {
          return Fail(Simple("username already exists"));
        }
        user := user.(username := req.username);
      }
      if req.email != "" {
        if EmailTakenByOther(users, req.email, id) {
          return Fail(Simple("email already exists"));
        }
        user := user.(email := req.email);
      }
      if req.status.Some? {
        user := user.(status := req.status.value);
      }
      user := user.(updatedAt := now);
      assert user == Updated(old(users)[id], req, now);
      users := users[id := user];
      r := Ok(ToUserResponse(user));
    }

    /** DeleteUser: an unknown ID is reported and nothing is removed. */
    method DeleteUser(id: nat) returns (err: Option<Error>)
      requires Valid()
      modifies this
      ensures Valid()
      ensures id !in old(users) ==> err == Some(Simple("user not found")) && users == old(users)
      ensures id in old(users) ==> err == None && users == old(users) - {id}
      ensures nextId == old(nextId)
    {
      if id !in users {
        return Some(Simple("user not found"));
      }
      users := users - {id};
      err := None;
    }

    /** ListUsers: `list` is the repository's List(offset, limit). */
    method ListUsers(page: int, pageSize: int, list: (int, int) -> Result<(seq<User>, int)>) returns (r: Result<Page>)
      requires InInt64(page) && InInt64(pageSize)
      ensures var answer := list(Paging(page, pageSize).0, Paging(page, pageSize).1);
              && (answer.Fail? ==> r == Fail(Wrapped("failed to list users", answer.error)))
              && (answer.Ok? ==> r.Ok? && r.value.total == answer.value.1 &&
                                  |r.value.responses| == |answer.value.0| &&
                                  forall i :: 0 <= i < |answer.value.0| ==>
                                    r.value.responses[i] == ToUserResponse(answer.value.0[i]))
    {
      var p := page;
      var size := pageSize;
      if p < 1 {
        p := 1;
      }
      if size < 1 || size > 100 {
        size := 10;
      }
      var offset := WrapInt64((p - 1) * size);
      var answer := list(offset, size);
      if answer.Fail? {
        return Fail(Wrapped("failed to list users", answer.error));
      }
      var found := answer.value.0;
      var responses := new UserResponse[|found|];
      var i := 0;
      while i < |found|
        invariant 0 <= i <= |found| == responses.Length
        invariant forall k :: 0 <= k < i ==> responses[k] == ToUserResponse(found[k])
      {
        responses[i] := ToUserResponse(found[i]);
        i := i + 1;
      }
      r := Ok(Page(responses[..], answer.value.1));
    }

    /** Login: an unknown user and a wrong password get the same answer; a
        disabled account is reported before the password is checked. */
    method Login(username: string, password: string) returns (r: Result<UserResponse>)
      requires Valid()
      ensures !UsernameTaken(users, username) ==> r == Fail(Simple("invalid username or password"))
      ensures forall k :: k in users && users[k].username == username ==>
                if users[k].status != ActiveStatus then r == Fail(Simple("user account is disabled"))
                else if !matches(users[k].password, password) then r == Fail(Simple("invalid username or password"))
                else r == Ok(ToUserResponse(users[k]))
    {
      if !UsernameTaken(users, username) {
        return Fail(Simple("invalid username or password"));
      }
      var k :| k in users && users[k].username == username;
      var user := users[k];
      if user.status != ActiveStatus {
        return Fail(Simple("user account is disabled"));
      }
      if !matches(user.password, password) {
        return Fail(Simple("invalid username or password"));
      }
      r := Ok(ToUserResponse(user));
    }
  }
}

=== FILE: validator.dfy ===
/** The request validator's helpers of pkg/validator: the field name taken
    from a json tag, and the translation of validation errors with the
    top-level struct name stripped from every key. go-playground's
    validation and translation are abstracted. */
module Validator {
  import opened Strings

  /** The name the validator reports for a field: the json tag up to its
      first comma, and nothing for a tag of "-". */
  function TagName(jsonTag: string): (name: string)
    ensures ',' !in name
    ensures name != "" ==> HasPrefix(jsonTag, name) && (|name| == |jsonTag| || jsonTag[|name|] == ',')
    ensures Before(jsonTag, ',') == "-" <==> name == "" && Before(jsonTag, ',') != ""
  {
    var name := Before(jsonTag, ',');
    if name == "-" then "" else name
  }

  /** A tag without options names its field as it is, unless it is "-". */
  lemma TagNameWithoutOptions(jsonTag: string)
    requires ',' !in jsonTag && jsonTag != "-"
    ensures TagName(jsonTag) == jsonTag
  {
  }

  /** A key with its top-level struct name removed: everything up to and
      including the first '.', or the whole key when it has none. */
  function StripTop(key: string): string
  {
    var i := IndexOf(key, '.');
    key[i + 1..]
  }

  /** A key without '.' is kept; otherwise the part after the first '.'
      is, and it is shorter. */
  lemma StripTopMeaning(key: string)
    ensures '.' !in key ==> StripTop(key) == key
    ensures '.' in key ==> key == Before(key, '.') + "." + StripTop(key) && |StripTop(key)| < |key|
  {
    assert StripTop(key) == After(key, '.');
  }

  /** removeTopStruct: every message under its stripped key. When two keys
      strip to the same one, which message survives depends on Go's map
      order and is left open. */
  method RemoveTopStruct(fields: map<string, string>) returns (res: map<string, string>)
    ensures forall k :: k in fields ==> StripTop(k) in res
    ensures forall s :: s in res ==> exists k :: k in fields && StripTop(k) == s && res[s] == fields[k]
    ensures |res| <= |fields|
  {
    res := map[];
    var remaining := fields.Keys;
    while remaining != {}
      invariant remaining <= fields.Keys
      invariant forall k :: k in fields && k !in remaining ==> StripTop(k) in res
      invariant forall s :: s in res ==> exists k :: k in fields && StripTop(k) == s && res[s] == fields[k]
      decreases remaining
    {
      var field :| field in remaining;
      var key := StripTop(field);
      ghost var before := res;
      res := res[key := fields[field]];
      forall s | s in res
        ensures exists k :: k in fields && StripTop(k) == s && res[s] == fields[k]
      {
        if s == key {
          assert StripTop(field) == s && res[s] == fields[field];
        } else {
          assert s in before;
        }
      }
      remaining := remaining - {field};
    }
    NoMoreKeys(fields, res);
  }

  /** A map whose every key strips some key of `fields` has no more keys
      than `fields`. */
  lemma NoMoreKeys(fields: map<string, string>, res: map<string, string>)
    requires forall s :: s in res ==> exists k :: k in fields && StripTop(k) == s
    ensures |res| <= |fields|
  {
    var image := set k | k in fields :: StripTop(k);
    assert res.Keys <= image;
    var strip := StripTop;
    ImageSmaller(fields.Keys, strip);
    assert image == set k | k in fields.Keys :: strip(k);
    assert |res.Keys| <= |image| by {
      SubsetCardinality(res.Keys, image);
    }
    assert |res| == |res.Keys| && |fields| == |fields.Keys|;
  }

  lemma SubsetCardinality(a: set<string>, b: set<string>)
    requires a <= b
    ensures |a| <= |b|
  {
    assert b == a + (b - a);
  }

  /** Renaming keys never makes more keys. */
  lemma {:induction false} ImageSmaller(keys: set<string>, f: string -> string)
    ensures |set k | k in keys :: f(k)| <= |keys|
    decreases |keys|
  {
    if keys != {} {
      var k :| k in keys;
      var rest := keys - {k};
      ImageSmaller(rest, f);
      assert (set x | x in keys :: f(x)) == (set x | x in rest :: f(x)) + {f(k)};
    }
  }

  /** The error Translate is given: validation errors, already translated
      by go-playground into messages keyed "Struct.Field", or any other error. */
  datatype ValidateError = ValidationErrors(translated: map<string, string>) | OtherError

  /** Translate */
  method Translate(initialized: bool, err: ValidateError) returns (res: map<string, string>)
    ensures !initialized ==> res == map["error" := "validator not initialized"]
    ensures initialized && err.OtherError? ==> res == map["error" := "not a validation error"]
    ensures initialized && err.ValidationErrors? ==>
              && (forall k :: k in err.translated ==> StripTop(k) in res)
              && (forall s :: s in res ==> exists k :: k in err.translated && StripTop(k) == s && res[s] == err.translated[k])
  {
    if !initialized {
      return map["error" := "validator not initialized"];
    }
    if err.OtherError? {
      return map["error" := "not a validation error"];
    }
    res := RemoveTopStruct(err.translated);
  }
}

=== FILE: values.dfy ===
/** Go's dynamically typed `interface{}` values, as they reach the config
    checks and the scheduler's logger adapter, and fmt's `%v` rendering of
    them. */
module Values {
  import Decimal

  /** Signed and unsigned integers of every width are one case each; a Go
      map is listed by its entries in ascending key order (the order in which
      fmt prints maps); `Other` stands for a float or any other kind, carrying
      whether it is that kind's zero value and its `%v` text. */
  datatype Value =
    | Nil
    | Str(s: string)
    | Int(i: int)
    | Uint(u: nat)
    | Bool(b: bool)
    | List(items: seq<Value>)
    | Dict(entries: seq<(string, Value)>)
    | Other(zero: bool, text: string)

  /** Joins the pieces with `sep` between consecutive pieces. */
  function Join(pieces: seq<string>, sep: string): string
  {
    if |pieces| == 0 then ""
    else if |pieces| == 1 then pieces[0]
    else pieces[0] + sep + Join(pieces[1..], sep)
  }

  /** fmt's `%v` */
  function Format(v: Value): string
  {
    match v
    case Nil => "<nil>"
    case Str(s) => s
    case Int(i) => Decimal.IntToString(i)
    case Uint(u) => Decimal.NatToString(u)
    case Bool(b) => if b then "true" else "false"
    case List(items) =>
      "[" + Join(seq(|items|, k requires 0 <= k < |items| => Format(items[k])), " ") + "]"
    case Dict(entries) =>
      "map[" + Join(seq(|entries|, k requires 0 <= k < |entries| =>
                         entries[k].0 + ":" + Format(entries[k].1)), " ") + "]"
    case Other(_, text) => text
  }
}
